=== FILE: README.md ===
# Flexible job-shop construction scheduling, modelled in Dafny

This project models the scheduling engine of a Flexible Job-Shop Scheduling
program. The engine has three layers.

- **Precedence state** (`Operations`, `Jobs`, `Containers`):
  - A job is a DAG of operations. Each operation lists the (station, time)
    alternatives it may run on.
  - `restartJob` seeds the list of available operations.
  - `dumpOperation` is the only mutator. It marks an operation done,
    informs the successors and appends the ones that became free.
  - `Metrics` holds the integer graph metrics: critical path, successor
    upstream, latest finish, earliest start, and `eft`/`nc_criticalPath`.
    The source sums three of them in `float`, which is exact below 2^24
    (see Left out).
- **Station timeline** (`Timeline`):
  - Each station has one append-only lane of placements.
  - It answers earliest-start and earliest-end queries.
  - `stackScheduleOperation` is the commit primitive.
- **Greedy policies and drivers** (`Selection`, `Policies`, `Driver`, `Plans`):
  - Every planner scores the frontier of (job, available operation,
    eligible station) triples. It keeps the first triple whose score
    strictly beats the best so far, starting from a sentinel.
  - `ConstructionSolver` and the stand-alone `plan*` functions commit
    decisions until every job is done.

`Legacy` models the older, self-contained variant of the same engine in
src/Utils.hpp.

## How the model works

- **Data and errors.** All data is immutable:
  - `std::map` becomes a Dafny `map`, iterated through `SortedKeys` (ascending key order).
  - Every `throw`, every `std::map::at` miss, and every read of an
    uninitialised `ScheduleDecision` becomes a `Failure` of the `Result` type
    in `Wrappers`.
  - So does one case of undefined behaviour. When no alternative has the
    shortest time, `calculateES` falls off the end of its loop without
    returning (src/FJSS.cpp:231-236). It is modelled as
    `Failure(NoShortestStation)`.
- **Acyclicity.** It is witnessed by a rank map (`Jobs.Ranked`). The recursive
  metrics decrease along that rank.
- **Selection.** It is modelled once, in `Selection.FirstMin`, over lexicographic keys:
  - a rule that maximises a value minimises its negation;
  - two-key rules such as "most successors, then earliest end" compare lexicographically.
- **Commit.** `Driver` and `Plans` commit through `Timeline.Commit`. It is
  `stackScheduleOperation` with the availability check that the source
  omits (see Findings). Both agree on every triple of the frontier (`Driver.CommitAdvances`).
- **Where the description and the code disagree, the model follows the code.**
  - `getSuccessorsUpstream` counts successor paths with multiplicity, not
    distinct descendants. A successor reachable two ways is counted twice
    (`Metrics.UpstreamCountsPaths`).
  - `nc_criticalPath` iterates ids `0 .. |ops|-1` rather than the operation
    map. It is modelled that way.

## Model

| member | source | states |
|---|---|---|
| Operations.Restart | src/FJSS.cpp:19-24 | a restarted operation keeps its static data, is not done, has last-predecessor time 0, has exactly its predecessors outstanding, and is available iff it has no predecessors |
| Operations.PredecessorDone | src/FJSS.cpp:30-33 | only the reported predecessor stops being outstanding; the last-predecessor time becomes the larger of the old time and the reported end |
| Operations.PredecessorDoneIdempotent | src/FJSS.cpp:30-33 | reporting the same predecessor and time twice has the same effect as once |
| Operations.TimeOn | src/FJSS.cpp:39-46 | defined iff some alternative names the station, and then it is the time of the FIRST such alternative; otherwise the ineligible-station error |
| Operations.Shortest | src/FJSS.cpp:64-70 | no alternative is shorter than the result, which is IntMax or the time of some alternative |
| Operations.Longest | src/FJSS.cpp:72-79 | no alternative is longer than the result, which is 0 or the time of some alternative |
| Operations.ShortestAttained | src/FJSS.cpp:64-70 | with at least one alternative that fits in an int, the shortest time is attained by an alternative |
| Jobs.LinkPredecessors | src/FJSS.cpp:103-105 | each predecessor's successor list gains the new id at its end, and no other list changes |
| Jobs.AddOperation | src/FJSS.cpp:98-106 | `insert` keeps an existing operation with the same id; the new id and every predecessor get a successor-list entry |
| Jobs.AddOperationLinked | src/FJSS.cpp:98-106 | adding a fresh operation keeps the successor lists the exact inverse of the predecessor lists |
| Jobs.AddOperationsLinked | src/FJSS.cpp:108-110 | adding operations with distinct fresh ids keeps successors and predecessors mutually inverse |
| Jobs.AddOperationsKeys | src/FJSS.cpp:108-110 | after adding operations with distinct fresh ids, the job's operation ids are the old ones plus the new ones |
| Jobs.ReadyAmong | src/FJSS.cpp:92-95 | the available list holds exactly the ready operations, in ascending id order when the keys are ascending |
| Jobs.Restart | src/FJSS.cpp:90-96 | a restarted job keeps its shape, every operation is pending with all predecessors outstanding, and the available list is ascending and holds exactly the operations without predecessors |
| Jobs.RestartConsistent | src/FJSS.cpp:90-96 | restarting a well-formed acyclic job yields a consistent job in which every operation is still to be done |
| Jobs.Freed | src/FJSS.cpp:121-125 | the appended successors are exactly those whose outstanding set becomes empty, each once when the successor list has no duplicates |
| Jobs.NotifyAll | src/FJSS.cpp:121-125 | each successor is updated with the finished predecessor and its end time, and no other operation changes |
| Jobs.Dump | src/FJSS.cpp:112-127 | fails and changes nothing iff the id is not available; otherwise it removes the id, marks it done, updates each successor and appends the successors freed by it |
| Jobs.DumpTracked | src/FJSS.cpp:112-127 | on a consistent job, dumping an available operation keeps the available list exact and duplicate-free and keeps the outstanding sets exact, and finishes exactly that operation |
| Jobs.DumpConsistent | src/FJSS.cpp:112-127 | dumping an available operation keeps the job consistent and removes exactly that operation from the ones still to do |
| Jobs.PendingReachesAvailable | src/FJSS.cpp:133-135 | in a consistent job, an unfinished operation implies a non-empty available list |
| Jobs.DoneIffAllDone | src/FJSS.cpp:133-135 | `isDone` (Jobs.IsDone, an empty available list) holds of a consistent job iff every operation is done |
| Jobs.RemainingOperations | src/FJSS.cpp:251-259 | the count equals the number of operations not done |
| Containers.AddJob | src/FJSS.cpp:265-267 | `insert` keeps an existing job with the same id; otherwise the job is added and no other job changes |
| Containers.AddJobs | src/FJSS.cpp:269-271 | existing jobs are kept, every added id is present, and no other id appears |
| Containers.AddJobsFirstWins | src/FJSS.cpp:269-271 | of several added jobs with an id not yet present, the first one is stored: `insert` ignores the later ones |
| Containers.GetJob | src/FJSS.cpp:280-287 | the stored job for a known id, the missing-job error otherwise |
| Containers.Restart | src/FJSS.cpp:289-293 | every job is restarted and the set of job ids is unchanged |
| Containers.RestartValid | src/FJSS.cpp:289-293 | restarting a well-formed container yields a valid one with the same static data |
| Containers.RestartRemaining | src/FJSS.cpp:289-293 | after a restart every operation of every job is still to be scheduled |
| Containers.DoneIffNoneRemaining | src/FJSS.cpp:273-278 | the container `isDone` (Containers.IsDone, every job done) iff no (job, operation) pair remains to be scheduled, for a valid container |
| Containers.DumpIn | src/FJSS.cpp:364 | dumps in one job, reports whether the operation was available, and leaves every other job unchanged |
| Containers.DumpInRemaining | src/FJSS.cpp:364 | dumping an available operation removes exactly its pair from the remaining work |
| Metrics.CpMaxBound | src/FJSS.cpp:190-200 | no successor's critical path exceeds the successor maximum |
| Metrics.CpMaxAttained | src/FJSS.cpp:190-200 | the successor maximum is attained by a listed successor |
| Metrics.CriticalPathAtLeastOwn | src/FJSS.cpp:190-200 | an operation's critical path is at least its own shortest time, which is non-negative |
| Metrics.CriticalPathBound | src/FJSS.cpp:190-200 | no successor path starting at the operation weighs more than its critical path |
| Metrics.CriticalPathAttained | src/FJSS.cpp:190-200 | `criticalPath` (Metrics.CriticalPath) is attained: some successor path that ends in a sink weighs exactly the critical path, so with CriticalPathBound it is the heaviest path |
| Metrics.UpSumBound | src/FJSS.cpp:239-249 | each successor contributes its upstream count plus one to the sum |
| Metrics.UpstreamStep | src/FJSS.cpp:239-249 | upstream is 0 iff there are no successors, is at least the number of successors, and is strictly larger than every successor's upstream |
| Metrics.UpSumCountsPaths | src/FJSS.cpp:244-248 | the loop over the first n successors sums to the number of paths whose second operation is among those n successors |
| Metrics.UpstreamCountsPaths | src/FJSS.cpp:239-249 | `getSuccessorsUpstream` (Metrics.Upstream) equals the number of distinct successor paths of two or more operations from the operation, so a descendant reached along two paths counts twice |
| Metrics.LfMinFromCpMax | src/FJSS.cpp:202-216 | the minimum over successors of their latest start is the makespan minus the successors' maximum critical path |
| Metrics.LfFromCriticalPath | src/FJSS.cpp:202-216 | `calculateLF` (Metrics.LatestFinish, Metrics.CalculateLF with the schedule's makespan): latest finish = makespan − (critical path − own shortest time), hence never after the makespan |
| Metrics.EarliestStart | src/FJSS.cpp:218-237 | a successful earliest start is no earlier than the last predecessor end |
| Metrics.StationWithTime | src/FJSS.cpp:231-236 | defined iff some alternative has the requested time, and then it is the station of the first such alternative |
| Metrics.EarliestStartDefined | src/FJSS.cpp:218-237 | on a well-formed job whose stations exist, the earliest start is defined for every operation |
| Metrics.EarliestStartAfterPredecessors | src/FJSS.cpp:218-237 | the earliest start is no earlier than any unfinished predecessor's earliest start plus its shortest time, nor than the availability of the first station achieving the shortest time |
| Metrics.EftAfterPredecessors | src/FJSS.cpp:176-188 | an unfinished operation's eft is at least each predecessor's eft plus its own shortest time |
| Metrics.EftAttained | src/FJSS.cpp:176-188 | `eft` (Metrics.Eft) is attained: last predecessor end plus shortest time when done or without predecessors, otherwise the eft of some predecessor (or the starting -1) plus shortest time; with EftAfterPredecessors it is the maximum |
| Metrics.NcCriticalPathSpec | src/FJSS.cpp:163-174 | `nc_criticalPath` (Metrics.NcCriticalPath) is defined, bounds the eft of every sink, and is -1 or the eft of some sink |
| Timeline.NewSchedule | src/FJSS.cpp:335-337 | one empty lane per station |
| Timeline.Clear | src/FJSS.cpp:399-404 | the same number of lanes, all empty |
| Timeline.Availability | src/FJSS.cpp:368-376 | the end of the station's last placement or 0 for an empty lane; the missing-station error past the last lane |
| Timeline.MakeSpan | src/FJSS.cpp:390-397 | at least every non-empty lane's end, and 0 or the end of some lane |
| Timeline.FastestStart | src/FJSS.cpp:339-348 | the later of the last-predecessor time and the station availability; errors in the source's order: station, job, operation |
| Timeline.FastestEnd | src/FJSS.cpp:350-355 | the fastest start plus the first matching alternative's time; the ineligible-station error when there is none |
| Timeline.Stack | src/FJSS.cpp:357-366 | as written: succeeds iff job, operation, station and eligibility check out, appends exactly one placement at the fastest start to that lane only, and dumps with its end |
| Timeline.OrderedNoOverlap | src/FJSS.cpp:357-366 | on an ordered lane no placement ends after a later one starts |
| Timeline.StackSound | src/FJSS.cpp:357-366 | stacking keeps every lane ordered, so placements on a station never overlap |
| Timeline.StackMakeSpan | src/FJSS.cpp:390-397 | after a stack the makespan is the larger of the old makespan and the new placement's end, so it never decreases |
| Timeline.StackPlacesOne | src/FJSS.cpp:357-366 | a stack adds exactly one placement to the timeline |
| Timeline.StackPlacesUnavailable | src/FJSS.cpp:357-366 | a finished operation is placed again by the as-written stack but refused by the corrected commit |
| Timeline.Commit | src/FJSS.cpp:357-366 | corrected commit: succeeds iff the operation is available and the station exists and is eligible, and then agrees with the as-written stack; otherwise the not-available error |
| Selection.FirstMin | ConstructionAlgorithms.cpp:84-101 | picks the first minimal key that beats the sentinel, and nothing when no key beats it |
| Selection.FirstMinSelects | ConstructionAlgorithms.cpp:84-101 | any first minimum that beats the sentinel is the one selected |
| Policies.Successors | src/FJSS.cpp:137-139 | the successor list of a known operation, the missing-operation error otherwise |
| Policies.SlotsComplete | ConstructionAlgorithms.cpp:76-82 | every available operation of every job is in the enumerated frontier |
| Policies.Pick | ConstructionAlgorithms.cpp:84-101 | succeeds iff some key beats the sentinel, and then returns the item of the first minimal key |
| Policies.DecideInFrontier | ConstructionAlgorithms.cpp:73-135 | every greedy rule's planner (Policies.Decide: score the frontier, keep the first strict minimum) decides an available operation of a known job on one of its eligible stations |
| Policies.DecideMinimal | ConstructionAlgorithms.cpp:84-101 | no frontier triple has a key strictly smaller than the decided triple's key |
| Policies.EitMinimisesStart | ConstructionAlgorithms.cpp:73-103 | no frontier triple starts earlier than the EIT decision |
| Policies.EetMinimisesEnd | ConstructionAlgorithms.cpp:105-135 | no frontier triple ends earlier than the EET decision |
| Policies.SptMinimisesTime | ConstructionAlgorithms.cpp:206-232 | no frontier triple has a shorter processing time than the SPT decision |
| Policies.LptMaximisesTime | ConstructionAlgorithms.cpp:234-260 | no frontier triple has a longer processing time than the LPT decision |
| Policies.MsEetMostSuccessorsThenEnd | ConstructionAlgorithms.cpp:262-297 | the MS_EET decision has the most direct successors, and the earliest end among those with as many |
| Policies.MsEetDecides | ConstructionAlgorithms.cpp:275-294 | with a non-empty frontier MS_EET always decides, because every successor count beats its -1 sentinel |
| Policies.MsLamEetBestBalanceThenEnd | ConstructionAlgorithms.cpp:299-336 | the MS_LAM_EET decision maximises successors minus alternatives, then has the earliest end |
| Policies.MmwEetLeastWasteThenStart | ConstructionAlgorithms.cpp:380-417 | the MMW_EET decision has the least start − time − availability, then the earliest start |
| Policies.LeastLoadEarliestStation | Planner.hpp:103-138 | the `plan3` decision goes to a station that is available no later than the station of any frontier triple |
| Policies.SuccessorsThenEndBest | Planner.hpp:204-246 | the `plan5` decision has the most direct successors of any frontier triple and, among equal counts, the earliest fastest end |
| Policies.DemandThenEndBest | Planner.hpp:471-529 | the `plan10` decision uses a station of least demand and, among equal demand, has the earliest fastest end |
| Policies.DemandCounts | ConstructionAlgorithms.cpp:564-576 | the demand map (Policies.Demand) gives each station the number of alternatives on it over all (or only the unfinished) operations |
| Policies.MdLeastEndPlusDemand | ConstructionAlgorithms.cpp:561-608 | the MD decision minimises fastest end plus station demand over the frontier |
| Policies.ElftLeastEndPlusSlack | ConstructionAlgorithms.cpp:952-991 | the ELFT decision minimises fastest end plus slack (latest finish − earliest start − shortest time) |
| Policies.ScoreOps | ConstructionAlgorithms.cpp:1065-1098 | scoring the operations fails iff some enumerated operation is unknown, and otherwise keeps the enumeration order |
| Policies.ScoreOpsKey | ConstructionAlgorithms.cpp:1065-1098 | each operation is scored by the operation mode's value of its own job and operation |
| Policies.DispatchOpMinimal | ConstructionAlgorithms.cpp:1031-1048 | no available operation has a smaller operation score than the dispatched one; for LVL no available operation has a longer critical path |
| Policies.DispatchStationMinimal | ConstructionAlgorithms.cpp:1050-1063 | no alternative of the dispatched operation has a smaller station score (earliest end or shortest time) than the chosen station |
| Policies.DispatchInFrontier | ConstructionAlgorithms.cpp:1031-1063 | the dispatch planner (Policies.Dispatch: `Dispatch_Planner`/`LVL_Planner`, operation stage then station stage) decides a frontier triple |
| Policies.NcCpLargestCriticalPath | ConstructionAlgorithms.cpp:802-814 | the NC_CP decision belongs to an unfinished job whose nc_criticalPath is at least every unfinished job's |
| Policies.NcCpInFrontier | ConstructionAlgorithms.cpp:802-837 | the NC_CP planner (Policies.NcCp: job stage, then earliest end among that job's triples) decides a frontier triple |
| Policies.PlanInFrontier | ConstructionAlgorithms.cpp:73-135 | every modelled planner (Policies.Plan dispatches on the policy) decides an available operation of a known job on an eligible station |
| Driver.NewSolverValid | ConstructionAlgorithms.cpp:4-8 | the constructor (Driver.NewSolver restarts the container) starts, over a well-formed instance, from a valid container with every operation still to schedule |
| Driver.CommitAdvances | ConstructionAlgorithms.cpp:29-30 | a committed decision finishes exactly one operation, adds exactly one placement, and keeps a sound timeline sound with a makespan that does not shrink |
| Driver.Step | ConstructionAlgorithms.cpp:36-39 | a done solver is unchanged; otherwise the step advances, or the planner or the station lookup failed |
| Driver.ScheduleStep | ConstructionAlgorithms.cpp:25-32 | exactly min(n, remaining) operations are committed, none for n <= 0 or a done solver |
| Driver.StepDoneUnchanged | ConstructionAlgorithms.cpp:27-28 | stepping a done solver changes nothing |
| Driver.ScheduleAll | ConstructionAlgorithms.cpp:34-40 | on success every job is done and every operation got exactly one placement, on a timeline that stays sound |
| Plans.Choose | Planner.hpp:75-95 | the rule's decision, or the zero-initialised decision when nothing beats the sentinel |
| Plans.LowerKeeps | Planner.hpp:525 | plan10 lowers the chosen station's demand by exactly the one placement added there |
| Plans.Round | Planner.hpp:66-96 | one loop pass selects, lowers the demand and commits: the run stays accounted for and one operation fewer remains |
| Plans.Rounds | Planner.hpp:65-97 | on a container whose available lists are all empty the loop does nothing and hands back its input; from a valid container, on success the container is done and the run is accounted for: valid state, one placement per finished operation, sound timeline |
| Plans.RunGlobal | Planner.hpp:62-99 | on a never-restarted container (every available list empty) the result is the input container with a fresh timeline of stationCount empty lanes and the initial demand; from a valid container, a fresh timeline with stationCount lanes, every operation placed once, sound; for plan10 demand plus placements equals the initial demand |
| Plans.InitialDemand | Planner.hpp:475-485 | plan10 starts with the count of alternatives per station over every operation |
| Plans.BestStationEarliest | Planner.hpp:25-37 | `findBestAvailibleStation` (Plans.BestStation) picks the station with the earliest start among the operation's alternatives, strictly earlier than every alternative before it |
| Plans.FinishJob | Planner.hpp:15-20 | repeating "commit the front of the available list" finishes the job and changes no other job; on a container whose available lists are all empty nothing changes |
| Plans.FinishJobs | Planner.hpp:13-21 | jobs are finished one at a time in the given order, each left done, the rest untouched, the job ids kept; on a container whose available lists are all empty nothing changes |
| Plans.Plan0 | Planner.hpp:10-23 | on a never-restarted container (every job's available list empty) the result is the input container and stationCount empty lanes; from a valid container, a fresh timeline with stationCount lanes, every job done, every operation placed once, sound |
| Legacy.LPredecessorDone | src/Utils.hpp:41-44 | only the reported predecessor leaves the outstanding set; the last end becomes the larger of old and reported |
| Legacy.LProcessTime | src/Utils.hpp:50-54 | the time of the first entry for the station, -1 when there is none |
| Legacy.LProcessTimeAgrees | src/Utils.hpp:50-54 | the -1 lookup agrees with the throwing lookup of src/FJSS.cpp |
| Legacy.Notify | src/Utils.hpp:121-125 | only listed successors change, and the available list grows by a suffix of listed successors |
| Legacy.NotifyOps | src/Utils.hpp:121-125 | every successor is updated with the finished predecessor and its end |
| Legacy.NotifyAvailable | src/Utils.hpp:121-125 | a successor is appended iff it has no outstanding predecessor after the update |
| Legacy.LDump | src/Utils.hpp:114-127 | fails and changes nothing iff the id is not available; otherwise it removes it and leaves non-successors unchanged |
| Legacy.LDumpSuccessors | src/Utils.hpp:114-127 | each successor is updated, and it is among the appended ids iff it became free |
| Legacy.AllFinishedAmong | src/Utils.hpp:156-161 | true iff every visited job has an empty available list |
| Legacy.AllJobFinished | src/Utils.hpp:156-161 | `allJobFinished` is true iff every job is finished (Legacy.LIsFinished: an empty available list) |
| Legacy.AddJobs | src/Utils.hpp:152-154 | the ids after adding are the old ids plus the added ones |
| Legacy.AddJobsLastWins | src/Utils.hpp:152-154 | assignment through `operator[]` keeps the last job added under an id |
| Legacy.AddJobsKeeps | src/Utils.hpp:152-154 | jobs whose id is not added are unchanged |
| Legacy.LStack | src/Utils.hpp:176-190 | fails before any change iff the station is missing or ineligible; otherwise it appends one proxy at max(last predecessor end, station availability as in Legacy.LAvailability) on that station only and dumps with its end |
| Legacy.LStackOrdered | src/Utils.hpp:176-190 | stacking keeps the proxies of every station free of overlaps |
| Legacy.LStackPlacesUnavailable | src/Utils.hpp:176-190 | the as-written stack places an operation whose dump is refused |
| Legacy.LCommit | src/Utils.hpp:176-190 | corrected stack: refuses an unavailable operation, and otherwise agrees with the as-written one with a dump that succeeds |

## Left out

- Floating-point scoring is left out because it relies on tuned real-valued heuristics:
  - `averageProcessTime`, `remainingAverageProcessTime` and `avgTimeBlockedByOperation`;
  - MWKR, LWKR, MWKR_MS_LAM_EET, LPT_EET, HF1, HF2, EIT_OT, TBOP, TBOP_HF, TBOP_LA_EET, CP and CP_HF;
  - `dispatch_operation` modes 0, 2, 4, 7 and 9, and `dispatch_station` mode 1;
  - `jobRemainingProcessingTime` and `plan4`, `plan6`, `plan7`, `plan8`, `plan9`.
- `RNG_Planner` and `planRandom` are left out, because they draw from `rand()`.
- UI, console and I/O are left out:
  - the drawing widgets and `Schedule::print`;
  - the experiment harness in src/main.cpp;
  - the JSON loaders and the random instance generator;
  - the unused fixed-size layouts of GPUfjss.h.
- Dispatch modes: `dispatch_operation_mode` and `dispatch_station_mode` are global variables in the source. They are passed as arguments here, and out-of-range modes are not modelled, because the source falls off the end of a value-returning function for them.
- Float comparisons are modelled as exact integers:
  - the source compares integer scores as `float` against `float(INT_MAX)`;
  - the model compares exact integers against 2^31;
  - scores above 2^24, where `float` rounds, are not modelled.
- Default-constructed `Operation`: the id it leaves uninitialised is modelled as 0.
- src/Utils.hpp `addOperation`/`addOperations`/`addSuccessor` are left out; they are the loader's construction helpers of the older variant.
- Plan failures: when nothing beats a plan's sentinel, the plan commits the default decision (station 0, operation 0, job 0). The corrected commit refuses it unless it is available, so the model's plan ends with a failure where the source may stack forever.
- Uncached recursion: the source's metrics recurse without caching, at exponential cost. Only the values are modelled, not the cost.
- Legacy.LAvailability requires an existing station, because src/Utils.hpp:192-194 indexes the station list unchecked. Its only caller, `scheduleStackOperation`, checks the index first.
- Legacy.Notify: it states only the frame, the appended suffix and its membership. The exact per-successor effect is stated by Legacy.NotifyOps and Legacy.NotifyAvailable, and only for successor lists without duplicates.
- UpSumBound: states only that each successor contributes at least its upstream count plus one; the exact value is Metrics.UpSumCountsPaths.
- UpstreamStep: states only bounds; the exact value of `getSuccessorsUpstream` is Metrics.UpstreamCountsPaths.
- EftAfterPredecessors: states only the lower bounds; that the value is attained is Metrics.EftAttained.
- 32-bit `int` overflow: the model's integers are unbounded. Times are bounded by `IntMax` one by one, but the source's `int` sums can exceed it (undefined behaviour in C++), and the model computes them exactly:
  - start + duration in `endTime`, `fastestEndTimeForScheduleOperation` and `stackScheduleOperation`, and hence `makeSpan`;
  - latest finish − shortest time in `calculateLF` and the ELFT slack;
  - end + demand in MD, and the MMW_EET waste;
  - last predecessor end + shortest time in `eft`;
  - predecessor earliest start + shortest time in `calculateES` (src/FJSS.cpp:227; `Metrics.EfMax`);
  - `suc + getSuccessorsUpstream(successorID) + 1` in `getSuccessorsUpstream` (src/FJSS.cpp:246). This value counts paths, so it grows exponentially: about 31 chained diamonds push it past 2^31 − 1. From there `Metrics.UpstreamCountsPaths` (`Upstream == |paths|`) describes the exact count, where the source has undefined behaviour.
- `float` path sums: `criticalPath`, `eft` and `nc_criticalPath` add `int` times into a `float` (src/FJSS.cpp:163-190). That is exact only while the sums stay below 2^24; the model sums exactly on `int`, and the rounding above 2^24 is not modelled.
- Plans.RunGlobal, Plans.Plan0: the planners never restart the container. Both are modelled on two kinds of container: a valid (restarted) one, and a never-restarted one whose available lists are all empty, where the result is the input container and an empty timeline at once (Plans.Rounds, Plans.FinishJobs). A container in any other state is not covered. The source can produce one: `restartContainer()` followed by `addJob(j)` leaves j's available list empty while its operations are pending (src/FJSS.cpp:265-267, 289-293), and so does `getJob(id).restartJob()` on one job of a loaded container (src/FJSS.cpp:280-282, 90-96).
- Metrics.EarliestStart: its own contract states only the bound by the last-predecessor time. The predecessor and station bounds are in Metrics.EarliestStartAfterPredecessors; that the maximum is attained is not stated.

## Findings

| source | as written | input that shows it | evidently intended | confidence | as-written member | corrected member |
|---|---|---|---|---|---|---|
| src/FJSS.cpp:357-366 | `stackScheduleOperation` ignores the result of `dumpOperation`, so an unavailable (finished or still blocked) operation is placed anyway | one job whose only operation 0 is already done, station 0 eligible: the stack appends a second placement of operation 0 and the job does not change | refuse operations that are not in the available list | not executed | Timeline.StackPlacesUnavailable | Timeline.Commit |
| src/Utils.hpp:176-190 | `scheduleStackOperation` checks the station and eligibility but ignores the result of `dumpOperation` | a job whose operation 0 is not available: a proxy is appended while the dump is refused | refuse operations that are not available before appending | not executed | Legacy.LStackPlacesUnavailable | Legacy.LCommit |

=== FILE: collections.dfy ===
/** Sequence and set helpers: `std::find` + `erase`, duplicate-freedom and the
    ascending key order in which `std::map` is iterated. */
module Collections {

  predicate NoDup<T(==)>(s: seq<T>) {
    forall i, j :: 0 <= i < j < |s| ==> s[i] != s[j]
  }

  predicate Increasing(s: seq<nat>) {
    forall i, j :: 0 <= i < j < |s| ==> s[i] < s[j]
  }

  /** Index of the first occurrence of `x` in `s`, which must be present. */
  function IndexOf<T(==)>(s: seq<T>, x: T): (i: nat)
    requires x in s
    ensures i < |s| && s[i] == x && x !in s[..i]
  {
    if s[0] == x then 0 else 1 + IndexOf(s[1..], x)
  }

  /** `std::find` followed by `erase`: drop the first occurrence of `x`, if any. */
  function RemoveFirst<T(==)>(s: seq<T>, x: T): (r: seq<T>)
    ensures x !in s ==> r == s
    ensures x in s ==> r == s[..IndexOf(s, x)] + s[IndexOf(s, x) + 1..]
  {
    if x in s then s[..IndexOf(s, x)] + s[IndexOf(s, x) + 1..] else s
  }

  /** Element `k` of `s` with index `i` cut out. */
  lemma CutIndex<T>(s: seq<T>, i: nat, k: nat)
    requires i < |s| && k < |s| - 1
    ensures (s[..i] + s[i + 1..])[k] == if k < i then s[k] else s[k + 1]
  {
  }

  lemma CutNoDup<T>(s: seq<T>, i: nat)
    requires NoDup(s) && i < |s|
    ensures NoDup(s[..i] + s[i + 1..])
  {
    var r := s[..i] + s[i + 1..];
    forall a, b | 0 <= a < b < |r| ensures r[a] != r[b] {
      CutIndex(s, i, a);
      CutIndex(s, i, b);
    }
  }

  lemma CutMembers<T>(s: seq<T>, i: nat)
    requires NoDup(s) && i < |s|
    ensures forall y :: y in s[..i] + s[i + 1..] <==> y in s && y != s[i]
  {
    var r := s[..i] + s[i + 1..];
    forall y ensures y in r <==> y in s && y != s[i] {
      if y in r {
        var k :| 0 <= k < |r| && r[k] == y;
        CutIndex(s, i, k);
      }
      if y in s && y != s[i] {
        var k :| 0 <= k < |s| && s[k] == y;
        if k < i { CutIndex(s, i, k); } else { CutIndex(s, i, k - 1); }
      }
    }
  }

  /** Removing the first occurrence from a duplicate-free sequence removes
      exactly that element and keeps the rest duplicate-free. */
  lemma RemoveFirstNoDup<T>(s: seq<T>, x: T)
    requires NoDup(s)
    ensures NoDup(RemoveFirst(s, x))
    ensures forall y :: y in RemoveFirst(s, x) <==> y in s && y != x
    ensures x in s ==> |RemoveFirst(s, x)| == |s| - 1
  {
    if x in s {
      var i := IndexOf(s, x);
      CutNoDup(s, i);
      CutMembers(s, i);
    }
  }

  predicate IsMinOf(m: nat, s: set<nat>) {
    m in s && forall y :: y in s ==> m <= y
  }

  lemma HasMin(s: set<nat>)
    requires s != {}
    ensures exists m :: IsMinOf(m, s)
  {
    var x :| x in s;
    if s == {x} {
      assert IsMinOf(x, s);
    } else {
      var rest := s - {x};
      HasMin(rest);
      var m :| IsMinOf(m, rest);
      assert forall y :: y in s ==> y == x || y in rest;
      if x < m {
        assert IsMinOf(x, s);
      } else {
        assert IsMinOf(m, s);
      }
    }
  }

  function MinOf(s: set<nat>): (m: nat)
    requires s != {}
    ensures m in s && forall y :: y in s ==> m <= y
  {
    HasMin(s);
    var m :| IsMinOf(m, s); m
  }

  /** The keys of a `std::map` in the order its iterators visit them. */
  function SortedKeys(s: set<nat>): (r: seq<nat>)
    ensures Increasing(r)
    ensures forall x :: x in r <==> x in s
    ensures |r| == |s|
    decreases |s|
  {
    if s == {} then []
    else
      var m := MinOf(s);
      var rest := SortedKeys(s - {m});
      assert forall x :: x in rest ==> m < x;
      [m] + rest
  }

  lemma AppendNoDup<T>(s: seq<T>, x: T)
    requires NoDup(s) && x !in s
    ensures NoDup(s + [x])
  {
    var r := s + [x];
    forall i, j | 0 <= i < j < |r| ensures r[i] != r[j] {
      assert r[i] == s[i];
    }
  }

  lemma ConcatNoDup<T>(a: seq<T>, b: seq<T>)
    requires NoDup(a) && NoDup(b)
    requires forall y :: y in b ==> y !in a
    ensures NoDup(a + b)
  {
    var r := a + b;
    forall i, j | 0 <= i < j < |r| ensures r[i] != r[j] {
      if j >= |a| && i < |a| {
        assert r[j] == b[j - |a|] && r[i] == a[i];
        assert b[j - |a|] in b;
      } else if i >= |a| {
        assert r[i] == b[i - |a|] && r[j] == b[j - |a|];
      } else {
        assert r[i] == a[i] && r[j] == a[j];
      }
    }
  }

  /** A sequence without duplicates has as many elements as its set. */
  lemma {:induction false} NoDupCard<T>(s: seq<T>)
    requires NoDup(s)
    ensures |set y | y in s| == |s|
  {
    if s != [] {
      var init := s[..|s| - 1];
      var last := s[|s| - 1];
      assert s == init + [last];
      assert NoDup(init) by {
        forall i, j | 0 <= i < j < |init| ensures init[i] != init[j] {
          assert init[i] == s[i] && init[j] == s[j];
        }
      }
      NoDupCard(init);
      assert (set y | y in s) == (set y | y in init) + {last};
      assert last !in (set y | y in init);
    }
  }

  lemma IncreasingNoDup(s: seq<nat>)
    requires Increasing(s)
    ensures NoDup(s)
  {
  }

  lemma IncreasingHead(a: seq<nat>, x: nat)
    requires Increasing(a) && x in a
    ensures a[0] <= x
  {
  }

  lemma IncreasingTail(a: seq<nat>)
    requires Increasing(a) && a != []
    ensures Increasing(a[1..])
    ensures forall x :: x in a[1..] <==> x in a && x != a[0]
  {
    forall x ensures x in a[1..] <==> x in a && x != a[0] {
      if x in a && x != a[0] {
        var k :| 0 <= k < |a| && a[k] == x;
        assert a[1..][k - 1] == x;
      }
    }
  }

  /** An increasing sequence is determined by its elements. */
  lemma {:induction false} IncreasingUnique(a: seq<nat>, b: seq<nat>)
    requires Increasing(a) && Increasing(b)
    requires forall x :: x in a <==> x in b
    ensures a == b
    decreases |a|
  {
    if a != [] {
      assert a[0] in b;
      IncreasingHead(b, a[0]);
      IncreasingHead(a, b[0]);
      IncreasingTail(a);
      IncreasingTail(b);
      IncreasingUnique(a[1..], b[1..]);
      assert a == [a[0]] + a[1..];
      assert b == [b[0]] + b[1..];
    } else if b != [] {
      IncreasingHead(b, b[0]);
      assert false;
    }
  }
}

=== FILE: containers.dfy ===
/** `fjss::JobContainer` (src/FJSS.cpp:265-303): the jobs of one problem
    instance, keyed by job id, and the number of stations. */
module Containers {
  import opened Wrappers
  import opened Collections
  import opened Operations
  import opened Jobs

  datatype Container = Container(jobs: map<nat, Job>, stationCount: int)

  /** A container with no jobs. */
  function NewContainer(stationCount: int): Container {
    Container(map[], stationCount)
  }

  /** `addJob`: `std::map::insert` keeps an existing job with the same id. */
  function AddJob(c: Container, job: Job): (r: Container)
    ensures r.stationCount == c.stationCount
    ensures r.jobs.Keys == c.jobs.Keys + {job.id}
    ensures job.id in c.jobs ==> r == c
    ensures job.id !in c.jobs ==> r.jobs[job.id] == job
    ensures forall j :: j in c.jobs ==> r.jobs[j] == c.jobs[j]
  {
    if job.id in c.jobs then c else c.(jobs := c.jobs[job.id := job])
  }

  /** `addJobs`. */
  function AddJobs(c: Container, jobs: seq<Job>): (r: Container)
    ensures r.stationCount == c.stationCount
    ensures forall j :: j in c.jobs ==> j in r.jobs && r.jobs[j] == c.jobs[j]
    ensures forall i :: 0 <= i < |jobs| ==> jobs[i].id in r.jobs
    ensures forall j :: j in r.jobs ==> j in c.jobs || exists i :: 0 <= i < |jobs| && jobs[i].id == j
    decreases |jobs|
  {
    if jobs == [] then c
    else
      var r := AddJobs(AddJob(c, jobs[0]), jobs[1..]);
      assert forall i :: 1 <= i < |jobs| ==> jobs[i] == jobs[1..][i - 1];
      r
  }

  /** Of several added jobs with an id the container does not hold yet, the
      first one wins: `insert` ignores the later ones. */
  lemma {:induction false} AddJobsFirstWins(c: Container, jobs: seq<Job>, i: nat)
    requires i < |jobs| && jobs[i].id !in c.jobs
    requires forall k :: 0 <= k < i ==> jobs[k].id != jobs[i].id
    ensures AddJobs(c, jobs).jobs[jobs[i].id] == jobs[i]
    decreases |jobs|
  {
    if i > 0 {
      var rest := jobs[1..];
      assert rest[i - 1] == jobs[i];
      forall k | 0 <= k < i - 1 ensures rest[k].id != jobs[i].id {
        assert rest[k] == jobs[k + 1];
      }
      AddJobsFirstWins(AddJob(c, jobs[0]), rest, i - 1);
    }
  }

  /** `getJob`: `std::map::at` throws for an unknown id. */
  function GetJob(c: Container, jobId: nat): (r: Result<Job>)
    ensures r.Success? <==> jobId in c.jobs
    ensures r.Success? ==> r.value == c.jobs[jobId]
    ensures r.Failure? ==> r.error == NoSuchJob
  {
    if jobId in c.jobs then Success(c.jobs[jobId]) else Failure(NoSuchJob)
  }

  /** `JobContainer::isDone`: every job's available list is empty. */
  predicate IsDone(c: Container) {
    forall j :: j in c.jobs ==> Jobs.IsDone(c.jobs[j])
  }

  /** `restartContainer`: every job is restarted. */
  function Restart(c: Container): (r: Container)
    ensures r.stationCount == c.stationCount && r.jobs.Keys == c.jobs.Keys
    ensures forall j :: j in c.jobs ==> r.jobs[j] == Jobs.Restart(c.jobs[j])
  {
    c.(jobs := map j | j in c.jobs :: Jobs.Restart(c.jobs[j]))
  }

  // ---------------------------------------------------------------- validity

  /** A well-formed instance: jobs are stored under their own id and every
      job is a well-formed acyclic problem. */
  ghost predicate WellFormed(c: Container) {
    forall j :: j in c.jobs ==> c.jobs[j].id == j && Shaped(c.jobs[j]) && Acyclic(c.jobs[j])
  }

  /** A well-formed instance whose precedence state is consistent. */
  ghost predicate Valid(c: Container) {
    forall j :: j in c.jobs ==> c.jobs[j].id == j && Consistent(c.jobs[j])
  }

  /** The (job, operation) pairs still to be scheduled. */
  ghost function Remaining(c: Container): set<(nat, nat)> {
    set j, x | j in c.jobs && x in c.jobs[j].ops && !c.jobs[j].ops[x].done :: (j, x)
  }

  /** Restarting a well-formed container yields a valid one with the same
      static data, and leaves every operation to be scheduled. */
  lemma RestartValid(c: Container)
    requires WellFormed(c)
    ensures Valid(Restart(c))
    ensures forall j :: j in c.jobs ==> Jobs.SameShape(c.jobs[j], Restart(c).jobs[j])
  {
    forall j | j in c.jobs
      ensures Consistent(Restart(c).jobs[j]) && Jobs.SameShape(c.jobs[j], Restart(c).jobs[j])
    {
      RestartConsistent(c.jobs[j]);
    }
  }

  /** After a restart every operation of every job remains to be scheduled. */
  lemma RestartRemaining(c: Container)
    ensures Remaining(Restart(c)) == set j, x | j in c.jobs && x in c.jobs[j].ops :: (j, x)
  {
    var r := Restart(c);
    forall j | j in c.jobs ensures r.jobs[j].ops.Keys == c.jobs[j].ops.Keys {
    }
  }

  lemma RemainingMember(c: Container, j: nat, x: nat)
    ensures (j, x) in Remaining(c) <==> j in c.jobs && x in NotDone(c.jobs[j])
  {
  }

  /** A job is done exactly when none of its operations remains. */
  lemma JobDoneIff(c: Container, j: nat)
    requires Valid(c) && j in c.jobs
    ensures Jobs.IsDone(c.jobs[j]) <==> NotDone(c.jobs[j]) == {}
  {
    DoneIffAllDone(c.jobs[j], RankOf(c.jobs[j]));
  }

  /** For a valid container, `isDone` holds exactly when no operation of any
      job remains to be scheduled. */
  lemma DoneIffNoneRemaining(c: Container)
    requires Valid(c)
    ensures IsDone(c) <==> Remaining(c) == {}
  {
    if !IsDone(c) {
      var j :| j in c.jobs && !Jobs.IsDone(c.jobs[j]);
      JobDoneIff(c, j);
      var x :| x in NotDone(c.jobs[j]);
      RemainingMember(c, j, x);
    }
    if Remaining(c) != {} {
      var p :| p in Remaining(c);
      RemainingMember(c, p.0, p.1);
      JobDoneIff(c, p.0);
    }
  }

  /** `dumpOperation` on one job of the container. */
  function DumpIn(c: Container, jobId: nat, x: nat, t: int): (r: (bool, Container))
    requires jobId in c.jobs
    ensures r.1.stationCount == c.stationCount && r.1.jobs.Keys == c.jobs.Keys
    ensures r.0 <==> x in c.jobs[jobId].available
    ensures r.1.jobs[jobId] == Dump(c.jobs[jobId], x, t).1
    ensures forall j :: j in c.jobs && j != jobId ==> r.1.jobs[j] == c.jobs[j]
  {
    var d := Dump(c.jobs[jobId], x, t);
    (d.0, c.(jobs := c.jobs[jobId := d.1]))
  }

  /** Dumping an available operation keeps the container valid, changes no
      static data, and removes exactly that operation from what remains. */
  lemma DumpInValid(c: Container, jobId: nat, x: nat, t: int)
    requires Valid(c) && jobId in c.jobs && x in c.jobs[jobId].available
    ensures var r := DumpIn(c, jobId, x, t).1;
      && Valid(r)
      && (forall j :: j in c.jobs ==> Jobs.SameShape(c.jobs[j], r.jobs[j]))
  {
    var r := DumpIn(c, jobId, x, t).1;
    DumpConsistent(c.jobs[jobId], x, t);
    forall j | j in r.jobs
      ensures r.jobs[j].id == j && Consistent(r.jobs[j]) && Jobs.SameShape(c.jobs[j], r.jobs[j])
    {
      if j != jobId {
        assert r.jobs[j] == c.jobs[j];
        SameShapeReflexive(c.jobs[j]);
      }
    }
  }

  /** Replacing one job by a job with one operation fewer left to do removes
      exactly that pair from what remains. */
  lemma RemainingAfterReplace(c: Container, jobId: nat, job: Job, x: nat)
    requires jobId in c.jobs && NotDone(job) == NotDone(c.jobs[jobId]) - {x}
    ensures Remaining(c.(jobs := c.jobs[jobId := job])) == Remaining(c) - {(jobId, x)}
  {
    var r := c.(jobs := c.jobs[jobId := job]);
    forall p | p in Remaining(r) ensures p in Remaining(c) && p != (jobId, x) {
      RemainingMember(r, p.0, p.1);
      RemainingMember(c, p.0, p.1);
    }
    forall p | p in Remaining(c) && p != (jobId, x) ensures p in Remaining(r) {
      RemainingMember(r, p.0, p.1);
      RemainingMember(c, p.0, p.1);
    }
  }

  /** Dumping an available operation removes exactly that operation from what
      remains to be scheduled. */
  lemma DumpInRemaining(c: Container, jobId: nat, x: nat, t: int)
    requires jobId in c.jobs && Consistent(c.jobs[jobId]) && x in c.jobs[jobId].available
    ensures (jobId, x) in Remaining(c)
    ensures Remaining(DumpIn(c, jobId, x, t).1) == Remaining(c) - {(jobId, x)}
  {
    DumpProgress(c.jobs[jobId], x, t);
    RemainingMember(c, jobId, x);
    RemainingAfterReplace(c, jobId, Dump(c.jobs[jobId], x, t).1, x);
  }
}

=== FILE: driver.dfy ===
/** `ConstructionSolver` (ConstructionAlgorithms.cpp:4-40): a container, a
    timeline and a planner; each step asks the planner for a decision and
    commits it, until every job is done. */
module Driver {
  import opened Wrappers
  import opened Operations
  import opened Jobs
  import opened Containers
  import opened Timeline
  import opened Metrics
  import opened Policies

  datatype Solver = Solver(container: Container, schedule: Schedule, policy: Policy)

  /** The constructor restarts the container it is given. */
  function NewSolver(c: Container, sch: Schedule, policy: Policy): Solver {
    Solver(Containers.Restart(c), sch, policy)
  }

  /** `ConstructionSolver::isDone`. */
  predicate IsDone(s: Solver) {
    Containers.IsDone(s.container)
  }

  /** A solver built over a well-formed instance is valid and has every
      operation of every job still to schedule. */
  lemma NewSolverValid(c: Container, sch: Schedule, policy: Policy)
    requires WellFormed(c)
    ensures Valid(NewSolver(c, sch, policy).container)
    ensures Remaining(NewSolver(c, sch, policy).container) == set j, x | j in c.jobs && x in c.jobs[j].ops :: (j, x)
  {
    RestartValid(c);
    RestartRemaining(c);
  }

  /** A valid container satisfies what every planner needs. */
  lemma ValidGraphs(c: Container)
    requires Valid(c)
    ensures Graphs(c) && Keyed(c)
  {
    forall k | k in c.jobs ensures Graph(c.jobs[k]) {
      assert Consistent(c.jobs[k]);
    }
  }

  /** A defined time on a station of a valid container is one of the
      operation's alternatives, so it is not negative. */
  lemma TimeNonNegative(c: Container, jobId: nat, opId: nat, station: nat)
    requires Valid(c) && jobId in c.jobs && opId in c.jobs[jobId].ops
    requires ProcessTimeOn(c.jobs[jobId].ops[opId], station).Success?
    ensures ProcessTimeOn(c.jobs[jobId].ops[opId], station).value >= 0
  {
    var job := c.jobs[jobId];
    assert Consistent(job) && Shaped(job);
    var entries := job.ops[opId].stations;
    var i :| 0 <= i < |entries| && entries[i].station == station
      && entries[i].time == ProcessTimeOn(job.ops[opId], station).value;
    assert 0 <= entries[i].time;
  }

  /** What one committed decision does to the solver: the container stays
      valid, exactly the committed operation leaves the work still to do, the
      timeline gains exactly one placement, and a sound timeline stays sound
      with a makespan that does not shrink. */
  ghost predicate Advanced(s: Solver, r: Solver) {
    && Valid(r.container)
    && r.policy == s.policy
    && Remaining(r.container) < Remaining(s.container)
    && |Remaining(r.container)| == |Remaining(s.container)| - 1
    && Placed(r.schedule) == Placed(s.schedule) + 1
    && (Sound(s.schedule) ==> Sound(r.schedule) && MakeSpan(s.schedule) <= MakeSpan(r.schedule))
  }

  /** Committing on a valid container keeps it valid, changes only the
      committed job, and finishes exactly the committed operation. */
  lemma CommitContainer(c: Container, sch: Schedule, d: Decision)
    requires Valid(c)
    requires Commit(sch, c, d.station, d.jobId, d.opId).Success?
    ensures var r := Commit(sch, c, d.station, d.jobId, d.opId).value.container;
      && Valid(r) && r.jobs.Keys == c.jobs.Keys && r.stationCount == c.stationCount
      && (forall j :: j in c.jobs && j != d.jobId ==> r.jobs[j] == c.jobs[j])
      && d.opId in NotDone(c.jobs[d.jobId])
      && NotDone(r.jobs[d.jobId]) == NotDone(c.jobs[d.jobId]) - {d.opId}
      && (d.jobId, d.opId) in Remaining(c)
      && Remaining(r) == Remaining(c) - {(d.jobId, d.opId)}
      && Remaining(r) < Remaining(c) && |Remaining(r)| == |Remaining(c)| - 1
  {
    var st := Commit(sch, c, d.station, d.jobId, d.opId).value;
    assert st.container == DumpIn(c, d.jobId, d.opId, End(st.placed)).1;
    DumpInValid(c, d.jobId, d.opId, End(st.placed));
    DumpConsistent(c.jobs[d.jobId], d.opId, End(st.placed));
    DumpInRemaining(c, d.jobId, d.opId, End(st.placed));
    RemoveOne(Remaining(c), (d.jobId, d.opId));
  }

  lemma RemoveOne<T>(a: set<T>, x: T)
    requires x in a
    ensures a - {x} < a && |a - {x}| == |a| - 1
  {
  }

  /** The timeline after committing a frontier triple has one placement more,
      and a sound timeline stays sound with a makespan that does not shrink. */
  lemma CommitTimeline(c: Container, sch: Schedule, d: Decision)
    requires Valid(c)
    requires Commit(sch, c, d.station, d.jobId, d.opId).Success?
    ensures var r := Commit(sch, c, d.station, d.jobId, d.opId).value.schedule;
      && Placed(r) == Placed(sch) + 1
      && |r.lanes| == |sch.lanes| && d.station < |sch.lanes|
      && |r.lanes[d.station]| == |sch.lanes[d.station]| + 1
      && (forall t :: 0 <= t < |sch.lanes| && t != d.station ==> r.lanes[t] == sch.lanes[t])
      && (Sound(sch) ==> Sound(r) && MakeSpan(sch) <= MakeSpan(r))
  {
    var st := Stack(sch, c, d.station, d.jobId, d.opId).value;
    TimeNonNegative(c, d.jobId, d.opId, d.station);
    assert st.placed.duration >= 0;
    StackPlacesOne(sch, c, d.station, d.jobId, d.opId);
    if Sound(sch) {
      StackSound(sch, c, d.station, d.jobId, d.opId);
      StackMakeSpan(sch, c, d.station, d.jobId, d.opId);
    }
  }

  /** Committing a frontier triple: the corrected commit agrees with
      `stackScheduleOperation` as written, and the solver advances. */
  lemma CommitAdvances(s: Solver, d: Decision)
    requires Valid(s.container)
    requires Commit(s.schedule, s.container, d.station, d.jobId, d.opId).Success?
    ensures var st := Commit(s.schedule, s.container, d.station, d.jobId, d.opId).value;
      && Stack(s.schedule, s.container, d.station, d.jobId, d.opId) == Success(st)
      && Advanced(s, Solver(st.container, st.schedule, s.policy))
  {
    var c := s.container;
    var st := Commit(s.schedule, c, d.station, d.jobId, d.opId).value;
    CommitContainer(c, s.schedule, d);
    CommitTimeline(c, s.schedule, d);
  }

  /** One iteration of `scheduleStep`/`scheduleAll`: nothing happens once the
      container is done; otherwise the planner's decision is committed. An
      undecided planner and a failed commit are reported. */
  function Step(s: Solver): (r: Result<Solver>)
    requires Valid(s.container)
    ensures IsDone(s) ==> r == Success(s)
    ensures !IsDone(s) && r.Success? ==> Advanced(s, r.value)
    ensures !IsDone(s) && r.Failure? ==>
      Plan(s.policy, s.container, s.schedule).Failure? || r.error == NoSuchStation
  {
    if IsDone(s) then Success(s)
    else
      ValidGraphs(s.container);
      var d :- Plan(s.policy, s.container, s.schedule);
      PlanInFrontier(s.policy, s.container, s.schedule);
      var st :- Commit(s.schedule, s.container, d.station, d.jobId, d.opId);
      CommitAdvances(s, d);
      Success(Solver(st.container, st.schedule, s.policy))
  }

  /** The number of commits `scheduleStep(n)` makes with `remaining`
      operations left: min(n, remaining), none for a non-positive `n`. */
  function StepCount(n: int, remaining: nat): nat {
    if n <= 0 then 0 else if n < remaining then n else remaining
  }

  /** What `k` commits leave behind: a valid container under the same
      policy with `k` fewer operations to do, one placement per commit, and a
      sound timeline kept sound with a makespan that does not shrink. */
  ghost predicate Steps(s: Solver, r: Solver, k: nat) {
    && Valid(r.container) && r.policy == s.policy
    && |Remaining(r.container)| + k == |Remaining(s.container)|
    && Placed(r.schedule) == Placed(s.schedule) + k
    && (Sound(s.schedule) ==> Sound(r.schedule) && MakeSpan(s.schedule) <= MakeSpan(r.schedule))
  }

  /** `scheduleStep(stepCount)`: at most `stepCount` commits, stopping early
      once the container is done, so exactly min(stepCount, remaining)
      operations get placed. */
  function ScheduleStep(s: Solver, n: int): (r: Result<Solver>)
    requires Valid(s.container)
    ensures IsDone(s) || n <= 0 ==> r == Success(s)
    ensures r.Success? ==> Steps(s, r.value, StepCount(n, |Remaining(s.container)|))
    decreases n
  {
    if n <= 0 || IsDone(s) then
      StepsNone(s, n);
      Success(s)
    else
      DoneIffNoneRemaining(s.container);
      var next :- Step(s);
      var r :- ScheduleStep(next, n - 1);
      StepsCompose(s, next, r, n);
      Success(r)
  }

  /** No commit at all: zero steps, or a solver that is already done. */
  lemma StepsNone(s: Solver, n: int)
    requires Valid(s.container) && (n <= 0 || IsDone(s))
    ensures Steps(s, s, StepCount(n, |Remaining(s.container)|))
  {
    DoneIffNoneRemaining(s.container);
  }

  /** One commit followed by `n - 1` more steps accounts for `n` steps. */
  lemma StepsCompose(s: Solver, next: Solver, r: Solver, n: int)
    requires n > 0 && Remaining(s.container) != {} && Advanced(s, next)
    requires Steps(next, r, StepCount(n - 1, |Remaining(next.container)|))
    ensures Steps(s, r, StepCount(n, |Remaining(s.container)|))
  {
  }

  /** Stepping a solver that is already done changes nothing. */
  lemma StepDoneUnchanged(s: Solver, n: int)
    requires Valid(s.container) && IsDone(s)
    ensures Step(s) == Success(s) && ScheduleStep(s, n) == Success(s)
  {
  }

  /** `scheduleAll`: commit until the container is done. The loop ends
      because every commit finishes one more operation. On success every
      operation is done, each one placed exactly once. */
  method ScheduleAll(s: Solver) returns (r: Result<Solver>)
    requires Valid(s.container)
    ensures r.Success? ==> IsDone(r.value) && Remaining(r.value.container) == {}
    ensures r.Success? ==> Valid(r.value.container) && r.value.policy == s.policy
    ensures r.Success? ==> Placed(r.value.schedule) == Placed(s.schedule) + |Remaining(s.container)|
    ensures r.Success? && Sound(s.schedule) ==> Sound(r.value.schedule) && MakeSpan(s.schedule) <= MakeSpan(r.value.schedule)
  {
    var cur := s;
    while !IsDone(cur)
      invariant Valid(cur.container) && cur.policy == s.policy
      invariant Placed(cur.schedule) + |Remaining(cur.container)| == Placed(s.schedule) + |Remaining(s.container)|
      invariant Sound(s.schedule) ==> Sound(cur.schedule) && MakeSpan(s.schedule) <= MakeSpan(cur.schedule)
      decreases |Remaining(cur.container)|
    {
      var next := Step(cur);
      if next.Failure? {
        return Failure(next.error);
      }
      cur := next.value;
    }
    DoneIffNoneRemaining(cur.container);
    return Success(cur);
  }
}

=== FILE: jobs.dfy ===
/** `fjss::Job` (src/FJSS.cpp:85-259, FJSS.hpp:62-93): a job's operations, the
    successor lists derived from their predecessor lists, and the list of
    operations that are ready to be scheduled. `dumpOperation` is the only
    step that changes the precedence state. */
module Jobs {
  import opened Wrappers
  import opened Collections
  import opened Operations

  datatype Job = Job(
    id: nat,
    typeId: nat,
    ops: map<nat, Operation>,
    available: seq<nat>,             // ready operations, in the order they became ready
    successors: map<nat, seq<nat>>)  // inverse of the predecessor lists

  /** `Job::Job(jobID)`. */
  function NewJob(id: nat): Job {
    Job(id, 0, map[], [], map[])
  }

  /** `m_operations[x]`: `std::map::operator[]` yields a blank operation for a missing id. */
  function OpAt(ops: map<nat, Operation>, x: nat): Operation {
    if x in ops then ops[x] else Blank
  }

  /** `m_successors[x]`, empty for an id that has no entry yet. */
  function SuccessorsOf(job: Job, x: nat): seq<nat> {
    if x in job.successors then job.successors[x] else []
  }

  // ---------------------------------------------------------------- shape

  /** The successor lists are exactly the inverse of the predecessor lists. */
  ghost predicate Linked(job: Job) {
    && job.ops.Keys <= job.successors.Keys
    && (forall p, s :: p in job.successors && s in job.successors[p] ==>
          s in job.ops && p in job.ops[s].predecessors)
    && (forall s, p :: s in job.ops && p in job.ops[s].predecessors ==>
          p in job.successors && s in job.successors[p])
    && (forall p :: p in job.successors ==> NoDup(job.successors[p]))
  }

  /** A well-formed problem instance: operations are stored under their own id,
      predecessors name operations of the same job without repetition, and every
      operation has at least one alternative, each with a non-negative `int` time. */
  ghost predicate Shaped(job: Job) {
    && (forall x :: x in job.ops ==> job.ops[x].id == x)
    && (forall x, p :: x in job.ops && p in job.ops[x].predecessors ==> p in job.ops)
    && (forall x :: x in job.ops ==> NoDup(job.ops[x].predecessors))
    && (forall x :: x in job.ops ==> job.ops[x].stations != [])
    && (forall x, k :: x in job.ops && 0 <= k < |job.ops[x].stations| ==>
          0 <= job.ops[x].stations[k].time <= IntMax)
    && Linked(job)
  }

  /** `rank` witnesses that the precedence graph is acyclic: every predecessor
      has a smaller rank, and ranks stay below the number of operations. */
  ghost predicate Ranked(job: Job, rank: map<nat, nat>) {
    && (forall x :: x in job.ops ==> x in rank && rank[x] < |job.ops|)
    && (forall x, p :: x in job.ops && p in job.ops[x].predecessors ==>
          p in rank && x in rank && rank[p] < rank[x])
  }

  /** The precedence graph of a job has no cycle. */
  ghost predicate Acyclic(job: Job) {
    exists rank :: Ranked(job, rank)
  }

  /** A rank witnessing acyclicity; recursive metrics decrease along it. */
  ghost function RankOf(job: Job): (rank: map<nat, nat>)
    requires Acyclic(job)
    ensures Ranked(job, rank)
  {
    var rank :| Ranked(job, rank); rank
  }

  /** Two jobs that differ at most in their precedence state. */
  ghost predicate SameShape(a: Job, b: Job) {
    && a.id == b.id
    && a.typeId == b.typeId
    && a.successors == b.successors
    && a.ops.Keys == b.ops.Keys
    && (forall x :: x in a.ops ==> Operations.SameShape(a.ops[x], b.ops[x]))
  }

  lemma SameShapeReflexive(job: Job)
    ensures SameShape(job, job)
  {
  }

  lemma ShapedTransfers(a: Job, b: Job)
    requires SameShape(a, b) && Shaped(a)
    ensures Shaped(b)
  {
    forall x | x in b.ops ensures Operations.SameShape(a.ops[x], b.ops[x]) { }
    assert Linked(b) by {
      forall p, s | p in b.successors && s in b.successors[p]
        ensures s in b.ops && p in b.ops[s].predecessors
      {
        assert s in a.ops && p in a.ops[s].predecessors;
      }
      forall s, p | s in b.ops && p in b.ops[s].predecessors
        ensures p in b.successors && s in b.successors[p]
      {
        assert p in a.ops[s].predecessors;
      }
    }
    forall x, k | x in b.ops && 0 <= k < |b.ops[x].stations|
      ensures 0 <= b.ops[x].stations[k].time <= IntMax
    {
      assert b.ops[x].stations[k] == a.ops[x].stations[k];
    }
  }

  lemma RankedTransfers(a: Job, b: Job, rank: map<nat, nat>)
    requires SameShape(a, b) && Ranked(a, rank)
    ensures Ranked(b, rank)
  {
    assert |a.ops| == |a.ops.Keys| == |b.ops.Keys| == |b.ops|;
    forall x, p | x in b.ops && p in b.ops[x].predecessors
      ensures p in rank && x in rank && rank[p] < rank[x]
    {
      assert p in a.ops[x].predecessors;
    }
  }

  /** A successor has a larger rank than its predecessor. */
  lemma SuccessorRank(job: Job, rank: map<nat, nat>, x: nat, s: nat)
    requires Shaped(job) && Ranked(job, rank)
    requires x in job.ops && s in SuccessorsOf(job, x)
    ensures s in job.ops && x in job.ops[s].predecessors && rank[x] < rank[s]
  {
  }

  // -------------------------------------------------------- precedence state

  /** The available list holds exactly the operations that are not done and
      have no outstanding predecessor. */
  ghost predicate AvailableExact(job: Job) {
    forall x :: x in job.available <==> x in job.ops && !job.ops[x].done && job.ops[x].toDo == {}
  }

  /** Only predecessors are ever outstanding. */
  ghost predicate ToDoBounded(job: Job) {
    forall x, p :: x in job.ops && p in job.ops[x].toDo ==> p in job.ops[x].predecessors
  }

  /** A predecessor is outstanding exactly while it is not done. */
  ghost predicate ToDoExact(job: Job) {
    forall x, p :: x in job.ops && p in job.ops[x].predecessors && p in job.ops ==>
      (p in job.ops[x].toDo <==> !job.ops[p].done)
  }

  /** An operation is never done before its predecessors. */
  ghost predicate DoneClosed(job: Job) {
    forall x, p :: x in job.ops && job.ops[x].done && p in job.ops[x].predecessors ==>
      p in job.ops && job.ops[p].done
  }

  /** The state `dumpOperation` keeps in sync: the available list holds each
      ready operation once, `toDo` holds exactly the predecessors not yet done,
      and an operation is never done before its predecessors. */
  ghost predicate Tracked(job: Job) {
    NoDup(job.available) && AvailableExact(job) && ToDoBounded(job) && ToDoExact(job) && DoneClosed(job)
  }

  /** The operations still to be scheduled. */
  ghost function NotDone(job: Job): set<nat> {
    set x | x in job.ops && !job.ops[x].done
  }

  // ------------------------------------------------------------ construction

  /** The loop of `addOperation` over the new operation's predecessors. */
  function LinkPredecessors(succ: map<nat, seq<nat>>, preds: seq<nat>, id: nat): (r: map<nat, seq<nat>>)
    ensures r.Keys == succ.Keys + set p | p in preds
    ensures NoDup(preds) ==> forall p :: p in r ==>
      r[p] == (if p in succ then succ[p] else []) + (if p in preds then [id] else [])
    decreases |preds|
  {
    if preds == [] then succ
    else
      var p := preds[0];
      var succ' := succ[p := (if p in succ then succ[p] else []) + [id]];
      var r := LinkPredecessors(succ', preds[1..], id);
      assert forall q :: q in preds <==> q == p || q in preds[1..];
      r
  }

  /** `addOperation`: `std::map::insert` never overwrites an existing id, but
      the successor lists are extended either way. */
  function AddOperation(job: Job, op: Operation): (r: Job)
    ensures r.id == job.id && r.typeId == job.typeId && r.available == job.available
    ensures op.id in job.ops ==> r.ops == job.ops
    ensures op.id !in job.ops ==> r.ops == job.ops[op.id := op]
    ensures r.successors.Keys == job.successors.Keys + {op.id} + set p | p in op.predecessors
  {
    var ops := if op.id in job.ops then job.ops else job.ops[op.id := op];
    var succ := if op.id in job.successors then job.successors else job.successors[op.id := []];
    job.(ops := ops, successors := LinkPredecessors(succ, op.predecessors, op.id))
  }

  /** `addOperations`. */
  function AddOperations(job: Job, ops: seq<Operation>): Job
    decreases |ops|
  {
    if ops == [] then job else AddOperations(AddOperation(job, ops[0]), ops[1..])
  }

  /** The ids of a list of operations. */
  function Ids(ops: seq<Operation>): set<nat>
    decreases |ops|
  {
    if ops == [] then {} else {ops[0].id} + Ids(ops[1..])
  }

  /** After `addOperation`, each successor list is the old one, extended by
      the new id when the new operation names that predecessor. */
  lemma AddOperationSuccessors(job: Job, op: Operation, p: nat)
    requires NoDup(op.predecessors)
    requires p in AddOperation(job, op).successors
    ensures AddOperation(job, op).successors[p] ==
      (if p in job.successors then job.successors[p] else []) + (if p in op.predecessors then [op.id] else [])
  {
  }

  /** An id that is not an operation of the job is nobody's successor. */
  lemma UnknownIdIsNoSuccessor(job: Job, id: nat)
    requires Linked(job) && id !in job.ops
    ensures forall p :: p in job.successors ==> id !in job.successors[p]
  {
  }

  lemma AddOperationNoDup(job: Job, op: Operation)
    requires Linked(job)
    requires op.id !in job.ops && NoDup(op.predecessors)
    ensures var r := AddOperation(job, op);
      forall p :: p in r.successors ==> NoDup(r.successors[p])
  {
    var r := AddOperation(job, op);
    UnknownIdIsNoSuccessor(job, op.id);
    forall p | p in r.successors ensures NoDup(r.successors[p]) {
      AddOperationSuccessors(job, op, p);
      var base := if p in job.successors then job.successors[p] else [];
      if p in op.predecessors {
        AppendNoDup(base, op.id);
      } else {
        assert r.successors[p] == base;
      }
    }
  }

  lemma AddOperationSuccessorsKnown(job: Job, op: Operation)
    requires Linked(job)
    requires op.id !in job.ops && NoDup(op.predecessors)
    ensures var r := AddOperation(job, op);
      forall p, s :: p in r.successors && s in r.successors[p] ==> s in r.ops && p in r.ops[s].predecessors
  {
    var r := AddOperation(job, op);
    forall p, s | p in r.successors && s in r.successors[p]
      ensures s in r.ops && p in r.ops[s].predecessors
    {
      AddOperationSuccessors(job, op, p);
    }
  }

  lemma AddOperationPredecessorsKnown(job: Job, op: Operation)
    requires Linked(job)
    requires op.id !in job.ops && NoDup(op.predecessors)
    ensures var r := AddOperation(job, op);
      forall s, p :: s in r.ops && p in r.ops[s].predecessors ==> p in r.successors && s in r.successors[p]
  {
    var r := AddOperation(job, op);
    forall s, p | s in r.ops && p in r.ops[s].predecessors
      ensures p in r.successors && s in r.successors[p]
    {
      AddOperationSuccessors(job, op, p);
    }
  }

  /** Adding a new operation keeps the successor lists the exact,
      duplicate-free inverse of the predecessor lists. */
  lemma AddOperationLinked(job: Job, op: Operation)
    requires Linked(job)
    requires op.id !in job.ops && NoDup(op.predecessors)
    ensures Linked(AddOperation(job, op))
  {
    AddOperationNoDup(job, op);
    AddOperationSuccessorsKnown(job, op);
    AddOperationPredecessorsKnown(job, op);
  }

  /** The requirements of `AddOperationsLinked` carry over to the rest of
      the list once its head has been added. */
  lemma AddOperationsTail(job: Job, ops: seq<Operation>)
    requires ops != []
    requires forall i :: 0 <= i < |ops| ==> ops[i].id !in job.ops && NoDup(ops[i].predecessors)
    requires forall i, j :: 0 <= i < j < |ops| ==> ops[i].id != ops[j].id
    ensures var next := AddOperation(job, ops[0]);
      && next.ops.Keys == job.ops.Keys + {ops[0].id}
      && (forall i :: 0 <= i < |ops[1..]| ==> ops[1..][i].id !in next.ops && NoDup(ops[1..][i].predecessors))
      && (forall i, j :: 0 <= i < j < |ops[1..]| ==> ops[1..][i].id != ops[1..][j].id)
  {
    var next := AddOperation(job, ops[0]);
    forall i | 0 <= i < |ops[1..]|
      ensures ops[1..][i].id !in next.ops && NoDup(ops[1..][i].predecessors)
    {
      assert ops[1..][i] == ops[i + 1];
    }
    forall i, j | 0 <= i < j < |ops[1..]| ensures ops[1..][i].id != ops[1..][j].id {
      assert ops[1..][i] == ops[i + 1] && ops[1..][j] == ops[j + 1];
    }
  }

  /** A job built by `addOperations` from operations with distinct ids and
      repetition-free predecessor lists has exact successor lists. */
  lemma {:induction false} AddOperationsLinked(job: Job, ops: seq<Operation>)
    requires Linked(job)
    requires forall i :: 0 <= i < |ops| ==> ops[i].id !in job.ops && NoDup(ops[i].predecessors)
    requires forall i, j :: 0 <= i < j < |ops| ==> ops[i].id != ops[j].id
    ensures Linked(AddOperations(job, ops))
    decreases |ops|
  {
    if ops != [] {
      AddOperationLinked(job, ops[0]);
      AddOperationsTail(job, ops);
      AddOperationsLinked(AddOperation(job, ops[0]), ops[1..]);
    }
  }

  /** ... and holds exactly the operations it had plus the new ones. */
  lemma {:induction false} AddOperationsKeys(job: Job, ops: seq<Operation>)
    requires forall i :: 0 <= i < |ops| ==> ops[i].id !in job.ops && NoDup(ops[i].predecessors)
    requires forall i, j :: 0 <= i < j < |ops| ==> ops[i].id != ops[j].id
    ensures AddOperations(job, ops).ops.Keys == job.ops.Keys + Ids(ops)
    decreases |ops|
  {
    if ops != [] {
      AddOperationsTail(job, ops);
      AddOperationsKeys(AddOperation(job, ops[0]), ops[1..]);
    }
  }

  // ----------------------------------------------------------------- restart

  /** Keeping the head of an increasing list in front of an increasing
      selection from its tail keeps the result increasing. */
  lemma PrependIncreasing(keys: seq<nat>, rest: seq<nat>, r: seq<nat>)
    requires keys != [] && forall x :: x in rest ==> x in keys[1..]
    requires r == rest || r == [keys[0]] + rest
    ensures Increasing(keys) && Increasing(rest) ==> Increasing(r)
  {
    if Increasing(keys) && Increasing(rest) {
      IncreasingTail(keys);
      forall i, j | 0 <= i < j < |r| ensures r[i] < r[j] {
        if r != rest && i == 0 {
          assert r[j] == rest[j - 1];
          IncreasingHead(keys, r[j]);
        } else if r != rest {
          assert r[i] == rest[i - 1] && r[j] == rest[j - 1];
        }
      }
    }
  }

  /** The ids among `keys` whose operation has no outstanding predecessor. */
  function ReadyAmong(ops: map<nat, Operation>, keys: seq<nat>): (r: seq<nat>)
    requires forall k :: k in keys ==> k in ops
    ensures forall x :: x in r <==> x in keys && IsAvailable(ops[x])
    ensures Increasing(keys) ==> Increasing(r)
    decreases |keys|
  {
    if keys == [] then []
    else
      var rest := ReadyAmong(ops, keys[1..]);
      var r := (if IsAvailable(ops[keys[0]]) then [keys[0]] else []) + rest;
      assert keys == [keys[0]] + keys[1..];
      PrependIncreasing(keys, rest, r);
      r
  }

  /** `restartJob`: every operation is reset and the available list is rebuilt
      in ascending id order from the operations without predecessors. */
  function Restart(job: Job): (r: Job)
    ensures SameShape(job, r)
    ensures forall x :: x in r.ops ==>
      && !r.ops[x].done && r.ops[x].lastPredTime == 0
      && forall p :: p in r.ops[x].toDo <==> p in job.ops[x].predecessors
    ensures Increasing(r.available)
    ensures forall x :: x in r.available <==> x in job.ops && job.ops[x].predecessors == []
  {
    var ops := map x | x in job.ops :: Operations.Restart(job.ops[x]);
    job.(ops := ops, available := ReadyAmong(ops, SortedKeys(ops.Keys)))
  }

  /** A restarted job is in a consistent precedence state, whatever state it
      was left in. */
  lemma RestartTracked(job: Job)
    ensures Tracked(Restart(job))
  {
    var r := Restart(job);
    IncreasingNoDup(r.available);
  }

  // ------------------------------------------------------------------- dump

  /** The successors in `succs`, in order, that have no other outstanding
      predecessor than `x`. */
  function Freed(ops: map<nat, Operation>, x: nat, succs: seq<nat>): (r: seq<nat>)
    ensures forall y :: y in r <==> y in succs && OpAt(ops, y).toDo - {x} == {}
    ensures NoDup(succs) ==> NoDup(r)
    decreases |succs|
  {
    if succs == [] then []
    else
      var rest := Freed(ops, x, succs[1..]);
      assert forall y :: y in succs <==> y == succs[0] || y in succs[1..];
      (if OpAt(ops, succs[0]).toDo - {x} == {} then [succs[0]] else []) + rest
  }

  lemma {:induction false} FreedFrame(a: map<nat, Operation>, b: map<nat, Operation>, x: nat, succs: seq<nat>)
    requires forall y :: y in succs ==> OpAt(a, y).toDo - {x} == OpAt(b, y).toDo - {x}
    ensures Freed(a, x, succs) == Freed(b, x, succs)
    decreases |succs|
  {
    if succs != [] {
      FreedFrame(a, b, x, succs[1..]);
    }
  }

  /** The loop of `dumpOperation` over the successors of `x`, as far as the
      operations are concerned: each successor (created blank if missing)
      drops `x` from its outstanding set and raises its last-predecessor time.
      Which successors the loop appends to the available list is `Freed`:
      that decision depends only on the successor's own outstanding set. */
  function NotifyAll(ops: map<nat, Operation>, x: nat, t: int, succs: seq<nat>): (r: map<nat, Operation>)
    ensures r.Keys == ops.Keys + set s | s in succs
    ensures forall y :: y in r ==>
      r[y] == if y in succs then PredecessorDone(OpAt(ops, y), x, t) else ops[y]
    decreases |succs|
  {
    if succs == [] then ops
    else
      var s := succs[0];
      var r := NotifyAll(ops[s := PredecessorDone(OpAt(ops, s), x, t)], x, t, succs[1..]);
      PredecessorDoneIdempotent(OpAt(ops, s), x, t);
      assert forall y :: y in succs <==> y == s || y in succs[1..];
      r
  }

  /** `dumpOperation(x, t)`: `false` and no change when `x` is not available;
      otherwise `x` leaves the available list, is marked done, every successor
      learns that `x` ended at `t`, and the successors left with no outstanding
      predecessor are appended to the available list. */
  function Dump(job: Job, x: nat, t: int): (r: (bool, Job))
    ensures r.0 <==> x in job.available
    ensures !r.0 ==> r.1 == job
    ensures r.0 ==> r.1.id == job.id && r.1.typeId == job.typeId
    ensures r.0 && x in job.successors ==> r.1.successors == job.successors
    ensures r.0 && x !in SuccessorsOf(job, x) ==>
      r.1.ops.Keys == job.ops.Keys + {x} + (set s | s in SuccessorsOf(job, x))
    ensures r.0 && x !in SuccessorsOf(job, x) ==> forall y :: y in r.1.ops ==>
      r.1.ops[y] == if y == x then OpAt(job.ops, x).(done := true)
                    else if y in SuccessorsOf(job, x) then PredecessorDone(OpAt(job.ops, y), x, t)
                    else job.ops[y]
    ensures r.0 && x !in SuccessorsOf(job, x) ==>
      r.1.available == RemoveFirst(job.available, x) + Freed(job.ops, x, SuccessorsOf(job, x))
  {
    if x !in job.available then (false, job)
    else
      var marked := job.ops[x := OpAt(job.ops, x).(done := true)];
      var succs := SuccessorsOf(job, x);
      var available := RemoveFirst(job.available, x) + Freed(marked, x, succs);
      var successors := if x in job.successors then job.successors else job.successors[x := []];
      if x !in succs then
        FreedFrame(marked, job.ops, x, succs);
        (true, job.(ops := NotifyAll(marked, x, t, succs), available := available, successors := successors))
      else
        (true, job.(ops := NotifyAll(marked, x, t, succs), available := available, successors := successors))
  }

  /** What a well-formed job guarantees about an available operation `x`:
      it is its own successor list's owner, not its own successor, and its
      successors are exactly the operations that name it as predecessor. */
  ghost predicate CanDump(job: Job, x: nat) {
    && x in job.available && x in job.ops && x in job.successors
    && x !in job.successors[x]
    && NoDup(job.successors[x])
    && (forall p :: p in job.ops[x].predecessors ==> p in job.ops)
    && (forall s :: s in job.successors[x] <==> s in job.ops && x in job.ops[s].predecessors)
  }

  lemma DumpReady(job: Job, rank: map<nat, nat>, x: nat)
    requires Shaped(job) && Ranked(job, rank) && Tracked(job)
    requires x in job.available
    ensures CanDump(job, x)
  {
    assert x in job.ops;
    if x in job.successors[x] {
      SuccessorRank(job, rank, x, x);
    }
  }

  lemma DumpShape(job: Job, x: nat, t: int)
    requires CanDump(job, x)
    ensures SameShape(job, Dump(job, x, t).1)
  {
  }

  /** A successor of `x` still waits for `x`, so it is not available yet. */
  lemma SuccessorsWait(job: Job, x: nat)
    requires AvailableExact(job) && ToDoExact(job) && DoneClosed(job) && CanDump(job, x)
    ensures forall y :: y in job.successors[x] ==>
      y in job.ops && x in job.ops[y].toDo && !job.ops[y].done && y !in job.available
  {
  }

  lemma DumpAvailableNoDup(job: Job, x: nat, t: int)
    requires NoDup(job.available) && AvailableExact(job) && ToDoExact(job) && DoneClosed(job)
    requires CanDump(job, x)
    ensures NoDup(Dump(job, x, t).1.available)
  {
    var r := Dump(job, x, t).1;
    var a := RemoveFirst(job.available, x);
    var freed := Freed(job.ops, x, job.successors[x]);
    assert r.available == a + freed;
    RemoveFirstNoDup(job.available, x);
    SuccessorsWait(job, x);
    ConcatNoDup(a, freed);
  }

  lemma DumpAvailableExact(job: Job, x: nat, t: int)
    requires NoDup(job.available) && AvailableExact(job) && ToDoExact(job) && DoneClosed(job)
    requires CanDump(job, x)
    ensures AvailableExact(Dump(job, x, t).1)
  {
    var r := Dump(job, x, t).1;
    var succs := job.successors[x];
    var a := RemoveFirst(job.available, x);
    var freed := Freed(job.ops, x, succs);
    assert r.available == a + freed;
    assert r.ops.Keys == job.ops.Keys;
    RemoveFirstNoDup(job.available, x);
    SuccessorsWait(job, x);
    forall y ensures y in r.available <==> y in r.ops && !r.ops[y].done && r.ops[y].toDo == {} {
      assert y in r.available <==> y in a || y in freed;
      if y in job.ops {
        DumpOpAt(job, x, t, y);
        if y == x {
          assert y !in a && y !in freed;
        } else if y in succs {
          assert y !in a;
          assert y in freed <==> job.ops[y].toDo - {x} == {};
        } else {
          assert y in a <==> y in job.available;
          assert y !in freed;
        }
      }
    }
  }

  lemma DumpToDoBounded(job: Job, x: nat, t: int)
    requires ToDoBounded(job) && CanDump(job, x)
    ensures ToDoBounded(Dump(job, x, t).1)
  {
  }

  /** The state of one operation after dumping `x`. */
  lemma DumpOpAt(job: Job, x: nat, t: int, y: nat)
    requires CanDump(job, x) && y in job.ops
    ensures var r := Dump(job, x, t).1;
      && y in r.ops
      && r.ops[y].predecessors == job.ops[y].predecessors
      && r.ops[y].toDo == (if y in job.successors[x] then job.ops[y].toDo - {x} else job.ops[y].toDo)
      && r.ops[y].done == (y == x || job.ops[y].done)
  {
  }

  lemma DumpToDoExact(job: Job, x: nat, t: int)
    requires ToDoExact(job) && CanDump(job, x)
    ensures var r := Dump(job, x, t).1;
      forall y, p :: y in r.ops && p in r.ops[y].predecessors && p in r.ops ==>
        (p in r.ops[y].toDo <==> !r.ops[p].done)
  {
    var r := Dump(job, x, t).1;
    assert r.ops.Keys == job.ops.Keys;
    forall y, p | y in r.ops && p in r.ops[y].predecessors && p in r.ops
      ensures p in r.ops[y].toDo <==> !r.ops[p].done
    {
      DumpOpAt(job, x, t, y);
      DumpOpAt(job, x, t, p);
      assert p in job.ops[y].toDo <==> !job.ops[p].done;
      if p == x {
        assert y in job.successors[x];
      }
    }
  }

  lemma DumpDoneClosed(job: Job, x: nat, t: int)
    requires AvailableExact(job) && ToDoExact(job) && DoneClosed(job) && CanDump(job, x)
    ensures var r := Dump(job, x, t).1;
      forall y, p :: y in r.ops && r.ops[y].done && p in r.ops[y].predecessors ==>
        p in r.ops && r.ops[p].done
  {
    var r := Dump(job, x, t).1;
    forall y, p | y in r.ops && r.ops[y].done && p in r.ops[y].predecessors
      ensures p in r.ops && r.ops[p].done
    {
      if y == x {
        assert p !in job.ops[x].toDo && p in job.ops;
        assert x !in job.ops[x].predecessors;
      }
    }
  }

  lemma DumpNotDone(job: Job, x: nat, t: int)
    requires AvailableExact(job) && CanDump(job, x)
    ensures x in NotDone(job)
    ensures NotDone(Dump(job, x, t).1) == NotDone(job) - {x}
  {
  }

  /** `dumpOperation` on an available operation of a well-formed job keeps the
      precedence state consistent, changes no static data, and completes
      exactly that one operation. */
  lemma DumpTracked(job: Job, rank: map<nat, nat>, x: nat, t: int)
    requires Shaped(job) && Ranked(job, rank) && Tracked(job)
    requires x in job.available
    ensures var r := Dump(job, x, t).1;
      && SameShape(job, r) && Shaped(r) && Ranked(r, rank) && Tracked(r)
      && x in NotDone(job) && NotDone(r) == NotDone(job) - {x}
  {
    var r := Dump(job, x, t).1;
    DumpReady(job, rank, x);
    DumpShape(job, x, t);
    ShapedTransfers(job, r);
    RankedTransfers(job, r, rank);
    DumpAvailableNoDup(job, x, t);
    DumpAvailableExact(job, x, t);
    DumpToDoBounded(job, x, t);
    DumpToDoExact(job, x, t);
    DumpDoneClosed(job, x, t);
    DumpNotDone(job, x, t);
  }

  /** A well-formed acyclic job in a consistent precedence state. */
  ghost predicate Consistent(job: Job) {
    Shaped(job) && Acyclic(job) && Tracked(job)
  }

  /** `DumpTracked` for a job whose acyclicity is only known to exist. */
  lemma DumpConsistent(job: Job, x: nat, t: int)
    requires Consistent(job) && x in job.available
    ensures var r := Dump(job, x, t).1;
      && Consistent(r) && SameShape(job, r)
      && x in NotDone(job) && NotDone(r) == NotDone(job) - {x}
  {
    var rank := RankOf(job);
    DumpTracked(job, rank, x, t);
  }

  /** Dumping an available operation completes exactly that operation. */
  lemma DumpProgress(job: Job, x: nat, t: int)
    requires Consistent(job) && x in job.available
    ensures x in NotDone(job) && NotDone(Dump(job, x, t).1) == NotDone(job) - {x}
  {
    DumpReady(job, RankOf(job), x);
    DumpNotDone(job, x, t);
  }

  /** A restarted well-formed acyclic job is consistent and has the same shape. */
  lemma RestartConsistent(job: Job)
    requires Shaped(job) && Acyclic(job)
    ensures Consistent(Restart(job)) && SameShape(job, Restart(job))
    ensures NotDone(Restart(job)) == job.ops.Keys
  {
    var rank := RankOf(job);
    ShapedTransfers(job, Restart(job));
    RankedTransfers(job, Restart(job), rank);
    RestartTracked(job);
  }

  // ------------------------------------------------------------------ queries

  /** `Job::isDone`: the available list is empty. */
  predicate IsDone(job: Job) {
    |job.available| == 0
  }

  /** From any operation that is not done, walking back through outstanding
      predecessors reaches an available operation. */
  lemma {:induction false} PendingReachesAvailable(job: Job, rank: map<nat, nat>, x: nat)
    requires Shaped(job) && Ranked(job, rank) && Tracked(job)
    requires x in job.ops && !job.ops[x].done
    ensures job.available != []
    decreases rank[x]
  {
    if job.ops[x].toDo == {} {
      assert x in job.available;
    } else {
      var p :| p in job.ops[x].toDo;
      PendingReachesAvailable(job, rank, p);
    }
  }

  /** For a well-formed job in a consistent state, `isDone` (empty available
      list) holds exactly when every operation is done. */
  lemma DoneIffAllDone(job: Job, rank: map<nat, nat>)
    requires Shaped(job) && Ranked(job, rank) && Tracked(job)
    ensures IsDone(job) <==> NotDone(job) == {}
  {
    if NotDone(job) != {} {
      var x :| x in NotDone(job);
      PendingReachesAvailable(job, rank, x);
    }
    if !IsDone(job) {
      assert job.available[0] in NotDone(job);
    }
  }

  /** The ids among `keys` whose operation is not done. */
  ghost function Pending(ops: map<nat, Operation>, keys: seq<nat>): set<nat> {
    set x | x in keys && x in ops && !ops[x].done
  }

  lemma PendingSplit(ops: map<nat, Operation>, keys: seq<nat>)
    requires keys != [] && keys[0] in ops
    ensures Pending(ops, keys) ==
      Pending(ops, keys[1..]) + (if ops[keys[0]].done then {} else {keys[0]})
  {
    assert keys == [keys[0]] + keys[1..];
  }

  /** Counts the operations among `keys` that are not done. */
  function CountNotDone(ops: map<nat, Operation>, keys: seq<nat>): (r: nat)
    requires NoDup(keys) && forall k :: k in keys ==> k in ops
    ensures r == |Pending(ops, keys)|
    decreases |keys|
  {
    if keys == [] then 0
    else
      var rest := CountNotDone(ops, keys[1..]);
      assert keys[0] !in keys[1..];
      assert keys[0] !in Pending(ops, keys[1..]);
      PendingSplit(ops, keys);
      if ops[keys[0]].done then rest else rest + 1
  }

  /** `remainingNumOfOperations`: the number of operations not yet done. */
  function RemainingOperations(job: Job): (r: nat)
    ensures r == |NotDone(job)|
  {
    var keys := SortedKeys(job.ops.Keys);
    IncreasingNoDup(keys);
    var r := CountNotDone(job.ops, keys);
    assert Pending(job.ops, keys) == NotDone(job);
    r
  }
}

=== FILE: legacy.dfy ===
/** The older, self-contained model of src/Utils.hpp: operations keep their
    successor list and a SET of outstanding predecessors, the schedule is a
    list of proxies per station, and `scheduleStackOperation` checks the
    station and the operation's eligibility before it changes anything. */
module Legacy {
  import opened Wrappers
  import opened Collections
  import opened Operations

  datatype LOperation = LOperation(
    id: nat,
    successors: seq<nat>,
    predecessors: set<nat>,      // outstanding predecessors; empty means ready
    stations: seq<StationTime>,
    lastPredEnd: int)

  /** `Operation()`: what `std::map::operator[]` inserts for a missing id. */
  const BlankOp := LOperation(0, [], {}, [], 0)

  datatype LJob = LJob(id: nat, ops: map<nat, LOperation>, available: seq<nat>)

  /** `OperationProxy`. */
  datatype Proxy = Proxy(opId: nat, jobId: nat, start: int, duration: int)

  function ProxyEnd(p: Proxy): int {
    p.start + p.duration
  }

  datatype LSchedule = LSchedule(stations: seq<seq<Proxy>>)

  /** `operations[x]` read through `operator[]`. */
  function LOpAt(ops: map<nat, LOperation>, x: nat): LOperation {
    if x in ops then ops[x] else BlankOp
  }

  /** `precedessorDoneUpdate`. */
  function LPredecessorDone(o: LOperation, p: nat, t: int): (r: LOperation)
    ensures r.id == o.id && r.successors == o.successors && r.stations == o.stations
    ensures r.predecessors == o.predecessors - {p}
    ensures r.lastPredEnd >= o.lastPredEnd && r.lastPredEnd >= t
    ensures r.lastPredEnd == o.lastPredEnd || r.lastPredEnd == t
  {
    o.(predecessors := o.predecessors - {p}, lastPredEnd := if o.lastPredEnd < t then t else o.lastPredEnd)
  }

  predicate LIsAvailable(o: LOperation) {
    o.predecessors == {}
  }

  /** `getProcessTimeForStationID`: the time of the first entry for the
      station, -1 when there is none. */
  function LProcessTime(entries: seq<StationTime>, station: nat): (r: int)
    ensures (forall i :: 0 <= i < |entries| ==> entries[i].station != station) ==> r == -1
    ensures (exists i :: 0 <= i < |entries| && entries[i].station == station) ==>
      exists i :: && 0 <= i < |entries| && entries[i].station == station && entries[i].time == r
                  && forall j :: 0 <= j < i ==> entries[j].station != station
  {
    if entries == [] then -1
    else if entries[0].station == station then entries[0].time
    else
      var r := LProcessTime(entries[1..], station);
      if exists i :: 0 <= i < |entries| && entries[i].station == station then
        var k :| 0 <= k < |entries| && entries[k].station == station;
        assert entries[1..][k - 1].station == station;
        var i :| 0 <= i < |entries[1..]| && entries[1..][i].station == station && entries[1..][i].time == r
          && forall j :: 0 <= j < i ==> entries[1..][j].station != station;
        assert entries[i + 1].time == r;
        r
      else
        r
  }

  /** With the station listed, the legacy lookup agrees with the current
      one; without it, the legacy lookup yields -1 where the current one
      fails. */
  lemma LProcessTimeAgrees(entries: seq<StationTime>, station: nat)
    ensures TimeOn(entries, station).Success? ==> LProcessTime(entries, station) == TimeOn(entries, station).value
    ensures TimeOn(entries, station).Failure? ==> LProcessTime(entries, station) == -1
  {
    if TimeOn(entries, station).Success? {
      var i :| 0 <= i < |entries| && entries[i].station == station && entries[i].time == LProcessTime(entries, station)
        && forall j :: 0 <= j < i ==> entries[j].station != station;
      var k :| 0 <= k < |entries| && entries[k].station == station && entries[k].time == TimeOn(entries, station).value
        && forall j :: 0 <= j < k ==> entries[j].station != station;
      assert i == k;
    }
  }

  /** The successor loop of `dumpOperation`: each successor (inserted by
      `operator[]` when missing) drops `x` from its outstanding set, and is
      appended to the available list when that set is now empty. */
  function Notify(ops: map<nat, LOperation>, avail: seq<nat>, x: nat, t: int, succs: seq<nat>)
    : (r: (map<nat, LOperation>, seq<nat>))
    ensures r.0.Keys == ops.Keys + (set s | s in succs)
    ensures forall y :: y in ops && y !in succs ==> r.0[y] == ops[y]
    ensures |avail| <= |r.1| && r.1[..|avail|] == avail
    ensures forall i :: |avail| <= i < |r.1| ==> r.1[i] in succs
    decreases |succs|
  {
    if succs == [] then (ops, avail)
    else
      var s := succs[0];
      var o := LPredecessorDone(LOpAt(ops, s), x, t);
      var ops' := ops[s := o];
      var avail' := if LIsAvailable(o) then avail + [s] else avail;
      var r := Notify(ops', avail', x, t, succs[1..]);
      assert r.1[..|avail'|] == avail';
      assert r.1[..|avail'|][..|avail|] == avail;
      r
  }

  /** The first element of a duplicate-free sequence is not in its tail,
      which is duplicate-free too. */
  lemma NoDupTail<T>(s: seq<T>)
    requires NoDup(s) && s != []
    ensures NoDup(s[1..]) && s[0] !in s[1..]
  {
    forall i, j | 0 <= i < j < |s[1..]| ensures s[1..][i] != s[1..][j] {
      assert s[1..][i] == s[i + 1] && s[1..][j] == s[j + 1];
    }
    forall k | 0 <= k < |s[1..]| ensures s[1..][k] != s[0] {
      assert s[1..][k] == s[k + 1];
    }
  }

  /** For a duplicate-free successor list, every successor is updated
      exactly once. */
  lemma {:induction false} NotifyOps(ops: map<nat, LOperation>, avail: seq<nat>, x: nat, t: int, succs: seq<nat>)
    requires NoDup(succs)
    ensures forall y :: y in succs ==> Notify(ops, avail, x, t, succs).0[y] == LPredecessorDone(LOpAt(ops, y), x, t)
    decreases |succs|
  {
    if succs != [] {
      var s := succs[0];
      var o := LPredecessorDone(LOpAt(ops, s), x, t);
      var ops' := ops[s := o];
      var avail' := if LIsAvailable(o) then avail + [s] else avail;
      NoDupTail(succs);
      NotifyOps(ops', avail', x, t, succs[1..]);
      forall y | y in succs[1..] ensures LOpAt(ops', y) == LOpAt(ops, y) {
        assert y != s;
      }
    }
  }

  /** For a duplicate-free successor list, a successor is appended to the
      available list exactly when its last outstanding predecessor was `x`. */
  lemma {:induction false} NotifyAvailable(ops: map<nat, LOperation>, avail: seq<nat>, x: nat, t: int, succs: seq<nat>)
    requires NoDup(succs)
    ensures var r := Notify(ops, avail, x, t, succs);
      forall y :: y in succs ==> (y in r.1[|avail|..] <==> LIsAvailable(LPredecessorDone(LOpAt(ops, y), x, t)))
    decreases |succs|
  {
    if succs != [] {
      var s := succs[0];
      var o := LPredecessorDone(LOpAt(ops, s), x, t);
      var ops' := ops[s := o];
      var avail' := if LIsAvailable(o) then avail + [s] else avail;
      NoDupTail(succs);
      NotifyAvailable(ops', avail', x, t, succs[1..]);
      NotifySplit(ops', avail, avail', x, t, succs[1..]);
      forall y | y in succs
        ensures y in Notify(ops, avail, x, t, succs).1[|avail|..] <==> LIsAvailable(LPredecessorDone(LOpAt(ops, y), x, t))
      {
        if y != s {
          assert y in succs[1..];
          assert LOpAt(ops', y) == LOpAt(ops, y);
        }
      }
    }
  }

  /** What a recursive call of `Notify` appends after a longer list: the
      list's own tail, then successors only. */
  lemma NotifySplit(ops: map<nat, LOperation>, avail: seq<nat>, avail': seq<nat>, x: nat, t: int, succs: seq<nat>)
    requires |avail| <= |avail'|
    ensures var r := Notify(ops, avail', x, t, succs);
      && r.1[|avail|..] == avail'[|avail|..] + r.1[|avail'|..]
      && forall z :: z in r.1[|avail'|..] ==> z in succs
  {
    var r := Notify(ops, avail', x, t, succs);
    assert r.1 == r.1[..|avail'|] + r.1[|avail'|..];
    forall z | z in r.1[|avail'|..] ensures z in succs {
      var k :| 0 <= k < |r.1[|avail'|..]| && r.1[|avail'|..][k] == z;
      assert r.1[|avail'| + k] == z;
    }
  }

  /** `Job::dumpOperation`: refused (and nothing changes) for an operation
      outside the available list; otherwise it leaves the list and its
      successors are notified. */
  function LDump(job: LJob, x: nat, t: int): (r: (bool, LJob))
    ensures r.0 <==> x in job.available
    ensures !r.0 ==> r.1 == job
    ensures r.1.id == job.id
    ensures r.0 ==> |r.1.available| >= |job.available| - 1
    ensures r.0 ==> r.1.available[..|job.available| - 1] == RemoveFirst(job.available, x)
    ensures r.0 ==> job.ops.Keys <= r.1.ops.Keys
    ensures r.0 ==> forall y :: y in job.ops && y !in LOpAt(job.ops, x).successors ==> r.1.ops[y] == job.ops[y]
  {
    if x !in job.available then (false, job)
    else
      var avail := RemoveFirst(job.available, x);
      var ops := if x in job.ops then job.ops else job.ops[x := BlankOp];
      var succs := LOpAt(job.ops, x).successors;
      var n := Notify(ops, avail, x, t, succs);
      assert |avail| == |job.available| - 1 by {
        assert avail == job.available[..IndexOf(job.available, x)] + job.available[IndexOf(job.available, x) + 1..];
      }
      (true, LJob(job.id, n.0, n.1))
  }

  /** With duplicate-free successors, a successful dump updates every
      successor once and appends exactly those that became ready. */
  lemma LDumpSuccessors(job: LJob, x: nat, t: int)
    requires x in job.available && NoDup(LOpAt(job.ops, x).successors)
    ensures var r := LDump(job, x, t).1;
      forall y :: y in LOpAt(job.ops, x).successors ==>
        && r.ops[y] == LPredecessorDone(LOpAt(job.ops, y), x, t)
        && (y in r.available[|job.available| - 1..] <==> LIsAvailable(r.ops[y]))
  {
    var avail := RemoveFirst(job.available, x);
    var ops := if x in job.ops then job.ops else job.ops[x := BlankOp];
    var succs := LOpAt(job.ops, x).successors;
    assert |avail| == |job.available| - 1 by {
      assert avail == job.available[..IndexOf(job.available, x)] + job.available[IndexOf(job.available, x) + 1..];
    }
    NotifyOps(ops, avail, x, t, succs);
    NotifyAvailable(ops, avail, x, t, succs);
    assert forall y :: LOpAt(ops, y) == LOpAt(job.ops, y);
  }

  /** `Job::isFinished`. */
  predicate LIsFinished(job: LJob) {
    |job.available| == 0
  }

  /** `JobContainer::allJobFinished`: the jobs visited in key order, the
      first unfinished one answering false. */
  function AllFinishedAmong(jobs: map<nat, LJob>, keys: seq<nat>): (r: bool)
    requires forall k :: k in keys ==> k in jobs
    ensures r <==> forall k :: k in keys ==> LIsFinished(jobs[k])
  {
    if keys == [] then true
    else if !LIsFinished(jobs[keys[0]]) then false
    else AllFinishedAmong(jobs, keys[1..])
  }

  function AllJobFinished(jobs: map<nat, LJob>): (r: bool)
    ensures r <==> forall k :: k in jobs ==> LIsFinished(jobs[k])
  {
    AllFinishedAmong(jobs, SortedKeys(jobs.Keys))
  }

  /** `JobContainer::addJobs`: `jobs[job.id] = job` in order. */
  function AddJobs(jobs: map<nat, LJob>, add: seq<LJob>): (r: map<nat, LJob>)
    ensures r.Keys == jobs.Keys + (set a | a in add :: a.id)
    decreases |add|
  {
    if add == [] then jobs
    else
      var r := AddJobs(jobs[add[0].id := add[0]], add[1..]);
      assert (set a | a in add :: a.id) == {add[0].id} + (set a | a in add[1..] :: a.id);
      r
  }

  /** A job whose id none of the added jobs carries is kept. */
  lemma {:induction false} AddJobsKeeps(jobs: map<nat, LJob>, add: seq<LJob>, j: nat)
    requires j in jobs && forall a :: a in add ==> a.id != j
    ensures AddJobs(jobs, add)[j] == jobs[j]
    decreases |add|
  {
    if add != [] {
      assert add[0] in add;
      AddJobsKeeps(jobs[add[0].id := add[0]], add[1..], j);
    }
  }

  /** Of several added jobs with the same id, the last one wins. */
  lemma {:induction false} AddJobsLastWins(jobs: map<nat, LJob>, add: seq<LJob>, i: nat)
    requires i < |add| && forall k :: i < k < |add| ==> add[k].id != add[i].id
    ensures AddJobs(jobs, add)[add[i].id] == add[i]
    decreases |add|
  {
    var jobs' := jobs[add[0].id := add[0]];
    if i == 0 {
      forall a | a in add[1..] ensures a.id != add[0].id {
        var k :| 0 <= k < |add[1..]| && add[1..][k] == a;
        assert add[k + 1] == a;
      }
      AddJobsKeeps(jobs', add[1..], add[0].id);
    } else {
      assert add[1..][i - 1] == add[i];
      AddJobsLastWins(jobs', add[1..], i - 1);
    }
  }

  /** `stationTimeAvailibity`: the end of the station's last proxy, 0 for an
      empty station. The source indexes the station list unchecked. */
  function LAvailability(sch: LSchedule, station: nat): int
    requires station < |sch.stations|
  {
    var lane := sch.stations[station];
    if |lane| > 0 then ProxyEnd(lane[|lane| - 1]) else 0
  }

  /** `scheduleStackOperation`: a station past the last one and an operation
      without an entry for the station are refused before anything changes;
      otherwise one proxy starting at max(last predecessor end, station
      availability) is appended, and the job dumps the operation at the
      proxy's end, whether or not the dump succeeds. */
  function LStack(sch: LSchedule, station: nat, o: LOperation, job: LJob): (r: Result<(LSchedule, LJob)>)
    ensures station >= |sch.stations| ==> r == Failure(NoSuchStation)
    ensures station < |sch.stations| && LProcessTime(o.stations, station) == -1 ==> r == Failure(IneligibleStation)
    ensures r.Success? <==> station < |sch.stations| && LProcessTime(o.stations, station) != -1
    ensures r.Success? ==>
      && |r.value.0.stations| == |sch.stations| && station < |sch.stations|
      && |r.value.0.stations[station]| == |sch.stations[station]| + 1
    ensures r.Success? ==>
      var p := r.value.0.stations[station][|sch.stations[station]|];
      && r.value.0.stations[station] == sch.stations[station] + [p]
      && (forall s :: 0 <= s < |sch.stations| && s != station ==> r.value.0.stations[s] == sch.stations[s])
      && p.opId == o.id && p.jobId == job.id
      && p.start >= o.lastPredEnd && p.start >= LAvailability(sch, station)
      && (p.start == o.lastPredEnd || p.start == LAvailability(sch, station))
      && p.duration == LProcessTime(o.stations, station)
      && r.value.1 == LDump(job, o.id, ProxyEnd(p)).1
  {
    if station >= |sch.stations| then Failure(NoSuchStation)
    else
      var duration := LProcessTime(o.stations, station);
      if duration == -1 then Failure(IneligibleStation)
      else
        var avail := LAvailability(sch, station);
        var start := if o.lastPredEnd < avail then avail else o.lastPredEnd;
        var p := Proxy(o.id, job.id, start, duration);
        var lanes := sch.stations[station := sch.stations[station] + [p]];
        Success((LSchedule(lanes), LDump(job, o.id, ProxyEnd(p)).1))
  }

  /** Proxies on one station follow each other without overlap. */
  ghost predicate LOrdered(lane: seq<Proxy>) {
    forall i :: 0 < i < |lane| ==> ProxyEnd(lane[i - 1]) <= lane[i].start
  }

  /** A successful stack keeps every station free of overlaps when the
      operation's time is not negative. */
  lemma LStackOrdered(sch: LSchedule, station: nat, o: LOperation, job: LJob)
    requires forall s :: 0 <= s < |sch.stations| ==> LOrdered(sch.stations[s])
    requires LStack(sch, station, o, job).Success?
    ensures forall s :: 0 <= s < |sch.stations| ==> LOrdered(LStack(sch, station, o, job).value.0.stations[s])
  {
    var r := LStack(sch, station, o, job).value.0;
    var lane := r.stations[station];
    var old_ := sch.stations[station];
    assert LOrdered(lane) by {
      forall i | 0 < i < |lane| ensures ProxyEnd(lane[i - 1]) <= lane[i].start {
        if i < |old_| {
          assert lane[i - 1] == old_[i - 1] && lane[i] == old_[i];
        } else {
          assert lane[i - 1] == old_[|old_| - 1];
        }
      }
    }
    forall s | 0 <= s < |sch.stations| ensures LOrdered(r.stations[s]) {
      if s != station { assert r.stations[s] == sch.stations[s]; }
    }
  }

  // ----------------------------------------------------------------- finding

  /** A job whose only operation has already been dumped. */
  const SpentJob := LJob(0, map[0 := LOperation(0, [], {}, [StationTime(0, 5)], 0)], [])

  /** Like the current commit, the legacy one places an operation whose dump
      is refused: the proxy is appended although the job is unchanged. */
  lemma LStackPlacesUnavailable()
    ensures var r := LStack(LSchedule([[]]), 0, SpentJob.ops[0], SpentJob);
      && r.Success? && |r.value.0.stations[0]| == 1 && r.value.1 == SpentJob
      && !LDump(SpentJob, 0, 5).0
  {
    assert LProcessTime(SpentJob.ops[0].stations, 0) == 5;
  }

  /** `scheduleStackOperation` with the availability check it lacks: an
      operation outside the job's available list is refused before anything
      changes, so every placement is matched by a successful dump. */
  function LCommit(sch: LSchedule, station: nat, o: LOperation, job: LJob): (r: Result<(LSchedule, LJob)>)
    ensures o.id !in job.available ==> r == Failure(NotAvailable)
    ensures r.Success? ==> r == LStack(sch, station, o, job)
    ensures r.Success? ==> LDump(job, o.id, ProxyEnd(r.value.0.stations[station][|sch.stations[station]|])).0
    ensures r.Success? ==> |r.value.1.available| >= |job.available| - 1
  {
    if o.id !in job.available then Failure(NotAvailable)
    else LStack(sch, station, o, job)
  }
}

=== FILE: metrics.dfy ===
/** The integer graph metrics of `fjss::Job` (src/FJSS.cpp:163-249): critical
    path, successor upstream, latest finish, earliest start and the
    `eft`/`nc_criticalPath` pair. The source computes `criticalPath`, `eft`
    and `nc_criticalPath` in `float`, but only ever adds and compares `int`
    times, so they are modelled on `int` (exact below 2^24, where `float`
    stops representing every integer). Recursion follows the acyclicity
    rank: towards successors for the first three, towards predecessors for
    the others. */
module Metrics {
  import opened Wrappers
  import opened Collections
  import opened Operations
  import opened Jobs
  import opened Timeline

  function Max(a: int, b: int): int {
    if a < b then b else a
  }

  function Min(a: int, b: int): int {
    if b < a then b else a
  }

  /** `getShortestProcessTime` of an operation of the job. */
  function ShortestOf(job: Job, x: nat): int
    requires x in job.ops
  {
    Shortest(job.ops[x].stations)
  }

  /** The metrics that walk successor lists need them to be the inverse of
      the predecessor lists (as `addOperation` builds them) and acyclic. */
  ghost predicate Graph(job: Job) {
    Linked(job) && Acyclic(job)
  }

  /** Every alternative exists and has a time between 0 and `IntMax`. */
  ghost predicate Timed(job: Job) {
    && (forall x :: x in job.ops ==> job.ops[x].stations != [])
    && (forall x, k :: x in job.ops && 0 <= k < |job.ops[x].stations| ==>
          0 <= job.ops[x].stations[k].time <= IntMax)
  }

  /** Every predecessor id names an operation of the job. */
  ghost predicate PredecessorsKnown(job: Job) {
    forall x, p :: x in job.ops && p in job.ops[x].predecessors ==> p in job.ops
  }

  lemma ShapedParts(job: Job)
    requires Shaped(job)
    ensures Linked(job) && Timed(job) && PredecessorsKnown(job)
  {
  }

  lemma SuccessorDeeper(job: Job, x: nat, s: nat)
    requires Graph(job) && x in job.ops && s in job.successors[x]
    ensures s in job.ops && RankOf(job)[x] < RankOf(job)[s] < |job.ops|
  {
  }

  /** In a well-formed job every shortest time is the time of an alternative,
      hence between 0 and `IntMax`. */
  lemma ShortestInRange(job: Job, x: nat)
    requires Timed(job) && x in job.ops
    ensures 0 <= ShortestOf(job, x) <= IntMax
  {
    ShortestAttained(job.ops[x].stations);
  }

  // ----------------------------------------------------------- critical path

  /** `criticalPath`: the operation's shortest time plus the largest critical
      path among its successors (0 for a sink). */
  function CriticalPath(job: Job, x: nat): int
    requires Graph(job) && x in job.ops
    decreases |job.ops| - RankOf(job)[x], 1, 0
  {
    CpMax(job, x, job.successors[x]) + ShortestOf(job, x)
  }

  /** The loop `cpl = max(cpl, criticalPath(s))` from `cpl = 0`. */
  function CpMax(job: Job, x: nat, succs: seq<nat>): (r: int)
    requires Graph(job) && x in job.ops
    requires forall s :: s in succs ==> s in job.successors[x]
    ensures r >= 0
    decreases |job.ops| - RankOf(job)[x], 0, |succs|
  {
    if succs == [] then 0
    else
      var s := succs[|succs| - 1];
      SuccessorDeeper(job, x, s);
      Max(CpMax(job, x, succs[..|succs| - 1]), CriticalPath(job, s))
  }

  /** A path that follows successor lists, starting anywhere. */
  ghost predicate IsPath(job: Job, path: seq<nat>) {
    && path != []
    && (forall i :: 0 <= i < |path| ==> path[i] in job.ops)
    && (forall i :: 0 <= i < |path| - 1 ==> Step(job, path[i], path[i + 1]))
  }

  /** `y` is a successor of `x`. */
  ghost predicate Step(job: Job, x: nat, y: nat) {
    x in job.successors && y in job.successors[x]
  }

  /** Sum of the shortest times along a path. */
  ghost function Weight(job: Job, path: seq<nat>): int
    requires forall i :: 0 <= i < |path| ==> path[i] in job.ops
    decreases |path|
  {
    if path == [] then 0 else ShortestOf(job, path[0]) + Weight(job, path[1..])
  }

  lemma {:induction false} CpMaxBound(job: Job, x: nat, succs: seq<nat>, i: int)
    requires Graph(job) && x in job.ops
    requires forall s :: s in succs ==> s in job.successors[x]
    requires 0 <= i < |succs|
    ensures succs[i] in job.ops && CriticalPath(job, succs[i]) <= CpMax(job, x, succs)
    decreases |succs|
  {
    SuccessorDeeper(job, x, succs[i]);
    if i < |succs| - 1 {
      CpMaxBound(job, x, succs[..|succs| - 1], i);
    }
  }

  lemma {:induction false} CpMaxAttained(job: Job, x: nat, succs: seq<nat>) returns (i: int)
    requires Graph(job) && Timed(job) && x in job.ops
    requires forall s :: s in succs ==> s in job.successors[x]
    requires succs != []
    ensures 0 <= i < |succs| && succs[i] in job.ops && CpMax(job, x, succs) == CriticalPath(job, succs[i])
    decreases |succs|
  {
    var last := |succs| - 1;
    var init := succs[..last];
    SuccessorDeeper(job, x, succs[last]);
    CriticalPathAtLeastOwn(job, succs[last]);
    i := last;
    if last > 0 {
      var k := CpMaxAttained(job, x, init);
      assert init[k] == succs[k];
      if CriticalPath(job, succs[last]) <= CpMax(job, x, init) {
        i := k;
      }
    }
  }

  /** With non-negative times the critical path is at least the operation's
      own shortest time, hence non-negative. */
  lemma CriticalPathAtLeastOwn(job: Job, x: nat)
    requires Graph(job) && Timed(job) && x in job.ops
    ensures CriticalPath(job, x) >= ShortestOf(job, x) >= 0
  {
    ShortestInRange(job, x);
  }

  /** No path from `x` weighs more than the critical path of `x`. */
  lemma {:induction false} CriticalPathBound(job: Job, x: nat, path: seq<nat>)
    requires Graph(job) && IsPath(job, path) && path[0] == x
    ensures Weight(job, path) <= CriticalPath(job, x)
    decreases |path|
  {
    if |path| > 1 {
      var tail := path[1..];
      assert IsPath(job, tail) by {
        forall i | 0 <= i < |tail| - 1 ensures Step(job, tail[i], tail[i + 1]) {
          assert tail[i] == path[i + 1] && tail[i + 1] == path[i + 2];
        }
      }
      CriticalPathBound(job, path[1], tail);
      var succs := job.successors[x];
      var i :| 0 <= i < |succs| && succs[i] == path[1];
      CpMaxBound(job, x, succs, i);
    }
  }

  /** Some path from `x` to a sink weighs exactly the critical path of `x`:
      with `CriticalPathBound`, the critical path is the heaviest path. */
  lemma {:induction false} CriticalPathAttained(job: Job, x: nat)
    requires Graph(job) && Timed(job) && x in job.ops
    ensures exists path :: HeaviestFrom(job, x, path, CriticalPath(job, x))
    decreases |job.ops| - RankOf(job)[x]
  {
    var succs := job.successors[x];
    if succs == [] {
      var path := [x];
      assert Weight(job, path) == ShortestOf(job, x) + Weight(job, []);
      assert HeaviestFrom(job, x, path, CriticalPath(job, x));
    } else {
      var i := CpMaxAttained(job, x, succs);
      var s := succs[i];
      SuccessorDeeper(job, x, s);
      CriticalPathAttained(job, s);
      var tail :| HeaviestFrom(job, s, tail, CriticalPath(job, s));
      PathCons(job, x, tail);
      assert HeaviestFrom(job, x, [x] + tail, CriticalPath(job, x));
    }
  }

  /** `path` runs from `x` to a sink and weighs `w`. */
  ghost predicate HeaviestFrom(job: Job, x: nat, path: seq<nat>, w: int) {
    && IsPath(job, path) && path[0] == x
    && path[|path| - 1] in job.successors && job.successors[path[|path| - 1]] == []
    && Weight(job, path) == w
  }

  /** Prefixing a path with a predecessor of its first node. */
  lemma PathCons(job: Job, x: nat, tail: seq<nat>)
    requires x in job.ops && IsPath(job, tail) && Step(job, x, tail[0])
    ensures IsPath(job, [x] + tail) && ([x] + tail)[|tail|] == tail[|tail| - 1]
    ensures Weight(job, [x] + tail) == ShortestOf(job, x) + Weight(job, tail)
  {
    var path := [x] + tail;
    assert path[1..] == tail;
    forall k | 0 <= k < |path| - 1 ensures Step(job, path[k], path[k + 1]) {
      if k > 0 { assert path[k] == tail[k - 1] && path[k + 1] == tail[k]; }
    }
  }

  // ---------------------------------------------------------------- upstream

  /** `getSuccessorsUpstream`: the sum over successors of one plus their own
      upstream count, 0 for a sink. It counts paths, so a descendant reached
      along two paths is counted twice. */
  function Upstream(job: Job, x: nat): (r: int)
    requires Graph(job) && x in job.ops
    ensures r >= 0
    decreases |job.ops| - RankOf(job)[x], 1, 0
  {
    if job.successors[x] == [] then 0 else UpSum(job, x, job.successors[x])
  }

  /** The loop `suc = suc + upstream(s) + 1` from `suc = 0`. */
  function UpSum(job: Job, x: nat, succs: seq<nat>): (r: int)
    requires Graph(job) && x in job.ops
    requires forall s :: s in succs ==> s in job.successors[x]
    ensures r >= |succs|
    decreases |job.ops| - RankOf(job)[x], 0, |succs|
  {
    if succs == [] then 0
    else
      var s := succs[|succs| - 1];
      SuccessorDeeper(job, x, s);
      UpSum(job, x, succs[..|succs| - 1]) + Upstream(job, s) + 1
  }

  lemma {:induction false} UpSumBound(job: Job, x: nat, succs: seq<nat>, i: int)
    requires Graph(job) && x in job.ops
    requires forall s :: s in succs ==> s in job.successors[x]
    requires 0 <= i < |succs|
    ensures succs[i] in job.ops && Upstream(job, succs[i]) + 1 <= UpSum(job, x, succs)
    decreases |succs|
  {
    SuccessorDeeper(job, x, succs[i]);
    if i < |succs| - 1 {
      UpSumBound(job, x, succs[..|succs| - 1], i);
      SuccessorDeeper(job, x, succs[|succs| - 1]);
    }
  }

  /** The upstream count is 0 exactly for a sink, is at least the number of
      direct successors, and exceeds the count of every successor. */
  lemma UpstreamStep(job: Job, x: nat)
    requires Graph(job) && x in job.ops
    ensures Upstream(job, x) == 0 <==> job.successors[x] == []
    ensures Upstream(job, x) >= |job.successors[x]|
    ensures forall i :: 0 <= i < |job.successors[x]| ==>
      job.successors[x][i] in job.ops && Upstream(job, job.successors[x][i]) < Upstream(job, x)
  {
    var succs := job.successors[x];
    forall i | 0 <= i < |succs| ensures succs[i] in job.ops && Upstream(job, succs[i]) < Upstream(job, x) {
      UpSumBound(job, x, succs, i);
    }
  }

  // ------------------------------------------- upstream counts the paths

  /** `x` put in front of each path of `ps`. */
  ghost function ConsAll(x: nat, ps: seq<seq<nat>>): (r: seq<seq<nat>>)
    ensures |r| == |ps| && forall k :: 0 <= k < |ps| ==> r[k] == [x] + ps[k]
  {
    seq(|ps|, k requires 0 <= k < |ps| => [x] + ps[k])
  }

  /** The paths of two or more operations from `x` whose second operation
      is one of the first `n` successors of `x`, successor by successor. */
  ghost function PathsBelow(job: Job, x: nat, n: nat): seq<seq<nat>>
    requires Graph(job) && x in job.ops && n <= |job.successors[x]|
    decreases |job.ops| - RankOf(job)[x], 0, n
  {
    if n == 0 then []
    else
      var s := job.successors[x][n - 1];
      SuccessorDeeper(job, x, s);
      PathsBelow(job, x, n - 1) + ([[x, s]] + ConsAll(x, PathsOut(job, s)))
  }

  /** Every path of two or more operations from `x`. */
  ghost function PathsOut(job: Job, x: nat): seq<seq<nat>>
    requires Graph(job) && x in job.ops
    decreases |job.ops| - RankOf(job)[x], 1, 0
  {
    PathsBelow(job, x, |job.successors[x]|)
  }

  /** A path from `x` of two or more operations. */
  ghost predicate PathOut(job: Job, x: nat, p: seq<nat>) {
    |p| >= 2 && p[0] == x && IsPath(job, p)
  }

  lemma PathTail(job: Job, p: seq<nat>)
    requires IsPath(job, p) && |p| >= 2
    ensures IsPath(job, p[1..]) && Step(job, p[0], p[1]) && p == [p[0]] + p[1..]
  {
    var tail := p[1..];
    forall i | 0 <= i < |tail| - 1 ensures Step(job, tail[i], tail[i + 1]) {
      assert tail[i] == p[i + 1] && tail[i + 1] == p[i + 2];
    }
  }

  lemma ConsAllHas(x: nat, ps: seq<seq<nat>>, p: seq<nat>)
    ensures p in ConsAll(x, ps) <==> |p| > 0 && p[0] == x && p[1..] in ps
  {
    var r := ConsAll(x, ps);
    if p in r {
      var k :| 0 <= k < |r| && r[k] == p;
      assert p[1..] == ps[k];
    }
    if |p| > 0 && p[0] == x && p[1..] in ps {
      var k :| 0 <= k < |ps| && ps[k] == p[1..];
      assert r[k] == p;
    }
  }

  /** `UpSum` over the first `n` successors counts the paths below them, and
      `Upstream` counts every path out of `x`. */
  lemma {:induction false} UpSumCountsPaths(job: Job, x: nat, n: nat)
    requires Graph(job) && x in job.ops && n <= |job.successors[x]|
    ensures UpSum(job, x, job.successors[x][..n]) == |PathsBelow(job, x, n)|
    decreases |job.ops| - RankOf(job)[x], 0, n
  {
    if n > 0 {
      var succs := job.successors[x][..n];
      var s := job.successors[x][n - 1];
      assert succs[..n - 1] == job.successors[x][..n - 1] && succs[n - 1] == s;
      SuccessorDeeper(job, x, s);
      UpSumCountsPaths(job, x, n - 1);
      UpstreamLength(job, s);
    }
  }

  lemma {:induction false} UpstreamLength(job: Job, x: nat)
    requires Graph(job) && x in job.ops
    ensures Upstream(job, x) == |PathsOut(job, x)|
    decreases |job.ops| - RankOf(job)[x], 1, 0
  {
    var succs := job.successors[x];
    assert succs[..|succs|] == succs;
    UpSumCountsPaths(job, x, |succs|);
  }

  /** The enumeration below the first `n` successors holds exactly the paths
      out of `x` whose second operation is among them. */
  lemma {:induction false} PathsBelowExact(job: Job, x: nat, n: nat, p: seq<nat>)
    requires Graph(job) && x in job.ops && n <= |job.successors[x]|
    ensures p in PathsBelow(job, x, n) <==> PathOut(job, x, p) && p[1] in job.successors[x][..n]
    decreases |job.ops| - RankOf(job)[x], 0, n
  {
    if n > 0 {
      var succs := job.successors[x];
      var s := succs[n - 1];
      SuccessorDeeper(job, x, s);
      assert succs[..n] == succs[..n - 1] + [s];
      PathsBelowExact(job, x, n - 1, p);
      ConsAllHas(x, PathsOut(job, s), p);
      if PathOut(job, x, p) && p[1] == s {
        PathTail(job, p);
        if |p| == 2 {
          assert p == [x, s];
        } else {
          PathsOutExact(job, s, p[1..]);
        }
      }
      if p == [x, s] {
        assert Step(job, x, s);
        assert IsPath(job, p);
      }
      if |p| > 0 && p[0] == x && p[1..] in PathsOut(job, s) {
        PathsOutExact(job, s, p[1..]);
        PathCons(job, x, p[1..]);
        assert p == [x] + p[1..];
      }
    }
  }

  lemma {:induction false} PathsOutExact(job: Job, x: nat, p: seq<nat>)
    requires Graph(job) && x in job.ops
    ensures p in PathsOut(job, x) <==> PathOut(job, x, p)
    decreases |job.ops| - RankOf(job)[x], 1, 0
  {
    var succs := job.successors[x];
    assert succs[..|succs|] == succs;
    PathsBelowExact(job, x, |succs|, p);
  }

  /** The paths through one successor `s` of `x`: none listed twice, and
      each has `s` second. */
  lemma PathsThroughNoDup(job: Job, x: nat, s: nat)
    requires Graph(job) && x in job.ops && s in job.successors[x]
    requires NoDup(PathsOut(job, s))
    ensures NoDup([[x, s]] + ConsAll(x, PathsOut(job, s)))
    ensures SecondsAmong([[x, s]] + ConsAll(x, PathsOut(job, s)), [s])
  {
    var out := PathsOut(job, s);
    var r := ConsAll(x, out);
    forall y | y in r ensures |y| >= 3 && y[1] == s {
      ConsAllHas(x, out, y);
      PathsOutExact(job, s, y[1..]);
    }
    assert NoDup(r) by {
      forall i, j | 0 <= i < j < |r| ensures r[i] != r[j] {
        assert r[i][1..] == out[i] && r[j][1..] == out[j];
      }
    }
    ConcatNoDup([[x, s]], r);
  }

  /** Every path of `ps` has two or more operations, the second among `seconds`. */
  ghost predicate SecondsAmong(ps: seq<seq<nat>>, seconds: seq<nat>) {
    forall y :: y in ps ==> |y| >= 2 && y[1] in seconds
  }

  /** Two duplicate-free lists of paths can be joined without duplicates
      when no second operation of the first list is one of the second. */
  lemma JoinBySecond(a: seq<seq<nat>>, b: seq<seq<nat>>, seconds: seq<nat>, s: nat)
    requires NoDup(a) && NoDup(b) && s !in seconds
    requires SecondsAmong(a, seconds) && SecondsAmong(b, [s])
    ensures NoDup(a + b)
  {
    ConcatNoDup(a, b);
  }

  lemma LastNotBefore(s: seq<nat>, n: nat)
    requires NoDup(s) && 0 < n <= |s|
    ensures s[n - 1] !in s[..n - 1]
  {
  }

  lemma PathsBelowSeconds(job: Job, x: nat, n: nat)
    requires Graph(job) && x in job.ops && n <= |job.successors[x]|
    ensures SecondsAmong(PathsBelow(job, x, n), job.successors[x][..n])
  {
    forall y | y in PathsBelow(job, x, n) ensures |y| >= 2 && y[1] in job.successors[x][..n] {
      PathsBelowExact(job, x, n, y);
    }
  }

  /** Adding the paths through the `n`-th successor keeps the list free of
      duplicates. */
  lemma PathsBelowJoin(job: Job, x: nat, n: nat)
    requires Graph(job) && x in job.ops && 0 < n <= |job.successors[x]|
    requires NoDup(PathsBelow(job, x, n - 1))
    requires job.successors[x][n - 1] in job.ops && NoDup(PathsOut(job, job.successors[x][n - 1]))
    ensures NoDup(PathsBelow(job, x, n))
  {
    var succs := job.successors[x];
    var s := succs[n - 1];
    var below := PathsBelow(job, x, n - 1);
    var through := [[x, s]] + ConsAll(x, PathsOut(job, s));
    assert SecondsAmong(below, succs[..n - 1]) by {
      PathsBelowSeconds(job, x, n - 1);
    }
    assert NoDup(through) && SecondsAmong(through, [s]) by {
      PathsThroughNoDup(job, x, s);
    }
    assert s !in succs[..n - 1] by {
      assert NoDup(succs);
      LastNotBefore(succs, n);
    }
    JoinBySecond(below, through, succs[..n - 1], s);
    assert PathsBelow(job, x, n) == below + through;
  }

  /** No path is listed twice: the successor lists have no duplicates. */
  lemma {:induction false} PathsBelowNoDup(job: Job, x: nat, n: nat)
    requires Graph(job) && x in job.ops && n <= |job.successors[x]|
    ensures NoDup(PathsBelow(job, x, n))
    decreases |job.ops| - RankOf(job)[x], 0, n
  {
    if n > 0 {
      var s := job.successors[x][n - 1];
      SuccessorDeeper(job, x, s);
      PathsBelowNoDup(job, x, n - 1);
      PathsOutNoDup(job, s);
      PathsBelowJoin(job, x, n);
    }
  }

  lemma {:induction false} PathsOutNoDup(job: Job, x: nat)
    requires Graph(job) && x in job.ops
    ensures NoDup(PathsOut(job, x))
    decreases |job.ops| - RankOf(job)[x], 1, 0
  {
    PathsBelowNoDup(job, x, |job.successors[x]|);
  }

  /** `getSuccessorsUpstream` is the number of paths of two or more
      operations that start at `x`: a descendant reached along two paths
      counts twice. */
  lemma UpstreamCountsPaths(job: Job, x: nat) returns (paths: set<seq<nat>>)
    requires Graph(job) && x in job.ops
    ensures forall p :: p in paths <==> PathOut(job, x, p)
    ensures Upstream(job, x) == |paths|
  {
    var ps := PathsOut(job, x);
    paths := set p | p in ps;
    forall p ensures p in paths <==> PathOut(job, x, p) {
      PathsOutExact(job, x, p);
    }
    UpstreamLength(job, x);
    PathsOutNoDup(job, x);
    NoDupCard(ps);
  }

  // ----------------------------------------------------------- latest finish

  /** `calculateLF` against a makespan: the makespan for a sink, otherwise
      the least latest start `LF(s) - shortest(s)` over the successors,
      searched from `IntMax`. */
  function LatestFinish(job: Job, x: nat, makespan: int): int
    requires Graph(job) && x in job.ops
    decreases |job.ops| - RankOf(job)[x], 1, 0
  {
    if job.successors[x] == [] then makespan else LfMin(job, x, job.successors[x], makespan)
  }

  /** The loop `minLS = min(minLS, LF(s) - shortest(s))` from `IntMax`. */
  function LfMin(job: Job, x: nat, succs: seq<nat>, makespan: int): (r: int)
    requires Graph(job) && x in job.ops
    requires forall s :: s in succs ==> s in job.successors[x]
    ensures r <= IntMax
    decreases |job.ops| - RankOf(job)[x], 0, |succs|
  {
    if succs == [] then IntMax
    else
      var s := succs[|succs| - 1];
      SuccessorDeeper(job, x, s);
      Min(LfMin(job, x, succs[..|succs| - 1], makespan), LatestFinish(job, s, makespan) - ShortestOf(job, s))
  }

  /** `calculateLF(x, schedule)`: the makespan is the schedule's. */
  function CalculateLF(job: Job, x: nat, sch: Schedule): int
    requires Graph(job) && x in job.ops
  {
    LatestFinish(job, x, MakeSpan(sch))
  }

  lemma {:induction false} LfMinFromCpMax(job: Job, x: nat, succs: seq<nat>, m: int)
    requires Graph(job) && Timed(job) && x in job.ops && m <= IntMax
    requires forall s :: s in succs ==> s in job.successors[x]
    requires succs != []
    ensures LfMin(job, x, succs, m) == m - CpMax(job, x, succs)
    decreases |job.ops| - RankOf(job)[x], 0, |succs|
  {
    var s := succs[|succs| - 1];
    var init := succs[..|succs| - 1];
    SuccessorDeeper(job, x, s);
    LfFromCriticalPath(job, s, m);
    CriticalPathAtLeastOwn(job, s);
    if init != [] {
      LfMinFromCpMax(job, x, init, m);
    }
  }

  /** Backward and forward passes agree: the latest finish of `x` is the
      makespan minus the heaviest path strictly after `x`. In particular it
      never exceeds the makespan. */
  lemma {:induction false} LfFromCriticalPath(job: Job, x: nat, m: int)
    requires Graph(job) && Timed(job) && x in job.ops && m <= IntMax
    ensures LatestFinish(job, x, m) == m - (CriticalPath(job, x) - ShortestOf(job, x))
    ensures LatestFinish(job, x, m) <= m
    decreases |job.ops| - RankOf(job)[x], 1, 0
  {
    if job.successors[x] != [] {
      LfMinFromCpMax(job, x, job.successors[x], m);
    }
  }

  // ---------------------------------------------------------- earliest start

  /** The first alternative whose time equals `time`. */
  function StationWithTime(entries: seq<StationTime>, time: int): (r: Result<nat>)
    ensures r.Success? <==> exists i :: 0 <= i < |entries| && entries[i].time == time
    ensures r.Failure? ==> r.error == NoShortestStation
    ensures r.Success? ==> exists i :: (0 <= i < |entries| && entries[i].time == time
      && entries[i].station == r.value && forall j :: 0 <= j < i ==> entries[j].time != time)
  {
    if entries == [] then Failure(NoShortestStation)
    else if entries[0].time == time then Success(entries[0].station)
    else
      var r := StationWithTime(entries[1..], time);
      if r.Success? then
        var i :| 0 <= i < |entries[1..]| && entries[1..][i].time == time && entries[1..][i].station == r.value
          && forall j :: 0 <= j < i ==> entries[1..][j].time != time;
        assert entries[i + 1] == entries[1..][i];
        r
      else
        r
  }

  /** `calculateES`: the later of the availability of the first station that
      achieves the shortest time and the latest earliest finish
      `ES(p) + shortest(p)` over predecessors not yet done, starting from the
      last predecessor end. The source falls off the end of the function when
      no station achieves the shortest time; that case is an error here. */
  function EarliestStart(job: Job, x: nat, sch: Schedule): (r: Result<int>)
    requires Acyclic(job) && x in job.ops
    ensures r.Success? ==> r.value >= job.ops[x].lastPredTime
    decreases RankOf(job)[x], 1, 0
  {
    var maxEF :- EfMax(job, x, job.ops[x].predecessors, sch);
    var station :- StationWithTime(job.ops[x].stations, ShortestOf(job, x));
    var avail :- Availability(sch, station);
    Success(Max(avail, maxEF))
  }

  /** The predecessor loop of `calculateES`: `.at` throws for an unknown id,
      done predecessors are skipped. */
  function EfMax(job: Job, x: nat, preds: seq<nat>, sch: Schedule): (r: Result<int>)
    requires Acyclic(job) && x in job.ops
    requires forall p :: p in preds ==> p in job.ops[x].predecessors
    ensures r.Success? ==> r.value >= job.ops[x].lastPredTime
    decreases RankOf(job)[x], 0, |preds|
  {
    if preds == [] then Success(job.ops[x].lastPredTime)
    else
      var acc :- EfMax(job, x, preds[..|preds| - 1], sch);
      var p := preds[|preds| - 1];
      if p !in job.ops then Failure(NoSuchOperation)
      else if job.ops[p].done then Success(acc)
      else
        var es :- EarliestStart(job, p, sch);
        Success(Max(acc, es + ShortestOf(job, p)))
  }

  /** Station indices of a job's alternatives all name lanes of the timeline. */
  ghost predicate StationsIn(job: Job, sch: Schedule) {
    forall x, k :: x in job.ops && 0 <= k < |job.ops[x].stations| ==> job.ops[x].stations[k].station < |sch.lanes|
  }

  lemma {:induction false} EfMaxDefined(job: Job, x: nat, preds: seq<nat>, sch: Schedule)
    requires PredecessorsKnown(job) && Timed(job) && Acyclic(job) && StationsIn(job, sch) && x in job.ops
    requires forall p :: p in preds ==> p in job.ops[x].predecessors
    ensures EfMax(job, x, preds, sch).Success?
    decreases RankOf(job)[x], 0, |preds|
  {
    if preds != [] {
      EfMaxDefined(job, x, preds[..|preds| - 1], sch);
      var p := preds[|preds| - 1];
      if !job.ops[p].done {
        EarliestStartDefined(job, p, sch);
      }
    }
  }

  /** For a well-formed job whose stations all exist, `calculateES` is always
      defined: the shortest time is achieved by some station. */
  lemma {:induction false} EarliestStartDefined(job: Job, x: nat, sch: Schedule)
    requires PredecessorsKnown(job) && Timed(job) && Acyclic(job) && StationsIn(job, sch) && x in job.ops
    ensures EarliestStart(job, x, sch).Success?
    decreases RankOf(job)[x], 1, 0
  {
    EfMaxDefined(job, x, job.ops[x].predecessors, sch);
    ShortestAttained(job.ops[x].stations);
  }

  lemma {:induction false} EfMaxBound(job: Job, x: nat, preds: seq<nat>, sch: Schedule, i: int)
    requires Acyclic(job) && x in job.ops
    requires forall p :: p in preds ==> p in job.ops[x].predecessors
    requires 0 <= i < |preds| && preds[i] in job.ops && !job.ops[preds[i]].done
    requires EfMax(job, x, preds, sch).Success?
    ensures EarliestStart(job, preds[i], sch).Success?
    ensures EarliestStart(job, preds[i], sch).value + ShortestOf(job, preds[i]) <= EfMax(job, x, preds, sch).value
    decreases |preds|
  {
    if i < |preds| - 1 {
      EfMaxBound(job, x, preds[..|preds| - 1], sch, i);
    }
  }

  /** A successful earliest start is no earlier than the earliest finish of
      every predecessor still to be done, nor than the availability of the
      station it is computed for. */
  lemma EarliestStartAfterPredecessors(job: Job, x: nat, sch: Schedule, i: int)
    requires Acyclic(job) && x in job.ops
    requires 0 <= i < |job.ops[x].predecessors|
    requires job.ops[x].predecessors[i] in job.ops && !job.ops[job.ops[x].predecessors[i]].done
    requires EarliestStart(job, x, sch).Success?
    ensures var p := job.ops[x].predecessors[i];
      && EarliestStart(job, p, sch).Success?
      && EarliestStart(job, p, sch).value + ShortestOf(job, p) <= EarliestStart(job, x, sch).value
    ensures var station := StationWithTime(job.ops[x].stations, ShortestOf(job, x));
      && station.Success? && Availability(sch, station.value).Success?
      && Availability(sch, station.value).value <= EarliestStart(job, x, sch).value
  {
    EfMaxBound(job, x, job.ops[x].predecessors, sch, i);
  }

  // ------------------------------------------------- eft and nc_criticalPath

  /** `eft`: for an operation that is done or has no predecessors, its last
      predecessor end plus its shortest time; otherwise the latest `eft` of
      its predecessors (searched from -1) plus its shortest time. */
  function Eft(job: Job, x: nat): (r: Result<int>)
    requires Acyclic(job) && x in job.ops
    decreases RankOf(job)[x], 1, 0
  {
    var o := job.ops[x];
    if o.done || o.predecessors == [] then Success(o.lastPredTime + ShortestOf(job, x))
    else
      var m :- EftMax(job, x, o.predecessors);
      Success(m + ShortestOf(job, x))
  }

  /** The loop `maxEnd = max(maxEnd, eft(p))` from `maxEnd = -1`. */
  function EftMax(job: Job, x: nat, preds: seq<nat>): (r: Result<int>)
    requires Acyclic(job) && x in job.ops
    requires forall p :: p in preds ==> p in job.ops[x].predecessors
    ensures r.Success? ==> r.value >= -1
    decreases RankOf(job)[x], 0, |preds|
  {
    if preds == [] then Success(-1)
    else
      var acc :- EftMax(job, x, preds[..|preds| - 1]);
      var p := preds[|preds| - 1];
      if p !in job.ops then Failure(NoSuchOperation)
      else
        var e :- Eft(job, p);
        Success(Max(acc, e))
  }

  lemma {:induction false} EftMaxBound(job: Job, x: nat, preds: seq<nat>, i: int)
    requires Acyclic(job) && x in job.ops
    requires forall p :: p in preds ==> p in job.ops[x].predecessors
    requires 0 <= i < |preds| && EftMax(job, x, preds).Success?
    ensures preds[i] in job.ops && Eft(job, preds[i]).Success?
    ensures Eft(job, preds[i]).value <= EftMax(job, x, preds).value
    decreases |preds|
  {
    if i < |preds| - 1 {
      EftMaxBound(job, x, preds[..|preds| - 1], i);
    }
  }

  /** An operation still waiting on predecessors finishes, at the earliest, a
      shortest time after each of them. */
  lemma EftAfterPredecessors(job: Job, x: nat, i: int)
    requires Acyclic(job) && x in job.ops && !job.ops[x].done
    requires 0 <= i < |job.ops[x].predecessors|
    requires Eft(job, x).Success?
    ensures var p := job.ops[x].predecessors[i];
      && p in job.ops && Eft(job, p).Success?
      && Eft(job, p).value + ShortestOf(job, x) <= Eft(job, x).value
  {
    EftMaxBound(job, x, job.ops[x].predecessors, i);
  }

  lemma {:induction false} EftMaxAttained(job: Job, x: nat, preds: seq<nat>) returns (i: int)
    requires Acyclic(job) && x in job.ops
    requires forall p :: p in preds ==> p in job.ops[x].predecessors
    requires EftMax(job, x, preds).Success?
    ensures -1 <= i < |preds|
    ensures i == -1 ==> EftMax(job, x, preds).value == -1
    ensures i >= 0 ==> (preds[i] in job.ops && Eft(job, preds[i]).Success?
      && EftMax(job, x, preds).value == Eft(job, preds[i]).value)
    decreases |preds|
  {
    if preds == [] {
      i := -1;
    } else {
      var init := preds[..|preds| - 1];
      var k := EftMaxAttained(job, x, init);
      var p := preds[|preds| - 1];
      if EftMax(job, x, init).value < Eft(job, p).value {
        i := |preds| - 1;
      } else {
        i := k;
        if k >= 0 {
          assert init[k] == preds[k];
        }
      }
    }
  }

  /** The other half of `eft`: its value is attained. A done operation, or
      one without predecessors, ends a shortest time after its last
      predecessor end. Otherwise it ends a shortest time after the latest
      `eft` of some predecessor `i`, or after the loop's starting value -1
      (`i == -1`); with `EftAfterPredecessors` this is the maximum. */
  lemma EftAttained(job: Job, x: nat) returns (i: int)
    requires Acyclic(job) && x in job.ops && Eft(job, x).Success?
    ensures var o := job.ops[x];
      o.done || o.predecessors == [] ==> Eft(job, x).value == o.lastPredTime + ShortestOf(job, x)
    ensures var o := job.ops[x];
      !o.done && o.predecessors != [] ==>
        && -1 <= i < |o.predecessors|
        && (i == -1 ==> Eft(job, x).value == -1 + ShortestOf(job, x))
        && (i >= 0 ==> (o.predecessors[i] in job.ops && Eft(job, o.predecessors[i]).Success?
              && Eft(job, x).value == Eft(job, o.predecessors[i]).value + ShortestOf(job, x)))
  {
    var o := job.ops[x];
    i := -1;
    if !o.done && o.predecessors != [] {
      i := EftMaxAttained(job, x, o.predecessors);
    }
  }

  /** The loop of `nc_criticalPath` over ids `0 .. n-1` from `maxEnd = -1`:
      `m_successors.at(i)` throws for an id without an entry, and a sink is
      looked up with `m_operations.at(i)` inside `eft`. */
  function NcOver(job: Job, n: nat): (r: Result<int>)
    requires Acyclic(job)
    ensures r.Success? ==> r.value >= -1
    decreases n
  {
    if n == 0 then Success(-1)
    else
      var acc :- NcOver(job, n - 1);
      var i := n - 1;
      if i !in job.successors then Failure(NoSuchOperation)
      else if job.successors[i] != [] then Success(acc)
      else if i !in job.ops then Failure(NoSuchOperation)
      else
        var e :- Eft(job, i);
        Success(Max(e, acc))
  }

  /** `nc_criticalPath`: the latest `eft` over the sinks, assuming the
      operation ids are exactly `0 .. |ops|-1`. */
  function NcCriticalPath(job: Job): Result<int>
    requires Acyclic(job)
  {
    NcOver(job, |job.ops|)
  }

  lemma {:induction false} EftDefined(job: Job, x: nat)
    requires PredecessorsKnown(job) && Acyclic(job) && x in job.ops
    ensures Eft(job, x).Success?
    decreases RankOf(job)[x], 1, 0
  {
    var o := job.ops[x];
    if !(o.done || o.predecessors == []) {
      EftMaxDefined(job, x, o.predecessors);
    }
  }

  lemma {:induction false} EftMaxDefined(job: Job, x: nat, preds: seq<nat>)
    requires PredecessorsKnown(job) && Acyclic(job) && x in job.ops
    requires forall p :: p in preds ==> p in job.ops[x].predecessors
    ensures EftMax(job, x, preds).Success?
    decreases RankOf(job)[x], 0, |preds|
  {
    if preds != [] {
      EftMaxDefined(job, x, preds[..|preds| - 1]);
      EftDefined(job, preds[|preds| - 1]);
    }
  }

  /** `i` is a sink of the job. */
  ghost predicate Sink(job: Job, i: nat) {
    i in job.successors && job.successors[i] == []
  }

  lemma {:induction false} NcOverDefined(job: Job, n: nat)
    requires PredecessorsKnown(job) && Acyclic(job)
    requires forall i :: 0 <= i < n ==> i in job.ops && i in job.successors
    ensures NcOver(job, n).Success?
    decreases n
  {
    if n > 0 {
      NcOverDefined(job, n - 1);
      EftDefined(job, n - 1);
    }
  }

  lemma {:induction false} NcOverBound(job: Job, n: nat, i: nat)
    requires Acyclic(job) && NcOver(job, n).Success?
    requires i < n && Sink(job, i) && i in job.ops
    ensures Eft(job, i).Success? && Eft(job, i).value <= NcOver(job, n).value
    decreases n
  {
    if i < n - 1 {
      NcOverBound(job, n - 1, i);
    }
  }

  lemma {:induction false} NcOverAttained(job: Job, n: nat)
    requires Acyclic(job) && NcOver(job, n).Success?
    ensures NcOver(job, n).value == -1 ||
      exists i :: 0 <= i < n && Sink(job, i) && i in job.ops && Eft(job, i) == Success(NcOver(job, n).value)
    decreases n
  {
    if n > 0 {
      NcOverAttained(job, n - 1);
    }
  }

  lemma NcCriticalPathSpec(job: Job)
    requires Shaped(job) && Acyclic(job)
    requires forall i :: 0 <= i < |job.ops| ==> i in job.ops
    ensures NcCriticalPath(job).Success?
    ensures forall i :: 0 <= i < |job.ops| && Sink(job, i) ==>
      Eft(job, i).Success? && Eft(job, i).value <= NcCriticalPath(job).value
    ensures NcCriticalPath(job).value == -1 ||
      exists i :: 0 <= i < |job.ops| && Sink(job, i) && Eft(job, i) == Success(NcCriticalPath(job).value)
  {
    var n := |job.ops|;
    ShapedParts(job);
    NcOverDefined(job, n);
    forall i | 0 <= i < n && Sink(job, i) ensures Eft(job, i).Success? && Eft(job, i).value <= NcCriticalPath(job).value {
      NcOverBound(job, n, i);
    }
    NcOverAttained(job, n);
  }
}

=== FILE: operations.dfy ===
/** `fjss::Operation` (src/FJSS.cpp:4-79, FJSS.hpp:23-57): one node of a job's
    precedence graph, with its eligible (station, time) alternatives and the
    bookkeeping that tracks which predecessors are still outstanding. */
module Operations {
  import opened Wrappers

  /** `std::numeric_limits<int>::max()`, the start value of every minimum
      search in the source. */
  const IntMax: int := 0x7fff_ffff

  /** `OperationTimeStation`: the operation can run on `station` in `time`. */
  datatype StationTime = StationTime(station: nat, time: int)

  datatype Operation = Operation(
    id: nat,
    typeId: nat,
    stations: seq<StationTime>,  // eligible alternatives, in insertion order
    predecessors: seq<nat>,      // ids of operations of the same job
    toDo: set<nat>,              // predecessors not yet completed
    lastPredTime: int,           // latest end time among completed predecessors
    done: bool)

  /** The default-constructed operation, also what `std::map::operator[]`
      inserts for a missing id. */
  const Blank := Operation(0, 0, [], [], {}, 0, false)

  /** The static part of an operation, which no scheduling step changes. */
  predicate SameShape(a: Operation, b: Operation) {
    && a.id == b.id
    && a.typeId == b.typeId
    && a.stations == b.stations
    && a.predecessors == b.predecessors
  }

  predicate IsAvailable(o: Operation) {
    o.toDo == {}
  }

  /** `restartOperation`: every predecessor is outstanding again. */
  function Restart(o: Operation): (r: Operation)
    ensures SameShape(o, r)
    ensures !r.done && r.lastPredTime == 0
    ensures forall p :: p in r.toDo <==> p in o.predecessors
    ensures IsAvailable(r) <==> o.predecessors == []
  {
    var r := o.(toDo := (set p | p in o.predecessors), lastPredTime := 0, done := false);
    assert o.predecessors != [] ==> o.predecessors[0] in r.toDo;
    r
  }

  /** `precedessordoneUpdate`: predecessor `p` finished at time `t`. */
  function PredecessorDone(o: Operation, p: nat, t: int): (r: Operation)
    ensures SameShape(o, r) && r.done == o.done
    ensures r.toDo == o.toDo - {p}
    ensures r.lastPredTime >= o.lastPredTime && r.lastPredTime >= t
    ensures r.lastPredTime == o.lastPredTime || r.lastPredTime == t
  {
    o.(toDo := o.toDo - {p}, lastPredTime := if o.lastPredTime < t then t else o.lastPredTime)
  }

  /** Reporting the same predecessor twice changes nothing more. */
  lemma PredecessorDoneIdempotent(o: Operation, p: nat, t: int)
    ensures PredecessorDone(PredecessorDone(o, p, t), p, t) == PredecessorDone(o, p, t)
  {
  }

  /** `getProcessTimeOnStationID`: the time of the FIRST entry for `station`;
      the source throws when there is none. */
  function TimeOn(entries: seq<StationTime>, station: nat): (r: Result<int>)
    ensures r.Success? <==> exists i :: 0 <= i < |entries| && entries[i].station == station
    ensures r.Failure? ==> r.error == IneligibleStation
    ensures r.Success? ==> exists i ::
      && 0 <= i < |entries| && entries[i].station == station && entries[i].time == r.value
      && forall j :: 0 <= j < i ==> entries[j].station != station
  {
    if entries == [] then Failure(IneligibleStation)
    else if entries[0].station == station then Success(entries[0].time)
    else
      var r := TimeOn(entries[1..], station);
      if r.Success? then
        var i :| 0 <= i < |entries[1..]| && entries[1..][i].station == station && entries[1..][i].time == r.value
          && forall j :: 0 <= j < i ==> entries[1..][j].station != station;
        assert entries[i + 1].time == r.value;
        r
      else
        r
  }

  function ProcessTimeOn(o: Operation, station: nat): Result<int> {
    TimeOn(o.stations, station)
  }

  /** `getShortestProcessTime`: a minimum search started from `IntMax`. */
  function Shortest(entries: seq<StationTime>): (r: int)
    ensures r <= IntMax
    ensures forall i :: 0 <= i < |entries| ==> r <= entries[i].time
    ensures r == IntMax || exists i :: 0 <= i < |entries| && entries[i].time == r
  {
    if entries == [] then IntMax
    else
      var rest := Shortest(entries[..|entries| - 1]);
      var last := entries[|entries| - 1].time;
      if last < rest then last
      else
        assert forall i :: 0 <= i < |entries| - 1 ==> entries[i] == entries[..|entries| - 1][i];
        rest
  }

  /** `getLongestProcessTime`: a maximum search started from 0. */
  function Longest(entries: seq<StationTime>): (r: int)
    ensures r >= 0
    ensures forall i :: 0 <= i < |entries| ==> entries[i].time <= r
    ensures r == 0 || exists i :: 0 <= i < |entries| && entries[i].time == r
  {
    if entries == [] then 0
    else
      var rest := Longest(entries[..|entries| - 1]);
      var last := entries[|entries| - 1].time;
      if rest < last then last
      else
        assert forall i :: 0 <= i < |entries| - 1 ==> entries[i] == entries[..|entries| - 1][i];
        rest
  }

  /** With at least one alternative whose time fits in an `int`, the shortest
      time is the time of some alternative. */
  lemma ShortestAttained(entries: seq<StationTime>)
    requires entries != []
    requires forall i :: 0 <= i < |entries| ==> entries[i].time <= IntMax
    ensures exists i :: 0 <= i < |entries| && entries[i].time == Shortest(entries)
  {
    if Shortest(entries) == IntMax {
      assert entries[0].time == IntMax;
    }
  }
}

=== FILE: plans.dfy ===
/** The stand-alone planners of Planner.hpp: each builds a fresh timeline
    with `stationCount` lanes and commits decisions until the container (or,
    for `plan0`, each job in turn) is done. They never restart the container,
    and when a selection loop never beats its sentinel they commit the
    default decision (station 0, operation 0, job 0). */
module Plans {
  import opened Wrappers
  import opened Collections
  import opened Selection
  import opened Operations
  import opened Jobs
  import opened Containers
  import opened Timeline
  import opened Policies
  import opened Driver

  /** What a planner hands back: the container in its final state, the
      timeline it built, and the station demand map it kept (`plan10`). */
  datatype Planned = Planned(container: Container, schedule: Schedule, demand: map<nat, int>)

  /** The decision a `ScheduleDecision`-style loop commits when nothing beat
      its sentinel: the zero-initialised best ids. */
  const Default := Decision(0, 0, 0)

  /** The global planners `plan2`, `plan3`, `plan5` and `plan10`. */
  datatype Global = Plan2 | Plan3 | Plan5 | Plan10

  /** The selection rule of a global planner, given the current demand map. */
  function RuleOf(p: Global, demand: map<nat, int>): Rule {
    match p
    case Plan2 => Eit
    case Plan3 => LeastLoad
    case Plan5 => SuccessorsThenEnd
    case Plan10 => DemandThenEnd(demand)
  }

  /** The selection of one round: the rule's decision, or the default one
      when nothing beat the sentinel. Any other failure (a query on a
      station past the last lane) is passed on. */
  function Choose(rule: Rule, c: Container, sch: Schedule): (r: Result<Decision>)
    requires rule.Elft? ==> Graphs(c)
    ensures Decide(rule, c, sch).Success? ==> r == Decide(rule, c, sch)
    ensures Decide(rule, c, sch) == Failure(NoSelection) ==> r == Success(Default)
    ensures r.Failure? ==> r == Decide(rule, c, sch) && r.error != NoSelection
  {
    var decided := Decide(rule, c, sch);
    if decided.Failure? && decided.error != NoSelection then Failure(decided.error)
    else if decided.Success? then decided
    else Success(Default)
  }

  /** `plan10` lowers the demand of the chosen station by one before the
      commit; the other planners keep no demand. */
  function Lower(p: Global, demand: map<nat, int>, station: nat): map<nat, int> {
    if p == Plan10 then demand[station := DemandAt(demand, station) - 1] else demand
  }

  /** Between two states of a planner: the container stays valid with the
      same jobs, every finished operation got exactly one placement, the
      number of lanes is kept, and a sound timeline stays sound without its
      makespan shrinking. */
  ghost predicate Kept(c0: Container, sch0: Schedule, c: Container, sch: Schedule) {
    && Valid(c) && c.jobs.Keys == c0.jobs.Keys
    && Placed(sch) + |Remaining(c)| == Placed(sch0) + |Remaining(c0)|
    && |sch.lanes| == |sch0.lanes|
    && (Sound(sch0) ==> Sound(sch) && MakeSpan(sch0) <= MakeSpan(sch))
  }

  /** `Kept` chains from a valid start; a chain that starts elsewhere is
      not constrained. */
  lemma KeptTrans(c0: Container, sch0: Schedule, c1: Container, sch1: Schedule, c: Container, sch: Schedule)
    requires Valid(c0) ==> Kept(c0, sch0, c1, sch1)
    requires Valid(c1) ==> Kept(c1, sch1, c, sch)
    ensures Valid(c0) ==> Kept(c0, sch0, c, sch)
  {
  }

  /** `Kept`, and for `plan10` the demand still counted on each station plus
      what has been placed there is what it was. */
  ghost predicate Progress(p: Global, c0: Container, sch0: Schedule, m0: map<nat, int>,
                           c: Container, sch: Schedule, m: map<nat, int>)
  {
    && Kept(c0, sch0, c, sch)
    && (p == Plan10 ==> forall t :: 0 <= t < |sch0.lanes| ==>
          DemandAt(m, t) + |sch.lanes[t]| == DemandAt(m0, t) + |sch0.lanes[t]|)
  }

  lemma ProgressTrans(p: Global, c0: Container, sch0: Schedule, m0: map<nat, int>,
                      c1: Container, sch1: Schedule, m1: map<nat, int>,
                      c: Container, sch: Schedule, m: map<nat, int>)
    requires Progress(p, c0, sch0, m0, c1, sch1, m1) && Progress(p, c1, sch1, m1, c, sch, m)
    ensures Progress(p, c0, sch0, m0, c, sch, m)
  {
    KeptTrans(c0, sch0, c1, sch1, c, sch);
  }

  /** One commit on a valid container, as `Kept` sees it. */
  lemma CommitKept(c: Container, sch: Schedule, d: Decision)
    requires Valid(c) && Commit(sch, c, d.station, d.jobId, d.opId).Success?
    ensures var st := Commit(sch, c, d.station, d.jobId, d.opId).value;
      && Kept(c, sch, st.container, st.schedule)
      && |Remaining(st.container)| < |Remaining(c)|
  {
    CommitContainer(c, sch, d);
    CommitTimeline(c, sch, d);
  }

  /** One round: committing decision `d` after lowering its demand. */
  lemma RoundProgress(p: Global, c: Container, sch: Schedule, m: map<nat, int>, d: Decision)
    requires Valid(c) && Commit(sch, c, d.station, d.jobId, d.opId).Success?
    ensures var st := Commit(sch, c, d.station, d.jobId, d.opId).value;
      && Progress(p, c, sch, m, st.container, st.schedule, Lower(p, m, d.station))
      && |Remaining(st.container)| < |Remaining(c)|
  {
    var st := Commit(sch, c, d.station, d.jobId, d.opId).value;
    CommitKept(c, sch, d);
    CommitTimeline(c, sch, d);
    LowerKeeps(p, m, sch, st.schedule, d.station);
  }

  /** Lowering the chosen station's demand matches the one placement the
      commit adds to that station's lane. */
  lemma LowerKeeps(p: Global, m: map<nat, int>, sch: Schedule, sch': Schedule, station: nat)
    requires |sch'.lanes| == |sch.lanes| && station < |sch.lanes|
    requires |sch'.lanes[station]| == |sch.lanes[station]| + 1
    requires forall t :: 0 <= t < |sch.lanes| && t != station ==> sch'.lanes[t] == sch.lanes[t]
    ensures p == Plan10 ==> forall t :: 0 <= t < |sch.lanes| ==>
      DemandAt(Lower(p, m, station), t) + |sch'.lanes[t]| == DemandAt(m, t) + |sch.lanes[t]|
  {
  }

  /** The `while (!jobContainer.isDone())` loop of a global planner, on a
      valid container or on one whose available lists are all empty (a
      loaded container that was never restarted): the latter is done
      before the first pass and comes back as it went in. */
  function Rounds(p: Global, c: Container, sch: Schedule, demand: map<nat, int>): (r: Result<Planned>)
    requires Valid(c) || Containers.IsDone(c)
    ensures Containers.IsDone(c) ==> r == Success(Planned(c, sch, demand))
    ensures r.Success? ==> Containers.IsDone(r.value.container)
    ensures Valid(c) && r.Success? ==> Remaining(r.value.container) == {}
    ensures Valid(c) && r.Success? ==> Progress(p, c, sch, demand, r.value.container, r.value.schedule, r.value.demand)
    decreases |Remaining(c)|
  {
    if Containers.IsDone(c) then
      DoneIfValid(c);
      Success(Planned(c, sch, demand))
    else
      var next :- Round(p, c, sch, demand);
      var r :- Rounds(p, next.container, next.schedule, next.demand);
      ProgressTrans(p, c, sch, demand, next.container, next.schedule, next.demand, r.container, r.schedule, r.demand);
      Success(r)
  }

  /** One pass of the loop body: select, lower the demand, commit. */
  function Round(p: Global, c: Container, sch: Schedule, demand: map<nat, int>): (r: Result<Planned>)
    requires Valid(c)
    ensures r.Success? ==> Progress(p, c, sch, demand, r.value.container, r.value.schedule, r.value.demand)
    ensures r.Success? ==> |Remaining(r.value.container)| < |Remaining(c)|
  {
    ValidGraphs(c);
    var d :- Choose(RuleOf(p, demand), c, sch);
    var st :- Commit(sch, c, d.station, d.jobId, d.opId);
    RoundProgress(p, c, sch, demand, d);
    Success(Planned(st.container, st.schedule, Lower(p, demand, d.station)))
  }

  /** The demand map a global planner starts from: `plan10` counts the
      alternatives of every operation, done or not; the others keep none. */
  function InitialMap(p: Global, c: Container): map<nat, int> {
    if p == Plan10 then Demand(c, false) else map[]
  }

  /** A global planner run from a fresh timeline with `stationCount` lanes.
      The planners never restart the container: on one that was never
      restarted, every available list is empty, and the run hands back the
      container and the empty timeline at once. */
  function RunGlobal(p: Global, c: Container, stationCount: nat): (r: Result<Planned>)
    requires Valid(c) || Containers.IsDone(c)
    ensures Containers.IsDone(c) ==> r == Success(Planned(c, NewSchedule(stationCount), InitialMap(p, c)))
    ensures r.Success? ==> |r.value.schedule.lanes| == stationCount
    ensures Valid(c) && r.Success? ==> Valid(r.value.container) && Remaining(r.value.container) == {}
    ensures Valid(c) && r.Success? ==> Placed(r.value.schedule) == |Remaining(c)|
    ensures Valid(c) && r.Success? ==> Sound(r.value.schedule)
    ensures Valid(c) && r.Success? && p == Plan10 ==> forall t :: 0 <= t < stationCount ==>
      DemandAt(r.value.demand, t) + |r.value.schedule.lanes[t]| == JobsDemand(c, SortedKeys(c.jobs.Keys), false, t)
  {
    FreshRun(p, c, stationCount);
    Rounds(p, c, NewSchedule(stationCount), InitialMap(p, c))
  }

  /** What the loop adds up to when it starts from a fresh timeline. */
  lemma FreshRun(p: Global, c: Container, stationCount: nat)
    requires Valid(c) || Containers.IsDone(c)
    ensures var r := Rounds(p, c, NewSchedule(stationCount), InitialMap(p, c));
      && (r.Success? ==> |r.value.schedule.lanes| == stationCount)
      && (Valid(c) && r.Success? ==> Valid(r.value.container) && Remaining(r.value.container) == {})
      && (Valid(c) && r.Success? ==> Placed(r.value.schedule) == |Remaining(c)|)
      && (Valid(c) && r.Success? ==> Sound(r.value.schedule))
      && (Valid(c) && r.Success? && p == Plan10 ==> forall t :: 0 <= t < stationCount ==>
            DemandAt(r.value.demand, t) + |r.value.schedule.lanes[t]| == JobsDemand(c, SortedKeys(c.jobs.Keys), false, t))
  {
    if Valid(c) {
      ValidRun(p, c, stationCount);
    }
  }

  /** The same from a valid container. */
  lemma ValidRun(p: Global, c: Container, stationCount: nat)
    requires Valid(c)
    ensures var r := Rounds(p, c, NewSchedule(stationCount), InitialMap(p, c));
      && (r.Success? ==> |r.value.schedule.lanes| == stationCount)
      && (r.Success? ==> Valid(r.value.container) && Remaining(r.value.container) == {})
      && (r.Success? ==> Placed(r.value.schedule) == |Remaining(c)|)
      && (r.Success? ==> Sound(r.value.schedule))
      && (r.Success? && p == Plan10 ==> forall t :: 0 <= t < stationCount ==>
            DemandAt(r.value.demand, t) + |r.value.schedule.lanes[t]| == JobsDemand(c, SortedKeys(c.jobs.Keys), false, t))
  {
    var r := Rounds(p, c, NewSchedule(stationCount), InitialMap(p, c));
    if r.Success? {
      Accounted(p, c, stationCount, r.value);
    }
  }

  /** A run that made `Progress` from a fresh timeline. */
  lemma Accounted(p: Global, c: Container, stationCount: nat, r: Planned)
    requires Progress(p, c, NewSchedule(stationCount), InitialMap(p, c), r.container, r.schedule, r.demand)
    ensures Placed(r.schedule) + |Remaining(r.container)| == |Remaining(c)|
    ensures |r.schedule.lanes| == stationCount && Sound(r.schedule)
    ensures p == Plan10 ==> forall t :: 0 <= t < stationCount ==>
      DemandAt(r.demand, t) + |r.schedule.lanes[t]| == JobsDemand(c, SortedKeys(c.jobs.Keys), false, t)
  {
    var sch := NewSchedule(stationCount);
    NewSchedulePlacesNone(stationCount);
    assert Sound(sch);
    InitialDemand(c);
  }

  /** On a valid container, `isDone` and "nothing remains" agree. */
  lemma DoneIfValid(c: Container)
    ensures Valid(c) ==> (Containers.IsDone(c) <==> Remaining(c) == {})
  {
    if Valid(c) {
      DoneIffNoneRemaining(c);
    }
  }

  lemma InitialDemand(c: Container)
    ensures forall t :: DemandAt(Demand(c, false), t) == JobsDemand(c, SortedKeys(c.jobs.Keys), false, t)
  {
    forall t ensures DemandAt(Demand(c, false), t) == JobsDemand(c, SortedKeys(c.jobs.Keys), false, t) {
      DemandCounts(c, false, t);
    }
  }

  // ------------------------------------------------------------------ plan0

  /** `findBestAvailibleStation`: the alternative of `o` with the earliest
      fastest start, first on ties, station 0 when none beats `IntMax`. */
  function BestStation(sch: Schedule, c: Container, job: Job, o: Operation): (r: Result<nat>)
    ensures r.Success? ==> forall i :: 0 <= i < |o.stations| ==>
      FastestStart(sch, c, o.stations[i].station, job.id, o.id).Success?
  {
    var scored :- StartsOf(sch, c, job, o, o.stations);
    match Pick(scored, Key(IntMax, 0))
    case Success(station) => Success(station)
    case Failure(_) => Success(0)
  }

  /** The fastest start of `o` on each of the alternatives `entries`. */
  function StartsOf(sch: Schedule, c: Container, job: Job, o: Operation, entries: seq<StationTime>)
    : (r: Result<seq<Scored<nat>>>)
    ensures r.Success? <==> forall i :: 0 <= i < |entries| ==>
      FastestStart(sch, c, entries[i].station, job.id, o.id).Success?
    ensures r.Success? ==> |r.value| == |entries| && forall i :: 0 <= i < |entries| ==>
      r.value[i] == Scored(entries[i].station, Key(FastestStart(sch, c, entries[i].station, job.id, o.id).value, 0))
    decreases |entries|
  {
    if entries == [] then Success([])
    else
      var n := |entries| - 1;
      var init := StartsOf(sch, c, job, o, entries[..n]);
      var t := FastestStart(sch, c, entries[n].station, job.id, o.id);
      assert forall i :: 0 <= i < n ==> entries[..n][i] == entries[i];
      if init.Failure? then init
      else if t.Failure? then Failure(t.error)
      else Success(init.value + [Scored(entries[n].station, Key(t.value, 0))])
  }

  /** When some alternative `w` starts before `IntMax`, the station
      `findBestAvailibleStation` picks is the alternative `i` with the
      earliest fastest start, and every earlier alternative starts strictly
      later. */
  lemma BestStationEarliest(sch: Schedule, c: Container, job: Job, o: Operation, w: int) returns (i: int)
    requires BestStation(sch, c, job, o).Success?
    requires 0 <= w < |o.stations| && FastestStart(sch, c, o.stations[w].station, job.id, o.id).value < IntMax
    ensures 0 <= i < |o.stations| && o.stations[i].station == BestStation(sch, c, job, o).value
    ensures forall j :: 0 <= j < |o.stations| ==>
      FastestStart(sch, c, o.stations[i].station, job.id, o.id).value <= FastestStart(sch, c, o.stations[j].station, job.id, o.id).value
    ensures forall j :: 0 <= j < i ==>
      FastestStart(sch, c, o.stations[i].station, job.id, o.id).value < FastestStart(sch, c, o.stations[j].station, job.id, o.id).value
  {
    var scored := StartsOf(sch, c, job, o, o.stations).value;
    assert KeysOf(scored)[w] == scored[w].key;
    assert Less(scored[w].key, Key(IntMax, 0));
    i :| IsFirstMin(KeysOf(scored), i) && Less(scored[i].key, Key(IntMax, 0))
      && scored[i].item == Pick(scored, Key(IntMax, 0)).value;
    forall j | 0 <= j < |o.stations|
      ensures FastestStart(sch, c, o.stations[i].station, job.id, o.id).value <= FastestStart(sch, c, o.stations[j].station, job.id, o.id).value
    {
      assert !Less(KeysOf(scored)[j], KeysOf(scored)[i]);
    }
    forall j | 0 <= j < i
      ensures FastestStart(sch, c, o.stations[i].station, job.id, o.id).value < FastestStart(sch, c, o.stations[j].station, job.id, o.id).value
    {
      assert Less(KeysOf(scored)[i], KeysOf(scored)[j]);
    }
  }

  /** The `while (!job.isDone())` loop of `plan0` for the job under `k`: the
      front of the available list goes on its best station, until the job
      is done. Every other job is left as it is; on a container whose
      available lists are all empty nothing happens. */
  function FinishJob(k: nat, c: Container, sch: Schedule): (r: Result<(Container, Schedule)>)
    requires (Valid(c) || Containers.IsDone(c)) && k in c.jobs
    ensures Containers.IsDone(c) ==> r == Success((c, sch))
    ensures Valid(c) && r.Success? ==> Kept(c, sch, r.value.0, r.value.1)
    ensures r.Success? ==> r.value.0.jobs.Keys == c.jobs.Keys && Jobs.IsDone(r.value.0.jobs[k])
    ensures r.Success? ==> forall j :: j in c.jobs && j != k ==> r.value.0.jobs[j] == c.jobs[j]
    decreases |NotDone(c.jobs[k])|
  {
    var job := c.jobs[k];
    if Jobs.IsDone(job) then Success((c, sch))
    else
      var x := job.available[0];
      var o :- GetOperation(job, x);
      var station :- BestStation(sch, c, job, o);
      var st :- Commit(sch, c, station, job.id, x);
      FrontCommitted(k, c, sch, station);
      var r :- FinishJob(k, st.container, st.schedule);
      KeptTrans(c, sch, st.container, st.schedule, r.0, r.1);
      Success(r)
  }

  /** Committing the front of job `k`'s available list finishes one of its
      operations and touches no other job. */
  lemma FrontCommitted(k: nat, c: Container, sch: Schedule, station: nat)
    requires Valid(c) && k in c.jobs && c.jobs[k].available != []
    requires Commit(sch, c, station, c.jobs[k].id, c.jobs[k].available[0]).Success?
    ensures var st := Commit(sch, c, station, c.jobs[k].id, c.jobs[k].available[0]).value;
      && Kept(c, sch, st.container, st.schedule)
      && k in st.container.jobs
      && |NotDone(st.container.jobs[k])| < |NotDone(c.jobs[k])|
      && forall j :: j in c.jobs && j != k ==> st.container.jobs[j] == c.jobs[j]
  {
    var x := c.jobs[k].available[0];
    var d := Decision(station, x, c.jobs[k].id);
    CommitKept(c, sch, d);
    CommitContainer(c, sch, d);
    RemoveOne(NotDone(c.jobs[k]), x);
  }

  /** Every job under `keys` is done. */
  ghost predicate AllDone(c: Container, keys: seq<nat>) {
    forall k :: k in keys ==> k in c.jobs && Jobs.IsDone(c.jobs[k])
  }

  /** The jobs not under `keys` are as they were. */
  ghost predicate Untouched(c0: Container, c: Container, keys: seq<nat>) {
    forall j :: j in c0.jobs && j !in keys ==> j in c.jobs && c.jobs[j] == c0.jobs[j]
  }

  /** Finishing the last job of `keys` after the others finishes all of them. */
  lemma FinishedOneMore(c0: Container, c1: Container, c: Container, keys: seq<nat>)
    requires keys != []
    requires AllDone(c1, keys[..|keys| - 1]) && Untouched(c0, c1, keys[..|keys| - 1])
    requires keys[|keys| - 1] in c.jobs && Jobs.IsDone(c.jobs[keys[|keys| - 1]])
    requires forall j :: j in c1.jobs && j != keys[|keys| - 1] ==> j in c.jobs && c.jobs[j] == c1.jobs[j]
    ensures AllDone(c, keys) && Untouched(c0, c, keys)
  {
    assert keys == keys[..|keys| - 1] + [keys[|keys| - 1]];
  }

  /** The `for` loop of `plan0` over the jobs in ascending id order. */
  function FinishJobs(keys: seq<nat>, c: Container, sch: Schedule): (r: Result<(Container, Schedule)>)
    requires (Valid(c) || Containers.IsDone(c)) && forall k :: k in keys ==> k in c.jobs
    ensures Containers.IsDone(c) ==> r == Success((c, sch))
    ensures Valid(c) && r.Success? ==> Kept(c, sch, r.value.0, r.value.1)
    ensures r.Success? ==> r.value.0.jobs.Keys == c.jobs.Keys
    ensures r.Success? ==> AllDone(r.value.0, keys) && Untouched(c, r.value.0, keys)
    decreases |keys|, 1
  {
    if keys == [] then Success((c, sch))
    else
      var n := |keys| - 1;
      LastJobStep(keys, c, sch);
      var init :- FinishJobs(keys[..n], c, sch);
      FinishJob(keys[n], init.0, init.1)
  }

  /** Finishing the last job of `keys` after the others: the step of
      `FinishJobs`, split on how the container started. */
  lemma LastJobStep(keys: seq<nat>, c: Container, sch: Schedule)
    requires (Valid(c) || Containers.IsDone(c)) && forall k :: k in keys ==> k in c.jobs
    requires keys != []
    ensures forall k :: k in keys[..|keys| - 1] ==> k in keys
    ensures var init := FinishJobs(keys[..|keys| - 1], c, sch);
      init.Success? ==>
        && (Valid(init.value.0) || Containers.IsDone(init.value.0))
        && keys[|keys| - 1] in init.value.0.jobs
        && var r := FinishJob(keys[|keys| - 1], init.value.0, init.value.1);
           && (Containers.IsDone(c) ==> init.value == (c, sch) && r == Success((c, sch)))
           && (Valid(c) && r.Success? ==> Kept(c, sch, r.value.0, r.value.1))
           && (r.Success? ==> r.value.0.jobs.Keys == c.jobs.Keys)
           && (r.Success? ==> AllDone(r.value.0, keys) && Untouched(c, r.value.0, keys))
    decreases |keys|, 0
  {
    var n := |keys| - 1;
    assert forall k :: k in keys[..n] ==> k in keys;
    var init := FinishJobs(keys[..n], c, sch);
    if init.Success? {
      var (c1, sch1) := init.value;
      if Containers.IsDone(c) {
        assert c1 == c && sch1 == sch;
      } else {
        assert Kept(c, sch, c1, sch1);
        assert Valid(c1);
      }
      var r := FinishJob(keys[n], c1, sch1);
      if r.Success? {
        KeptTrans(c, sch, c1, sch1, r.value.0, r.value.1);
        FinishedOneMore(c, c1, r.value.0, keys);
      }
    }
  }

  /** `plan0`: every job finished in turn on a fresh timeline. On a
      container that was never restarted every job is already done, and the
      container and the empty timeline come back at once. */
  function Plan0(c: Container, stationCount: nat): (r: Result<(Container, Schedule)>)
    requires Valid(c) || Containers.IsDone(c)
    ensures Containers.IsDone(c) ==> r == Success((c, NewSchedule(stationCount)))
    ensures r.Success? ==> Containers.IsDone(r.value.0) && |r.value.1.lanes| == stationCount
    ensures Valid(c) && r.Success? ==> Valid(r.value.0) && Remaining(r.value.0) == {}
    ensures Valid(c) && r.Success? ==> Placed(r.value.1) == |Remaining(c)|
    ensures Valid(c) && r.Success? ==> Sound(r.value.1)
  {
    EveryJobFinished(c, stationCount);
    FinishJobs(SortedKeys(c.jobs.Keys), c, NewSchedule(stationCount))
  }

  /** What the job-by-job loop adds up to from a fresh timeline. */
  lemma EveryJobFinished(c: Container, stationCount: nat)
    requires Valid(c) || Containers.IsDone(c)
    ensures var r := FinishJobs(SortedKeys(c.jobs.Keys), c, NewSchedule(stationCount));
      && (r.Success? ==> Containers.IsDone(r.value.0) && |r.value.1.lanes| == stationCount)
      && (Valid(c) && r.Success? ==> Valid(r.value.0) && Remaining(r.value.0) == {})
      && (Valid(c) && r.Success? ==> Placed(r.value.1) == |Remaining(c)|)
      && (Valid(c) && r.Success? ==> Sound(r.value.1))
  {
    var r := FinishJobs(SortedKeys(c.jobs.Keys), c, NewSchedule(stationCount));
    if r.Success? && Valid(c) {
      JobsAccounted(c, stationCount, r.value.0, r.value.1);
    }
  }

  /** A container and timeline `Kept` from a fresh timeline, with every job
      done. */
  lemma JobsAccounted(c: Container, stationCount: nat, c': Container, sch: Schedule)
    requires Kept(c, NewSchedule(stationCount), c', sch) && AllDone(c', SortedKeys(c.jobs.Keys))
    ensures Containers.IsDone(c') && Remaining(c') == {}
    ensures Placed(sch) == |Remaining(c)| && Sound(sch)
  {
    NewSchedulePlacesNone(stationCount);
    assert Sound(NewSchedule(stationCount));
    DoneIffNoneRemaining(c');
  }
}

=== FILE: policies.dfy ===
/** The greedy dispatch rules of ConstructionAlgorithms.cpp and Planner.hpp.
    Every rule enumerates the frontier in the same order (jobs by ascending
    key, then each job's available list, then each operation's eligible
    list), scores each (job, operation, station) triple and keeps the first
    triple whose score strictly beats the best so far, starting from a
    sentinel. */
module Policies {
  import opened Wrappers
  import opened Collections
  import opened Selection
  import opened Operations
  import opened Jobs
  import opened Containers
  import opened Timeline
  import opened Metrics

  /** `ScheduleDecision` (ConstructionAlgorithms.h:14-18). */
  datatype Decision = Decision(station: nat, opId: nat, jobId: nat)

  /** One entry of `avbOps`: an available operation of the job stored under
      `key`, together with that job's own `jobID`. */
  datatype Slot = Slot(key: nat, jobId: nat, opId: nat)

  /** `float(std::numeric_limits<int>::max())`, the sentinel of the rules
      that keep their best score in a `float`. */
  const FloatIntMax: int := 0x8000_0000

  /** `std::map::at` on the successor lists. */
  function Successors(job: Job, x: nat): (r: Result<seq<nat>>)
    ensures r.Success? <==> x in job.successors
    ensures r.Success? ==> r.value == job.successors[x]
    ensures r.Failure? ==> r.error == NoSuchOperation
  {
    if x in job.successors then Success(job.successors[x]) else Failure(NoSuchOperation)
  }

  /** `std::map::operator[]` on a demand map: 0 for a station never counted. */
  function DemandAt(demand: map<nat, int>, station: nat): int {
    if station in demand then demand[station] else 0
  }

  // ------------------------------------------------------------ enumeration

  function JobSlots(key: nat, job: Job): (r: seq<Slot>)
    ensures |r| == |job.available|
    ensures forall i :: 0 <= i < |r| ==> r[i] == Slot(key, job.id, job.available[i])
  {
    seq(|job.available|, i requires 0 <= i < |job.available| => Slot(key, job.id, job.available[i]))
  }

  function SlotsOf(jobs: map<nat, Job>, keys: seq<nat>): (r: seq<Slot>)
    requires forall k :: k in keys ==> k in jobs
    ensures forall s :: s in r ==> s.key in keys && s.jobId == jobs[s.key].id && s.opId in jobs[s.key].available
    decreases |keys|
  {
    if keys == [] then [] else JobSlots(keys[0], jobs[keys[0]]) + SlotsOf(jobs, keys[1..])
  }

  /** `avbOps`: every available operation of every job, jobs in ascending
      key order. */
  function Slots(c: Container): (r: seq<Slot>)
    ensures forall s :: s in r ==> s.key in c.jobs && s.jobId == c.jobs[s.key].id && s.opId in c.jobs[s.key].available
  {
    SlotsOf(c.jobs, SortedKeys(c.jobs.Keys))
  }

  lemma {:induction false} SlotsOfComplete(jobs: map<nat, Job>, keys: seq<nat>, k: nat, x: nat)
    requires forall k :: k in keys ==> k in jobs
    requires k in keys && x in jobs[k].available
    ensures Slot(k, jobs[k].id, x) in SlotsOf(jobs, keys)
    decreases |keys|
  {
    if keys[0] == k {
      var i :| 0 <= i < |jobs[k].available| && jobs[k].available[i] == x;
      assert JobSlots(k, jobs[k])[i] == Slot(k, jobs[k].id, x);
    } else {
      SlotsOfComplete(jobs, keys[1..], k, x);
    }
  }

  /** Every available operation of every job is enumerated. */
  lemma SlotsComplete(c: Container, k: nat, x: nat)
    requires k in c.jobs && x in c.jobs[k].available
    ensures Slot(k, c.jobs[k].id, x) in Slots(c)
  {
    SlotsOfComplete(c.jobs, SortedKeys(c.jobs.Keys), k, x);
  }

  // ---------------------------------------------------------------- picking

  datatype Scored<T> = Scored(item: T, key: Key)

  function KeysOf<T>(s: seq<Scored<T>>): (r: seq<Key>)
    ensures |r| == |s| && forall i :: 0 <= i < |s| ==> r[i] == s[i].key
  {
    seq(|s|, i requires 0 <= i < |s| => s[i].key)
  }

  /** Keep the first item whose key is minimal, provided it beats the
      sentinel; otherwise the source's decision is never written. */
  function Pick<T>(s: seq<Scored<T>>, sentinel: Key): (r: Result<T>)
    ensures r.Success? <==> exists i :: 0 <= i < |s| && Less(s[i].key, sentinel)
    ensures r.Failure? ==> r.error == NoSelection
    ensures r.Success? ==> exists i :: IsFirstMin(KeysOf(s), i) && Less(s[i].key, sentinel) && s[i].item == r.value
  {
    var keys := KeysOf(s);
    match FirstMin(keys, sentinel)
    case None => Failure(NoSelection)
    case Some(i) => Success(s[i].item)
  }

  /** One key beating the sentinel is enough for a decision. */
  lemma PickBeats<T>(s: seq<Scored<T>>, sentinel: Key, i: int)
    requires 0 <= i < |s| && Less(s[i].key, sentinel)
    ensures Pick(s, sentinel).Success?
  {
  }

  // ---------------------------------------------------------------- scoring

  /** The score of a single-stage rule. Constructor names follow the planner
      they model; the last three are `plan3`, `plan5` and `plan10`. */
  datatype Rule =
    | Eit                                      // fastest start
    | Eet                                      // fastest end
    | Spt                                      // shortest alternative time
    | Lpt                                      // longest alternative time
    | MsEet                                    // most successors, then fastest end
    | MsLamEet                                 // most (successors - alternatives), then fastest end
    | MmwEet                                   // least station idle time, then fastest start
    | Md(demand: map<nat, int>)                // fastest end plus station demand
    | Elft                                     // fastest end plus slack
    | LeastLoad                                // earliest station availability
    | SuccessorsThenEnd                        // most successors, then fastest end
    | DemandThenEnd(demand: map<nat, int>)     // least station demand, then fastest end

  /** The initial best of each rule's loop. */
  function Sentinel(rule: Rule): Key {
    match rule
    case Eit => Key(IntMax, 0)
    case Eet => Key(IntMax, 0)
    case Spt => Key(IntMax, 0)
    case Lpt => Key(1, 0)                      // longestDuration = -1
    case MsEet => Key(1, IntMax)               // mostSuccessors = -1
    case MsLamEet => Key(10000, IntMax)        // mostSuccAlt = -10000
    case MmwEet => Key(IntMax, IntMax)
    case Md(_) => Key(IntMax, 0)
    case Elft => Key(FloatIntMax, 0)
    case LeastLoad => Key(IntMax, 0)
    case SuccessorsThenEnd => Key(1, IntMax)   // highestSuccessorCount = -1
    case DemandThenEnd(_) => Key(100000000, 100000000)   // 10e7
  }

  /** The metrics need acyclic, linked jobs. */
  ghost predicate Graphs(c: Container) {
    forall k :: k in c.jobs ==> Graph(c.jobs[k])
  }

  /** What a rule computes once per operation, before its station loop. */
  function OpScore(rule: Rule, sch: Schedule, job: Job, x: nat): Result<int>
    requires x in job.ops
    requires rule.Elft? ==> Graph(job)
  {
    match rule
    case MsEet =>
      var succs :- Successors(job, x);
      Success(|succs|)
    case MsLamEet =>
      var succs :- Successors(job, x);
      Success(|succs| - |job.ops[x].stations|)
    case Elft =>
      var lf := CalculateLF(job, x, sch);
      var es :- EarliestStart(job, x, sch);
      Success(lf - es - ShortestOf(job, x))
    case _ => Success(0)
  }

  /** The score of one frontier triple. */
  function EntryKey(rule: Rule, c: Container, sch: Schedule, job: Job, s: Slot, e: StationTime, pre: int): Result<Key> {
    match rule
    case Eit =>
      var start :- FastestStart(sch, c, e.station, s.jobId, s.opId);
      Success(Key(start, 0))
    case Eet =>
      var end :- FastestEnd(sch, c, e.station, s.jobId, s.opId);
      Success(Key(end, 0))
    case Spt => Success(Key(e.time, 0))
    case Lpt => Success(Key(-e.time, 0))
    case MsEet =>
      var end :- FastestEnd(sch, c, e.station, s.jobId, s.opId);
      Success(Key(-pre, end))
    case MsLamEet =>
      var end :- FastestEnd(sch, c, e.station, s.jobId, s.opId);
      Success(Key(-pre, end))
    case MmwEet =>
      var start :- FastestStart(sch, c, e.station, s.jobId, s.opId);
      var avail :- Availability(sch, e.station);
      Success(Key(start - e.time - avail, start))
    case Md(demand) =>
      var end :- FastestEnd(sch, c, e.station, s.jobId, s.opId);
      Success(Key(end + DemandAt(demand, e.station), 0))
    case Elft =>
      var end :- FastestEnd(sch, c, e.station, s.jobId, s.opId);
      Success(Key(end + pre, 0))
    case LeastLoad =>
      var avail :- Availability(sch, e.station);
      Success(Key(avail, 0))
    case SuccessorsThenEnd =>
      var end :- FastestEnd(sch, c, e.station, s.jobId, s.opId);
      var succs :- Successors(job, s.opId);
      Success(Key(-|succs|, end))
    case DemandThenEnd(demand) =>
      var end :- FastestEnd(sch, c, e.station, s.jobId, s.opId);
      Success(Key(DemandAt(demand, e.station), end))
  }

  /** The station loop of one operation, in eligible-list order. */
  function ScoreEntries(rule: Rule, c: Container, sch: Schedule, job: Job, s: Slot, entries: seq<StationTime>, pre: int)
    : (r: Result<seq<Scored<Decision>>>)
    ensures r.Success? ==> |r.value| == |entries|
    ensures r.Success? ==> forall i :: 0 <= i < |entries| ==>
      && EntryKey(rule, c, sch, job, s, entries[i], pre).Success?
      && r.value[i] == Scored(Decision(entries[i].station, s.opId, s.jobId), EntryKey(rule, c, sch, job, s, entries[i], pre).value)
    decreases |entries|
  {
    if entries == [] then Success([])
    else
      var init :- ScoreEntries(rule, c, sch, job, s, entries[..|entries| - 1], pre);
      var e := entries[|entries| - 1];
      var key :- EntryKey(rule, c, sch, job, s, e, pre);
      Success(init + [Scored(Decision(e.station, s.opId, s.jobId), key)])
  }

  /** The whole frontier, scored in enumeration order; the first lookup or
      query that throws ends the planner. */
  function ScoreSlots(rule: Rule, c: Container, sch: Schedule, slots: seq<Slot>): (r: Result<seq<Scored<Decision>>>)
    requires rule.Elft? ==> Graphs(c)
    decreases |slots|
  {
    if slots == [] then Success([])
    else
      var init :- ScoreSlots(rule, c, sch, slots[..|slots| - 1]);
      var s := slots[|slots| - 1];
      var job :- GetJob(c, s.jobId);
      var o :- GetOperation(job, s.opId);
      var pre :- OpScore(rule, sch, job, s.opId);
      var scored :- ScoreEntries(rule, c, sch, job, s, o.stations, pre);
      Success(init + scored)
  }

  /** One single-stage planner: score the frontier, keep the first best. */
  function Decide(rule: Rule, c: Container, sch: Schedule): Result<Decision>
    requires rule.Elft? ==> Graphs(c)
  {
    var scored :- ScoreSlots(rule, c, sch, Slots(c));
    Pick(scored, Sentinel(rule))
  }

  // ------------------------------------------------------------- frontier

  /** A (job, operation, station) triple the driver can commit: the
      operation is available in its job and the station is eligible for it. */
  ghost predicate InFrontier(c: Container, d: Decision) {
    && d.jobId in c.jobs && d.opId in c.jobs[d.jobId].ops && d.opId in c.jobs[d.jobId].available
    && exists k :: 0 <= k < |c.jobs[d.jobId].ops[d.opId].stations| && c.jobs[d.jobId].ops[d.opId].stations[k].station == d.station
  }

  /** Jobs are stored under their own id. */
  ghost predicate Keyed(c: Container) {
    forall k :: k in c.jobs ==> c.jobs[k].id == k
  }

  lemma {:induction false} ScoreSlotsInFrontier(rule: Rule, c: Container, sch: Schedule, slots: seq<Slot>)
    requires rule.Elft? ==> Graphs(c)
    requires Keyed(c)
    requires forall s :: s in slots ==> s.key in c.jobs && s.jobId == c.jobs[s.key].id && s.opId in c.jobs[s.key].available
    requires ScoreSlots(rule, c, sch, slots).Success?
    ensures forall i :: 0 <= i < |ScoreSlots(rule, c, sch, slots).value| ==>
      InFrontier(c, ScoreSlots(rule, c, sch, slots).value[i].item)
    decreases |slots|
  {
    if slots != [] {
      var init := slots[..|slots| - 1];
      ScoreSlotsSnoc(rule, c, sch, slots);
      ScoreSlotsInFrontier(rule, c, sch, init);
      var s := slots[|slots| - 1];
      var job := c.jobs[s.jobId];
      var pre := OpScore(rule, sch, job, s.opId).value;
      var scored := ScoreEntries(rule, c, sch, job, s, job.ops[s.opId].stations, pre).value;
      var all := ScoreSlots(rule, c, sch, slots).value;
      var head := ScoreSlots(rule, c, sch, init).value;
      assert s in slots;
      EntriesInFrontier(rule, c, sch, s, pre);
      assert all == head + scored;
      forall i | 0 <= i < |all| ensures InFrontier(c, all[i].item) {
        ConcatAt(head, scored, i);
      }
    }
  }

  lemma ConcatAt<T>(a: seq<T>, b: seq<T>, i: int)
    requires 0 <= i < |a| + |b|
    ensures (a + b)[i] == if i < |a| then a[i] else b[i - |a|]
  {
  }

  /** The station loop of an available operation yields frontier triples. */
  lemma EntriesInFrontier(rule: Rule, c: Container, sch: Schedule, s: Slot, pre: int)
    requires s.jobId in c.jobs && s.opId in c.jobs[s.jobId].ops && s.opId in c.jobs[s.jobId].available
    requires ScoreEntries(rule, c, sch, c.jobs[s.jobId], s, c.jobs[s.jobId].ops[s.opId].stations, pre).Success?
    ensures var scored := ScoreEntries(rule, c, sch, c.jobs[s.jobId], s, c.jobs[s.jobId].ops[s.opId].stations, pre).value;
      forall i :: 0 <= i < |scored| ==> InFrontier(c, scored[i].item)
  {
    var entries := c.jobs[s.jobId].ops[s.opId].stations;
    var scored := ScoreEntries(rule, c, sch, c.jobs[s.jobId], s, entries, pre).value;
    forall i | 0 <= i < |scored| ensures InFrontier(c, scored[i].item) {
      assert scored[i].item == Decision(entries[i].station, s.opId, s.jobId);
    }
  }

  /** Whatever a single-stage planner decides is a frontier triple, so the
      driver's commit makes progress. */
  lemma DecideInFrontier(rule: Rule, c: Container, sch: Schedule)
    requires rule.Elft? ==> Graphs(c)
    requires Keyed(c)
    requires Decide(rule, c, sch).Success?
    ensures InFrontier(c, Decide(rule, c, sch).value)
  {
    ScoreSlotsInFrontier(rule, c, sch, Slots(c));
  }

  // ------------------------------------------------------------ optimality

  /** The score a rule gives to the triple (job `k`, operation `x`, entry
      `e`), as its loops compute it. */
  function TripleKey(rule: Rule, c: Container, sch: Schedule, k: nat, x: nat, e: StationTime): Result<Key>
    requires k in c.jobs && x in c.jobs[k].ops
    requires rule.Elft? ==> Graphs(c)
  {
    var job := c.jobs[k];
    var pre :- OpScore(rule, sch, job, x);
    EntryKey(rule, c, sch, job, Slot(k, job.id, x), e, pre)
  }

  /** Position `i` of the scored `slots` holds slot number `j` paired with
      entry number `ei` of its operation, under that triple's own score. */
  ghost predicate ScoredAt(rule: Rule, c: Container, sch: Schedule, slots: seq<Slot>, i: int, j: int, ei: int)
    requires rule.Elft? ==> Graphs(c)
  {
    && 0 <= j < |slots| && slots[j].key in c.jobs && slots[j].opId in c.jobs[slots[j].key].ops
    && 0 <= ei < |c.jobs[slots[j].key].ops[slots[j].opId].stations|
    && ScoreSlots(rule, c, sch, slots).Success?
    && 0 <= i < |ScoreSlots(rule, c, sch, slots).value|
    && var s := slots[j];
      var e := c.jobs[s.key].ops[s.opId].stations[ei];
      var t := ScoreSlots(rule, c, sch, slots).value[i];
      && t.item == Decision(e.station, s.opId, s.jobId)
      && TripleKey(rule, c, sch, s.key, s.opId, e) == Success(t.key)
  }

  /** Appending a slot keeps every earlier position where it was. */
  lemma ScoredAtSnoc(rule: Rule, c: Container, sch: Schedule, slots: seq<Slot>, i: int, j: int, ei: int)
    requires rule.Elft? ==> Graphs(c)
    requires slots != [] && ScoreSlots(rule, c, sch, slots).Success?
    requires ScoredAt(rule, c, sch, slots[..|slots| - 1], i, j, ei)
    ensures ScoredAt(rule, c, sch, slots, i, j, ei)
  {
    var init := slots[..|slots| - 1];
    ScoreSlotsSnoc(rule, c, sch, slots);
    assert slots[j] == init[j];
    assert ScoreSlots(rule, c, sch, slots).value[i] == ScoreSlots(rule, c, sch, init).value[i];
  }

  /** Slot number `j` of `slots`, entry number `ei` of its operation, is
      scored at position `i`. */
  lemma {:induction false} ScoreSlotsComplete(rule: Rule, c: Container, sch: Schedule, slots: seq<Slot>, j: int, ei: int)
    returns (i: int)
    requires rule.Elft? ==> Graphs(c)
    requires Keyed(c)
    requires forall s :: s in slots ==> s.key in c.jobs && s.jobId == c.jobs[s.key].id
    requires ScoreSlots(rule, c, sch, slots).Success?
    requires 0 <= j < |slots| && slots[j].opId in c.jobs[slots[j].key].ops && 0 <= ei < |c.jobs[slots[j].key].ops[slots[j].opId].stations|
    ensures ScoredAt(rule, c, sch, slots, i, j, ei)
    decreases |slots|
  {
    if j < |slots| - 1 {
      var init := slots[..|slots| - 1];
      ScoreSlotsSnoc(rule, c, sch, slots);
      assert slots[j] == init[j];
      i := ScoreSlotsComplete(rule, c, sch, init, j, ei);
      ScoredAtSnoc(rule, c, sch, slots, i, j, ei);
    } else {
      i := ScoreSlotsLast(rule, c, sch, slots, ei);
    }
  }

  /** The entries of the last slot are scored at the end, in order. */
  lemma ScoreSlotsLast(rule: Rule, c: Container, sch: Schedule, slots: seq<Slot>, ei: int) returns (i: int)
    requires rule.Elft? ==> Graphs(c)
    requires Keyed(c)
    requires slots != [] && ScoreSlots(rule, c, sch, slots).Success?
    requires var s := slots[|slots| - 1];
      s.key in c.jobs && s.jobId == c.jobs[s.key].id && s.opId in c.jobs[s.key].ops
      && 0 <= ei < |c.jobs[s.key].ops[s.opId].stations|
    ensures i == |ScoreSlots(rule, c, sch, slots[..|slots| - 1]).value| + ei
    ensures ScoredAt(rule, c, sch, slots, i, |slots| - 1, ei)
  {
    var s := slots[|slots| - 1];
    var job := c.jobs[s.key];
    var e := job.ops[s.opId].stations[ei];
    ScoreSlotsSnoc(rule, c, sch, slots);
    var head := ScoreSlots(rule, c, sch, slots[..|slots| - 1]).value;
    var scored := ScoreEntries(rule, c, sch, job, s, job.ops[s.opId].stations, OpScore(rule, sch, job, s.opId).value).value;
    i := |head| + ei;
    assert ScoreSlots(rule, c, sch, slots).value[i] == scored[ei];
    TripleKeyOfSlot(rule, c, sch, s, e);
  }

  /** The score of an enumerated slot's triple, as `TripleKey` states it. */
  lemma TripleKeyOfSlot(rule: Rule, c: Container, sch: Schedule, s: Slot, e: StationTime)
    requires rule.Elft? ==> Graphs(c)
    requires s.key in c.jobs && s.jobId == c.jobs[s.key].id && s.opId in c.jobs[s.key].ops
    requires OpScore(rule, sch, c.jobs[s.key], s.opId).Success?
    ensures TripleKey(rule, c, sch, s.key, s.opId, e)
      == EntryKey(rule, c, sch, c.jobs[s.key], s, e, OpScore(rule, sch, c.jobs[s.key], s.opId).value)
  {
    assert s == Slot(s.key, c.jobs[s.key].id, s.opId);
  }

  /** A successful score of a non-empty frontier: the score of all but the
      last slot, followed by the last slot's entries in order. */
  lemma ScoreSlotsSnoc(rule: Rule, c: Container, sch: Schedule, slots: seq<Slot>)
    requires rule.Elft? ==> Graphs(c)
    requires slots != [] && ScoreSlots(rule, c, sch, slots).Success?
    ensures var s := slots[|slots| - 1];
      && ScoreSlots(rule, c, sch, slots[..|slots| - 1]).Success?
      && s.jobId in c.jobs && s.opId in c.jobs[s.jobId].ops
      && OpScore(rule, sch, c.jobs[s.jobId], s.opId).Success?
      && var scored := ScoreEntries(rule, c, sch, c.jobs[s.jobId], s, c.jobs[s.jobId].ops[s.opId].stations,
                                    OpScore(rule, sch, c.jobs[s.jobId], s.opId).value);
      && scored.Success?
      && ScoreSlots(rule, c, sch, slots).value == ScoreSlots(rule, c, sch, slots[..|slots| - 1]).value + scored.value
  {
  }

  /** The decided triple is the item at a first-minimum position of the
      scored frontier. */
  lemma DecidePicked(rule: Rule, c: Container, sch: Schedule) returns (m: int)
    requires rule.Elft? ==> Graphs(c)
    requires Decide(rule, c, sch).Success?
    ensures ScoreSlots(rule, c, sch, Slots(c)).Success?
    ensures var scored := ScoreSlots(rule, c, sch, Slots(c)).value;
      && IsFirstMin(KeysOf(scored), m) && Less(scored[m].key, Sentinel(rule))
      && scored[m].item == Decide(rule, c, sch).value
  {
    var scored := ScoreSlots(rule, c, sch, Slots(c)).value;
    m :| IsFirstMin(KeysOf(scored), m) && Less(scored[m].key, Sentinel(rule)) && scored[m].item == Decide(rule, c, sch).value;
  }

  /** The decided triple scores no worse than any frontier triple: its key
      is minimal, and it was scored through one of its own entries. */
  lemma DecideMinimal(rule: Rule, c: Container, sch: Schedule, k: nat, x: nat, e: StationTime)
    returns (de: StationTime)
    requires rule.Elft? ==> Graphs(c)
    requires Keyed(c)
    requires Decide(rule, c, sch).Success?
    requires k in c.jobs && x in c.jobs[k].available && x in c.jobs[k].ops && e in c.jobs[k].ops[x].stations
    ensures var d := Decide(rule, c, sch).value;
      && d.jobId in c.jobs && d.opId in c.jobs[d.jobId].ops
      && de in c.jobs[d.jobId].ops[d.opId].stations && de.station == d.station
      && TripleKey(rule, c, sch, d.jobId, d.opId, de).Success?
      && TripleKey(rule, c, sch, k, x, e).Success?
      && !Less(TripleKey(rule, c, sch, k, x, e).value, TripleKey(rule, c, sch, d.jobId, d.opId, de).value)
  {
    var slots := Slots(c);
    var m := DecidePicked(rule, c, sch);
    var scored := ScoreSlots(rule, c, sch, slots).value;
    var jd, ed := ScoredFrom(rule, c, sch, slots, m);
    var s := slots[jd];
    de := c.jobs[s.key].ops[s.opId].stations[ed];
    var i := CandidateScored(rule, c, sch, k, x, e);
    assert !Less(scored[i].key, scored[m].key) by {
      assert KeysOf(scored)[i] == scored[i].key && KeysOf(scored)[m] == scored[m].key;
    }
    assert Decide(rule, c, sch).value == Decision(de.station, s.opId, s.key) by {
      assert s.key == s.jobId;
    }
  }

  /** Every frontier triple is scored somewhere in the scored frontier. */
  lemma CandidateScored(rule: Rule, c: Container, sch: Schedule, k: nat, x: nat, e: StationTime) returns (i: int)
    requires rule.Elft? ==> Graphs(c)
    requires Keyed(c)
    requires ScoreSlots(rule, c, sch, Slots(c)).Success?
    requires k in c.jobs && x in c.jobs[k].available && x in c.jobs[k].ops && e in c.jobs[k].ops[x].stations
    ensures var scored := ScoreSlots(rule, c, sch, Slots(c)).value;
      && 0 <= i < |scored| && scored[i].item == Decision(e.station, x, k)
      && TripleKey(rule, c, sch, k, x, e) == Success(scored[i].key)
  {
    var slots := Slots(c);
    SlotsComplete(c, k, x);
    var j :| 0 <= j < |slots| && slots[j] == Slot(k, c.jobs[k].id, x);
    var ei :| 0 <= ei < |c.jobs[k].ops[x].stations| && c.jobs[k].ops[x].stations[ei] == e;
    i := ScoreSlotsComplete(rule, c, sch, slots, j, ei);
  }

  /** Position `i` of the scored frontier comes from slot `j`, entry `ei`. */
  lemma {:induction false} ScoredFrom(rule: Rule, c: Container, sch: Schedule, slots: seq<Slot>, i: int)
    returns (j: int, ei: int)
    requires rule.Elft? ==> Graphs(c)
    requires Keyed(c)
    requires forall s :: s in slots ==> s.key in c.jobs && s.jobId == c.jobs[s.key].id
    requires ScoreSlots(rule, c, sch, slots).Success?
    requires 0 <= i < |ScoreSlots(rule, c, sch, slots).value|
    ensures ScoredAt(rule, c, sch, slots, i, j, ei)
    decreases |slots|
  {
    var init := slots[..|slots| - 1];
    assert ScoreSlots(rule, c, sch, init).Success? by {
      ScoreSlotsSnoc(rule, c, sch, slots);
    }
    if i < |ScoreSlots(rule, c, sch, init).value| {
      InitKeyed(c, slots);
      j, ei := ScoredFrom(rule, c, sch, init, i);
      ScoredAtSnoc(rule, c, sch, slots, i, j, ei);
    } else {
      j := |slots| - 1;
      ei := ScoredFromLast(rule, c, sch, slots, i);
    }
  }

  lemma InitKeyed(c: Container, slots: seq<Slot>)
    requires slots != []
    requires forall s :: s in slots ==> s.key in c.jobs && s.jobId == c.jobs[s.key].id
    ensures forall s :: s in slots[..|slots| - 1] ==> s.key in c.jobs && s.jobId == c.jobs[s.key].id
  {
    forall s | s in slots[..|slots| - 1] ensures s in slots {
    }
  }

  /** A position past the scores of all but the last slot belongs to the
      last slot. */
  lemma ScoredFromLast(rule: Rule, c: Container, sch: Schedule, slots: seq<Slot>, i: int) returns (ei: int)
    requires rule.Elft? ==> Graphs(c)
    requires Keyed(c)
    requires slots != [] && ScoreSlots(rule, c, sch, slots).Success?
    requires var s := slots[|slots| - 1]; s.key in c.jobs && s.jobId == c.jobs[s.key].id
    requires ScoreSlots(rule, c, sch, slots[..|slots| - 1]).Success?
    requires |ScoreSlots(rule, c, sch, slots[..|slots| - 1]).value| <= i < |ScoreSlots(rule, c, sch, slots).value|
    ensures ScoredAt(rule, c, sch, slots, i, |slots| - 1, ei)
  {
    var s := slots[|slots| - 1];
    ei := i - |ScoreSlots(rule, c, sch, slots[..|slots| - 1]).value|;
    assert s.opId in c.jobs[s.key].ops && 0 <= ei < |c.jobs[s.key].ops[s.opId].stations| by {
      ScoreSlotsSnoc(rule, c, sch, slots);
      assert s.key == s.jobId;
    }
    var k := ScoreSlotsLast(rule, c, sch, slots, ei);
  }

  // ------------------------------------------------ what each rule minimises

  /** The frontier triple (job `k`, operation `x`, entry `e`). */
  // The lemmas `Key...` below spell out `TripleKey` for one rule each.

  lemma KeyEit(c: Container, sch: Schedule, k: nat, x: nat, e: StationTime)
    requires k in c.jobs && x in c.jobs[k].ops && c.jobs[k].id == k
    requires TripleKey(Eit, c, sch, k, x, e).Success?
    ensures FastestStart(sch, c, e.station, k, x).Success?
    ensures TripleKey(Eit, c, sch, k, x, e).value == Key(FastestStart(sch, c, e.station, k, x).value, 0)
  {
  }

  lemma KeyEet(c: Container, sch: Schedule, k: nat, x: nat, e: StationTime)
    requires k in c.jobs && x in c.jobs[k].ops && c.jobs[k].id == k
    requires TripleKey(Eet, c, sch, k, x, e).Success?
    ensures FastestEnd(sch, c, e.station, k, x).Success?
    ensures TripleKey(Eet, c, sch, k, x, e).value == Key(FastestEnd(sch, c, e.station, k, x).value, 0)
  {
  }

  lemma KeySpt(c: Container, sch: Schedule, k: nat, x: nat, e: StationTime)
    requires k in c.jobs && x in c.jobs[k].ops
    requires TripleKey(Spt, c, sch, k, x, e).Success?
    ensures TripleKey(Spt, c, sch, k, x, e).value == Key(e.time, 0)
  {
  }

  lemma KeyLpt(c: Container, sch: Schedule, k: nat, x: nat, e: StationTime)
    requires k in c.jobs && x in c.jobs[k].ops
    requires TripleKey(Lpt, c, sch, k, x, e).Success?
    ensures TripleKey(Lpt, c, sch, k, x, e).value == Key(-e.time, 0)
  {
  }

  lemma KeyMsEet(c: Container, sch: Schedule, k: nat, x: nat, e: StationTime)
    requires k in c.jobs && x in c.jobs[k].ops && c.jobs[k].id == k
    requires TripleKey(MsEet, c, sch, k, x, e).Success?
    ensures FastestEnd(sch, c, e.station, k, x).Success?
    ensures TripleKey(MsEet, c, sch, k, x, e).value == Key(-SuccessorCount(c.jobs[k], x), FastestEnd(sch, c, e.station, k, x).value)
  {
  }

  lemma KeyMsLamEet(c: Container, sch: Schedule, k: nat, x: nat, e: StationTime)
    requires k in c.jobs && x in c.jobs[k].ops && c.jobs[k].id == k
    requires TripleKey(MsLamEet, c, sch, k, x, e).Success?
    ensures FastestEnd(sch, c, e.station, k, x).Success?
    ensures TripleKey(MsLamEet, c, sch, k, x, e).value
      == Key(-(SuccessorCount(c.jobs[k], x) - |c.jobs[k].ops[x].stations|), FastestEnd(sch, c, e.station, k, x).value)
  {
  }

  lemma KeySuccessorsThenEnd(c: Container, sch: Schedule, k: nat, x: nat, e: StationTime)
    requires k in c.jobs && x in c.jobs[k].ops && c.jobs[k].id == k
    requires TripleKey(SuccessorsThenEnd, c, sch, k, x, e).Success?
    ensures FastestEnd(sch, c, e.station, k, x).Success?
    ensures TripleKey(SuccessorsThenEnd, c, sch, k, x, e).value == Key(-SuccessorCount(c.jobs[k], x), FastestEnd(sch, c, e.station, k, x).value)
  {
  }

  lemma KeyMmwEet(c: Container, sch: Schedule, k: nat, x: nat, e: StationTime)
    requires k in c.jobs && x in c.jobs[k].ops && c.jobs[k].id == k
    requires TripleKey(MmwEet, c, sch, k, x, e).Success?
    ensures FastestStart(sch, c, e.station, k, x).Success? && Waste(c, sch, k, x, e).Success?
    ensures TripleKey(MmwEet, c, sch, k, x, e).value == Key(Waste(c, sch, k, x, e).value, FastestStart(sch, c, e.station, k, x).value)
  {
  }

  lemma KeyElft(c: Container, sch: Schedule, k: nat, x: nat, e: StationTime)
    requires k in c.jobs && x in c.jobs[k].ops && c.jobs[k].id == k && Graphs(c)
    requires TripleKey(Elft, c, sch, k, x, e).Success?
    ensures FastestEnd(sch, c, e.station, k, x).Success? && Slack(c.jobs[k], x, sch).Success?
    ensures TripleKey(Elft, c, sch, k, x, e).value == Key(FastestEnd(sch, c, e.station, k, x).value + Slack(c.jobs[k], x, sch).value, 0)
  {
  }

  lemma KeyLeastLoad(c: Container, sch: Schedule, k: nat, x: nat, e: StationTime)
    requires k in c.jobs && x in c.jobs[k].ops && c.jobs[k].id == k
    requires TripleKey(LeastLoad, c, sch, k, x, e).Success?
    ensures Availability(sch, e.station).Success?
    ensures TripleKey(LeastLoad, c, sch, k, x, e).value == Key(Availability(sch, e.station).value, 0)
  {
  }

  lemma KeyMd(demand: map<nat, int>, c: Container, sch: Schedule, k: nat, x: nat, e: StationTime)
    requires k in c.jobs && x in c.jobs[k].ops && c.jobs[k].id == k
    requires TripleKey(Md(demand), c, sch, k, x, e).Success?
    ensures FastestEnd(sch, c, e.station, k, x).Success?
    ensures TripleKey(Md(demand), c, sch, k, x, e).value == Key(FastestEnd(sch, c, e.station, k, x).value + DemandAt(demand, e.station), 0)
  {
  }

  lemma KeyDemandThenEnd(demand: map<nat, int>, c: Container, sch: Schedule, k: nat, x: nat, e: StationTime)
    requires k in c.jobs && x in c.jobs[k].ops && c.jobs[k].id == k
    requires TripleKey(DemandThenEnd(demand), c, sch, k, x, e).Success?
    ensures FastestEnd(sch, c, e.station, k, x).Success?
    ensures TripleKey(DemandThenEnd(demand), c, sch, k, x, e).value == Key(DemandAt(demand, e.station), FastestEnd(sch, c, e.station, k, x).value)
  {
  }

  ghost predicate Candidate(c: Container, k: nat, x: nat, e: StationTime) {
    k in c.jobs && x in c.jobs[k].available && x in c.jobs[k].ops && e in c.jobs[k].ops[x].stations
  }

  /** EIT: no frontier triple can start earlier than the decided one. */
  lemma EitMinimisesStart(c: Container, sch: Schedule, k: nat, x: nat, e: StationTime)
    requires Keyed(c) && Decide(Eit, c, sch).Success? && Candidate(c, k, x, e)
    ensures var d := Decide(Eit, c, sch).value;
      && FastestStart(sch, c, d.station, d.jobId, d.opId).Success?
      && FastestStart(sch, c, e.station, k, x).Success?
      && FastestStart(sch, c, d.station, d.jobId, d.opId).value <= FastestStart(sch, c, e.station, k, x).value
  {
    var d := Decide(Eit, c, sch).value;
    var de := DecideMinimal(Eit, c, sch, k, x, e);
    KeyEit(c, sch, d.jobId, d.opId, de);
    KeyEit(c, sch, k, x, e);
  }

  /** EET: no frontier triple can end earlier than the decided one. */
  lemma EetMinimisesEnd(c: Container, sch: Schedule, k: nat, x: nat, e: StationTime)
    requires Keyed(c) && Decide(Eet, c, sch).Success? && Candidate(c, k, x, e)
    ensures var d := Decide(Eet, c, sch).value;
      && FastestEnd(sch, c, d.station, d.jobId, d.opId).Success?
      && FastestEnd(sch, c, e.station, k, x).Success?
      && FastestEnd(sch, c, d.station, d.jobId, d.opId).value <= FastestEnd(sch, c, e.station, k, x).value
  {
    var d := Decide(Eet, c, sch).value;
    var de := DecideMinimal(Eet, c, sch, k, x, e);
    KeyEet(c, sch, d.jobId, d.opId, de);
    KeyEet(c, sch, k, x, e);
  }

  /** SPT: the decided alternative is at least as short as every frontier
      alternative. */
  lemma SptMinimisesTime(c: Container, sch: Schedule, k: nat, x: nat, e: StationTime) returns (de: StationTime)
    requires Keyed(c) && Decide(Spt, c, sch).Success? && Candidate(c, k, x, e)
    ensures var d := Decide(Spt, c, sch).value;
      d.jobId in c.jobs && d.opId in c.jobs[d.jobId].ops
      && de in c.jobs[d.jobId].ops[d.opId].stations && de.station == d.station && de.time <= e.time
  {
    var d := Decide(Spt, c, sch).value;
    de := DecideMinimal(Spt, c, sch, k, x, e);
    KeySpt(c, sch, d.jobId, d.opId, de);
    KeySpt(c, sch, k, x, e);
  }

  /** LPT: the decided alternative is at least as long as every frontier
      alternative. */
  lemma LptMaximisesTime(c: Container, sch: Schedule, k: nat, x: nat, e: StationTime) returns (de: StationTime)
    requires Keyed(c) && Decide(Lpt, c, sch).Success? && Candidate(c, k, x, e)
    ensures var d := Decide(Lpt, c, sch).value;
      d.jobId in c.jobs && d.opId in c.jobs[d.jobId].ops
      && de in c.jobs[d.jobId].ops[d.opId].stations && de.station == d.station && de.time >= e.time
  {
    var d := Decide(Lpt, c, sch).value;
    de := DecideMinimal(Lpt, c, sch, k, x, e);
    KeyLpt(c, sch, d.jobId, d.opId, de);
    KeyLpt(c, sch, k, x, e);
  }

  /** The number of direct successors of an operation. */
  function SuccessorCount(job: Job, x: nat): int {
    if x in job.successors then |job.successors[x]| else 0
  }

  /** MS_EET: the decided operation has the most direct successors, and
      among those the earliest end. */
  lemma MsEetMostSuccessorsThenEnd(c: Container, sch: Schedule, k: nat, x: nat, e: StationTime)
    requires Keyed(c) && Decide(MsEet, c, sch).Success? && Candidate(c, k, x, e)
    ensures var d := Decide(MsEet, c, sch).value;
      && d.jobId in c.jobs
      && FastestEnd(sch, c, d.station, d.jobId, d.opId).Success?
      && FastestEnd(sch, c, e.station, k, x).Success?
      && SuccessorCount(c.jobs[d.jobId], d.opId) >= SuccessorCount(c.jobs[k], x)
      && (SuccessorCount(c.jobs[d.jobId], d.opId) == SuccessorCount(c.jobs[k], x) ==>
            FastestEnd(sch, c, d.station, d.jobId, d.opId).value <= FastestEnd(sch, c, e.station, k, x).value)
  {
    var d := Decide(MsEet, c, sch).value;
    var de := DecideMinimal(MsEet, c, sch, k, x, e);
    KeyMsEet(c, sch, d.jobId, d.opId, de);
    KeyMsEet(c, sch, k, x, e);
  }

  /** MS_LAM_EET: the decided operation has the largest difference between
      successors and alternatives, and among those the earliest end. */
  lemma MsLamEetBestBalanceThenEnd(c: Container, sch: Schedule, k: nat, x: nat, e: StationTime)
    requires Keyed(c) && Decide(MsLamEet, c, sch).Success? && Candidate(c, k, x, e)
    ensures var d := Decide(MsLamEet, c, sch).value;
      && d.jobId in c.jobs && d.opId in c.jobs[d.jobId].ops
      && FastestEnd(sch, c, d.station, d.jobId, d.opId).Success?
      && FastestEnd(sch, c, e.station, k, x).Success?
      && var bd := SuccessorCount(c.jobs[d.jobId], d.opId) - |c.jobs[d.jobId].ops[d.opId].stations|;
         var bx := SuccessorCount(c.jobs[k], x) - |c.jobs[k].ops[x].stations|;
         && bd >= bx
         && (bd == bx ==> FastestEnd(sch, c, d.station, d.jobId, d.opId).value <= FastestEnd(sch, c, e.station, k, x).value)
  {
    var d := Decide(MsLamEet, c, sch).value;
    var de := DecideMinimal(MsLamEet, c, sch, k, x, e);
    KeyMsLamEet(c, sch, d.jobId, d.opId, de);
    KeyMsLamEet(c, sch, k, x, e);
  }

  /** The idle time MMW_EET charges to a triple: its fastest start minus its
      duration minus the station's availability. */
  function Waste(c: Container, sch: Schedule, jobId: nat, x: nat, e: StationTime): Result<int> {
    var start :- FastestStart(sch, c, e.station, jobId, x);
    var avail :- Availability(sch, e.station);
    Success(start - e.time - avail)
  }

  /** MMW_EET: the decided triple wastes the least, and among those starts
      first. */
  lemma MmwEetLeastWasteThenStart(c: Container, sch: Schedule, k: nat, x: nat, e: StationTime) returns (de: StationTime)
    requires Keyed(c) && Decide(MmwEet, c, sch).Success? && Candidate(c, k, x, e)
    ensures var d := Decide(MmwEet, c, sch).value;
      && de.station == d.station
      && Waste(c, sch, d.jobId, d.opId, de).Success? && Waste(c, sch, k, x, e).Success?
      && Waste(c, sch, d.jobId, d.opId, de).value <= Waste(c, sch, k, x, e).value
      && (Waste(c, sch, d.jobId, d.opId, de).value == Waste(c, sch, k, x, e).value ==>
            FastestStart(sch, c, d.station, d.jobId, d.opId).value <= FastestStart(sch, c, e.station, k, x).value)
  {
    var d := Decide(MmwEet, c, sch).value;
    de := DecideMinimal(MmwEet, c, sch, k, x, e);
    KeyMmwEet(c, sch, d.jobId, d.opId, de);
    KeyMmwEet(c, sch, k, x, e);
  }

  /** MD: the decided triple minimises fastest end plus station demand. */
  lemma MdLeastEndPlusDemand(demand: map<nat, int>, c: Container, sch: Schedule, k: nat, x: nat, e: StationTime)
    requires Keyed(c) && Decide(Md(demand), c, sch).Success? && Candidate(c, k, x, e)
    ensures var d := Decide(Md(demand), c, sch).value;
      && FastestEnd(sch, c, d.station, d.jobId, d.opId).Success?
      && FastestEnd(sch, c, e.station, k, x).Success?
      && FastestEnd(sch, c, d.station, d.jobId, d.opId).value + DemandAt(demand, d.station)
         <= FastestEnd(sch, c, e.station, k, x).value + DemandAt(demand, e.station)
  {
    var d := Decide(Md(demand), c, sch).value;
    var de := DecideMinimal(Md(demand), c, sch, k, x, e);
    KeyMd(demand, c, sch, d.jobId, d.opId, de);
    KeyMd(demand, c, sch, k, x, e);
  }

  /** ELFT's slack of an operation: latest finish minus earliest start minus
      shortest time. */
  function Slack(job: Job, x: nat, sch: Schedule): Result<int>
    requires Graph(job) && x in job.ops
  {
    var es :- EarliestStart(job, x, sch);
    Success(CalculateLF(job, x, sch) - es - ShortestOf(job, x))
  }

  /** ELFT: the decided triple minimises fastest end plus slack. */
  lemma ElftLeastEndPlusSlack(c: Container, sch: Schedule, k: nat, x: nat, e: StationTime)
    requires Keyed(c) && Graphs(c) && Decide(Elft, c, sch).Success? && Candidate(c, k, x, e)
    ensures var d := Decide(Elft, c, sch).value;
      && d.jobId in c.jobs && d.opId in c.jobs[d.jobId].ops
      && FastestEnd(sch, c, d.station, d.jobId, d.opId).Success?
      && FastestEnd(sch, c, e.station, k, x).Success?
      && Slack(c.jobs[d.jobId], d.opId, sch).Success? && Slack(c.jobs[k], x, sch).Success?
      && FastestEnd(sch, c, d.station, d.jobId, d.opId).value + Slack(c.jobs[d.jobId], d.opId, sch).value
         <= FastestEnd(sch, c, e.station, k, x).value + Slack(c.jobs[k], x, sch).value
  {
    var d := Decide(Elft, c, sch).value;
    var de := DecideMinimal(Elft, c, sch, k, x, e);
    KeyElft(c, sch, d.jobId, d.opId, de);
    KeyElft(c, sch, k, x, e);
  }

  /** `plan3`: the decided station is available no later than the station
      of any frontier triple. */
  lemma LeastLoadEarliestStation(c: Container, sch: Schedule, k: nat, x: nat, e: StationTime)
    requires Keyed(c) && Decide(LeastLoad, c, sch).Success? && Candidate(c, k, x, e)
    ensures var d := Decide(LeastLoad, c, sch).value;
      && Availability(sch, d.station).Success? && Availability(sch, e.station).Success?
      && Availability(sch, d.station).value <= Availability(sch, e.station).value
  {
    var d := Decide(LeastLoad, c, sch).value;
    var de := DecideMinimal(LeastLoad, c, sch, k, x, e);
    KeyLeastLoad(c, sch, d.jobId, d.opId, de);
    KeyLeastLoad(c, sch, k, x, e);
  }

  /** `plan5`: most direct successors, then earliest end. */
  lemma SuccessorsThenEndBest(c: Container, sch: Schedule, k: nat, x: nat, e: StationTime)
    requires Keyed(c) && Decide(SuccessorsThenEnd, c, sch).Success? && Candidate(c, k, x, e)
    ensures var d := Decide(SuccessorsThenEnd, c, sch).value;
      && d.jobId in c.jobs
      && FastestEnd(sch, c, d.station, d.jobId, d.opId).Success?
      && FastestEnd(sch, c, e.station, k, x).Success?
      && SuccessorCount(c.jobs[d.jobId], d.opId) >= SuccessorCount(c.jobs[k], x)
      && (SuccessorCount(c.jobs[d.jobId], d.opId) == SuccessorCount(c.jobs[k], x) ==>
            FastestEnd(sch, c, d.station, d.jobId, d.opId).value <= FastestEnd(sch, c, e.station, k, x).value)
  {
    var d := Decide(SuccessorsThenEnd, c, sch).value;
    var de := DecideMinimal(SuccessorsThenEnd, c, sch, k, x, e);
    KeySuccessorsThenEnd(c, sch, d.jobId, d.opId, de);
    KeySuccessorsThenEnd(c, sch, k, x, e);
  }

  /** `plan10`: least station demand, then earliest end. */
  lemma DemandThenEndBest(demand: map<nat, int>, c: Container, sch: Schedule, k: nat, x: nat, e: StationTime)
    requires Keyed(c) && Decide(DemandThenEnd(demand), c, sch).Success? && Candidate(c, k, x, e)
    ensures var d := Decide(DemandThenEnd(demand), c, sch).value;
      && FastestEnd(sch, c, d.station, d.jobId, d.opId).Success?
      && FastestEnd(sch, c, e.station, k, x).Success?
      && DemandAt(demand, d.station) <= DemandAt(demand, e.station)
      && (DemandAt(demand, d.station) == DemandAt(demand, e.station) ==>
            FastestEnd(sch, c, d.station, d.jobId, d.opId).value <= FastestEnd(sch, c, e.station, k, x).value)
  {
    var d := Decide(DemandThenEnd(demand), c, sch).value;
    var de := DecideMinimal(DemandThenEnd(demand), c, sch, k, x, e);
    KeyDemandThenEnd(demand, c, sch, d.jobId, d.opId, de);
    KeyDemandThenEnd(demand, c, sch, k, x, e);
  }

  /** MS_EET never falls back to an unwritten decision: as soon as the
      frontier holds a triple and every score is defined, some triple beats
      the sentinel "-1 successors". */
  lemma MsEetDecides(c: Container, sch: Schedule, k: nat, x: nat, e: StationTime)
    requires Keyed(c) && Candidate(c, k, x, e)
    requires ScoreSlots(MsEet, c, sch, Slots(c)).Success?
    ensures Decide(MsEet, c, sch).Success?
  {
    MsEetPicks(c, sch, k, x, e);
  }

  lemma MsEetPicks(c: Container, sch: Schedule, k: nat, x: nat, e: StationTime)
    requires Keyed(c) && Candidate(c, k, x, e)
    requires ScoreSlots(MsEet, c, sch, Slots(c)).Success?
    ensures Pick(ScoreSlots(MsEet, c, sch, Slots(c)).value, Sentinel(MsEet)).Success?
  {
    var i := CandidateScored(MsEet, c, sch, k, x, e);
    ScoredBeatsSentinel(c, sch, Slots(c), i);
    PickBeats(ScoreSlots(MsEet, c, sch, Slots(c)).value, Sentinel(MsEet), i);
  }

  /** Under MS_EET every scored triple beats the sentinel, because no
      operation has fewer than zero successors. */
  lemma ScoredBeatsSentinel(c: Container, sch: Schedule, slots: seq<Slot>, i: int)
    requires Keyed(c)
    requires forall s :: s in slots ==> s.key in c.jobs && s.jobId == c.jobs[s.key].id
    requires ScoreSlots(MsEet, c, sch, slots).Success?
    requires 0 <= i < |ScoreSlots(MsEet, c, sch, slots).value|
    ensures Less(ScoreSlots(MsEet, c, sch, slots).value[i].key, Sentinel(MsEet))
  {
    var j, ei := ScoredFrom(MsEet, c, sch, slots, i);
    var s := slots[j];
    MsEetMajor(c, sch, s.key, s.opId, c.jobs[s.key].ops[s.opId].stations[ei], ScoreSlots(MsEet, c, sch, slots).value[i].key);
  }

  lemma MsEetMajor(c: Container, sch: Schedule, k: nat, x: nat, e: StationTime, key: Key)
    requires k in c.jobs && x in c.jobs[k].ops && c.jobs[k].id == k
    requires TripleKey(MsEet, c, sch, k, x, e) == Success(key)
    ensures key.major <= 0
  {
    KeyMsEet(c, sch, k, x, e);
  }

  // ------------------------------------------------------ two-stage rules

  /** `dispatch_operation` modes with an integer score; the comment gives the
      mode number. LVL is mode 1 followed by station mode 0. */
  datatype OpMode =
    | LongestCriticalPath   // 1: -criticalPath
    | FewestAlternatives    // 3: number of eligible stations
    | MostRemaining         // 5: -remainingNumOfOperations
    | FewestRemaining       // 6: remainingNumOfOperations
    | MostUpstream          // 8: -getSuccessorsUpstream

  /** `dispatch_station` modes with an integer score. */
  datatype StationMode =
    | EarliestEnd           // 0: fastest end
    | ShortestTime          // 2: the alternative's time

  /** `dispatch_operation` for one available operation. */
  function OpValue(mode: OpMode, job: Job, x: nat): int
    requires Graph(job) && x in job.ops
  {
    match mode
    case LongestCriticalPath => -CriticalPath(job, x)
    case FewestAlternatives => |job.ops[x].stations|
    case MostRemaining => -(RemainingOperations(job) as int)
    case FewestRemaining => RemainingOperations(job)
    case MostUpstream => -(Upstream(job, x) as int)
  }

  /** The stage-one score of an enumerated operation. */
  function OpKey(mode: OpMode, c: Container, s: Slot): Key
    requires Graphs(c) && s.key in c.jobs && s.opId in c.jobs[s.key].ops
  {
    Key(OpValue(mode, c.jobs[s.key], s.opId), 0)
  }

  /** Stage one: every available operation scored, jobs iterated directly
      (no `getJob`), the operation looked up with `getOperation`, which
      throws for an unknown id. */
  function ScoreOps(mode: OpMode, c: Container, slots: seq<Slot>): (r: Result<seq<Scored<Slot>>>)
    requires Graphs(c)
    requires forall s :: s in slots ==> s.key in c.jobs
    ensures r.Success? <==> forall s :: s in slots ==> s.opId in c.jobs[s.key].ops
    ensures r.Failure? ==> r.error == NoSuchOperation
    ensures r.Success? ==> |r.value| == |slots|
    ensures r.Success? ==> forall i :: 0 <= i < |slots| ==> r.value[i].item == slots[i]
  {
    if forall s :: s in slots ==> s.opId in c.jobs[s.key].ops then
      Success(seq(|slots|, i requires 0 <= i < |slots| => assert slots[i] in slots; Scored(slots[i], OpKey(mode, c, slots[i]))))
    else
      Failure(NoSuchOperation)
  }

  /** Each stage-one score is the operation score of its slot. */
  lemma ScoreOpsKey(mode: OpMode, c: Container, slots: seq<Slot>, i: int)
    requires Graphs(c)
    requires forall s :: s in slots ==> s.key in c.jobs
    requires ScoreOps(mode, c, slots).Success? && 0 <= i < |slots|
    ensures slots[i].opId in c.jobs[slots[i].key].ops
    ensures ScoreOps(mode, c, slots).value[i].key == OpKey(mode, c, slots[i])
  {
    assert slots[i] in slots;
  }

  /** `dispatch_station` for one alternative of the chosen operation. */
  function StationValue(mode: StationMode, c: Container, sch: Schedule, s: Slot, e: StationTime): Result<int> {
    match mode
    case EarliestEnd => FastestEnd(sch, c, e.station, s.jobId, s.opId)
    case ShortestTime => Success(e.time)
  }

  function ScoreStations(mode: StationMode, c: Container, sch: Schedule, s: Slot, entries: seq<StationTime>)
    : (r: Result<seq<Scored<Decision>>>)
    ensures r.Success? ==> |r.value| == |entries|
    ensures r.Success? ==> forall i :: 0 <= i < |entries| ==>
      && StationValue(mode, c, sch, s, entries[i]).Success?
      && r.value[i] == Scored(Decision(entries[i].station, s.opId, s.jobId), Key(StationValue(mode, c, sch, s, entries[i]).value, 0))
    decreases |entries|
  {
    if entries == [] then Success([])
    else
      var init :- ScoreStations(mode, c, sch, s, entries[..|entries| - 1]);
      var e := entries[|entries| - 1];
      var v :- StationValue(mode, c, sch, s, e);
      Success(init + [Scored(Decision(e.station, s.opId, s.jobId), Key(v, 0))])
  }

  /** `Dispatch_Planner` (and `LVL_Planner` for the modes 1 and 0): pick the
      operation with the least operation score, then its station with the
      least station score, both against `float(INT_MAX)`. */
  function Dispatch(op: OpMode, st: StationMode, c: Container, sch: Schedule): Result<Decision>
    requires Graphs(c)
  {
    var ops :- ScoreOps(op, c, Slots(c));
    var s :- Pick(ops, Key(FloatIntMax, 0));
    var job :- GetJob(c, s.jobId);
    var o :- GetOperation(job, s.opId);
    var stations :- ScoreStations(st, c, sch, s, o.stations);
    Pick(stations, Key(FloatIntMax, 0))
  }

  /** Stage one of NC_CP: `nc_criticalPath` is evaluated for every job,
      before the job is skipped if it is done. */
  function ScoreJobs(c: Container, keys: seq<nat>): (r: Result<seq<Scored<nat>>>)
    requires forall k :: k in keys ==> k in c.jobs && Acyclic(c.jobs[k])
    ensures r.Success? ==> forall i :: 0 <= i < |r.value| ==>
      && r.value[i].item in keys && !Jobs.IsDone(c.jobs[r.value[i].item])
      && NcCriticalPath(c.jobs[r.value[i].item]) == Success(-r.value[i].key.major)
    decreases |keys|
  {
    if keys == [] then Success([])
    else
      var init :- ScoreJobs(c, keys[..|keys| - 1]);
      var k := keys[|keys| - 1];
      var nc :- NcCriticalPath(c.jobs[k]);
      if Jobs.IsDone(c.jobs[k]) then Success(init)
      else Success(init + [Scored(k, Key(-nc, 0))])
  }

  /** `NC_CP_Planner`: the unfinished job with the largest `nc_criticalPath`
      (against -2), then its available triple with the earliest end. */
  function NcCp(c: Container, sch: Schedule): Result<Decision>
    requires forall k :: k in c.jobs ==> Acyclic(c.jobs[k])
  {
    var jobs :- ScoreJobs(c, SortedKeys(c.jobs.Keys));
    var k :- Pick(jobs, Key(2, 0));
    var job :- GetJob(c, k);
    var scored :- ScoreSlots(Eet, c, sch, JobSlots(k, job));
    Pick(scored, Key(IntMax, 0))
  }

  // ------------------------------------------------------------- demand

  /** The number of alternatives of `entries` on `station`. */
  function CountOn(entries: seq<StationTime>, station: nat): nat {
    |set i | 0 <= i < |entries| && entries[i].station == station|
  }

  /** `stationDemandMap[ots.stationID]++` over the alternatives of one
      operation. */
  function AddEntries(m: map<nat, int>, entries: seq<StationTime>): (r: map<nat, int>)
    decreases |entries|
  {
    if entries == [] then m
    else
      var e := entries[|entries| - 1];
      var m' := AddEntries(m, entries[..|entries| - 1]);
      m'[e.station := DemandAt(m', e.station) + 1]
  }

  /** The demand map over the operations `keys` of `ops` (all of them, or
      only those not done). */
  function AddOps(m: map<nat, int>, ops: map<nat, Operation>, keys: seq<nat>, pendingOnly: bool): map<nat, int>
    requires forall k :: k in keys ==> k in ops
    decreases |keys|
  {
    if keys == [] then m
    else
      var x := keys[|keys| - 1];
      var m' := AddOps(m, ops, keys[..|keys| - 1], pendingOnly);
      if pendingOnly && ops[x].done then m' else AddEntries(m', ops[x].stations)
  }

  function AddJobsDemand(m: map<nat, int>, c: Container, keys: seq<nat>, pendingOnly: bool): map<nat, int>
    requires forall k :: k in keys ==> k in c.jobs
    decreases |keys|
  {
    if keys == [] then m
    else
      var k := keys[|keys| - 1];
      var ops := c.jobs[k].ops;
      AddOps(AddJobsDemand(m, c, keys[..|keys| - 1], pendingOnly), ops, SortedKeys(ops.Keys), pendingOnly)
  }

  /** The station demand maps of `MD_Planner` (operations not done) and
      `plan10` (all operations). */
  function Demand(c: Container, pendingOnly: bool): map<nat, int> {
    AddJobsDemand(map[], c, SortedKeys(c.jobs.Keys), pendingOnly)
  }

  /** The demand of `station` counted directly: per job and counted
      operation, the alternatives on that station. */
  function OpsDemand(ops: map<nat, Operation>, keys: seq<nat>, pendingOnly: bool, station: nat): nat
    requires forall k :: k in keys ==> k in ops
    decreases |keys|
  {
    if keys == [] then 0
    else
      var x := keys[|keys| - 1];
      OpsDemand(ops, keys[..|keys| - 1], pendingOnly, station)
        + (if pendingOnly && ops[x].done then 0 else CountOn(ops[x].stations, station))
  }

  function JobsDemand(c: Container, keys: seq<nat>, pendingOnly: bool, station: nat): nat
    requires forall k :: k in keys ==> k in c.jobs
    decreases |keys|
  {
    if keys == [] then 0
    else
      var k := keys[|keys| - 1];
      var ops := c.jobs[k].ops;
      JobsDemand(c, keys[..|keys| - 1], pendingOnly, station) + OpsDemand(ops, SortedKeys(ops.Keys), pendingOnly, station)
  }

  lemma CountOnSnoc(entries: seq<StationTime>, station: nat)
    requires entries != []
    ensures CountOn(entries, station) == CountOn(entries[..|entries| - 1], station)
      + (if entries[|entries| - 1].station == station then 1 else 0)
  {
    var n := |entries| - 1;
    var init := entries[..n];
    var a := set i | 0 <= i < |entries| && entries[i].station == station;
    var b := set i | 0 <= i < |init| && init[i].station == station;
    if entries[n].station == station {
      assert a == b + {n};
      assert n !in b;
    } else {
      assert a == b;
    }
  }

  lemma {:induction false} AddEntriesCounts(m: map<nat, int>, entries: seq<StationTime>, station: nat)
    ensures DemandAt(AddEntries(m, entries), station) == DemandAt(m, station) + CountOn(entries, station)
    decreases |entries|
  {
    if entries != [] {
      AddEntriesCounts(m, entries[..|entries| - 1], station);
      CountOnSnoc(entries, station);
    }
  }

  lemma {:induction false} AddOpsCounts(m: map<nat, int>, ops: map<nat, Operation>, keys: seq<nat>, pendingOnly: bool, station: nat)
    requires forall k :: k in keys ==> k in ops
    ensures DemandAt(AddOps(m, ops, keys, pendingOnly), station) == DemandAt(m, station) + OpsDemand(ops, keys, pendingOnly, station)
    decreases |keys|
  {
    if keys != [] {
      var x := keys[|keys| - 1];
      AddOpsCounts(m, ops, keys[..|keys| - 1], pendingOnly, station);
      AddEntriesCounts(AddOps(m, ops, keys[..|keys| - 1], pendingOnly), ops[x].stations, station);
    }
  }

  lemma {:induction false} AddJobsDemandCounts(m: map<nat, int>, c: Container, keys: seq<nat>, pendingOnly: bool, station: nat)
    requires forall k :: k in keys ==> k in c.jobs
    ensures DemandAt(AddJobsDemand(m, c, keys, pendingOnly), station) == DemandAt(m, station) + JobsDemand(c, keys, pendingOnly, station)
    decreases |keys|
  {
    if keys != [] {
      var k := keys[|keys| - 1];
      var ops := c.jobs[k].ops;
      AddJobsDemandCounts(m, c, keys[..|keys| - 1], pendingOnly, station);
      AddOpsCounts(AddJobsDemand(m, c, keys[..|keys| - 1], pendingOnly), ops, SortedKeys(ops.Keys), pendingOnly, station);
    }
  }

  /** The incrementally built demand map holds, for every station, the
      number of counted alternatives on it; a station never listed reads 0. */
  lemma DemandCounts(c: Container, pendingOnly: bool, station: nat)
    ensures DemandAt(Demand(c, pendingOnly), station) == JobsDemand(c, SortedKeys(c.jobs.Keys), pendingOnly, station)
  {
    AddJobsDemandCounts(map[], c, SortedKeys(c.jobs.Keys), pendingOnly, station);
  }

  // ---------------------------------------------------------------- policies

  /** The integer-scored planners of ConstructionAlgorithms.cpp. */
  datatype Policy =
    | Greedy(rule: Rule)                       // EIT, EET, SPT, LPT, MS_EET, MS_LAM_EET, MMW_EET, ELFT;
                                               // also the Planner.hpp rules (LeastLoad, SuccessorsThenEnd, DemandThenEnd with any demand map)
    | MinDemand                                // MD: demand of the operations not done
    | DispatchBy(op: OpMode, st: StationMode)  // Dispatch_Planner; LVL is DispatchBy(LongestCriticalPath, EarliestEnd)
    | NcCriticalPathFirst                      // NC_CP

  /** The decision a policy takes on the current state. */
  function Plan(policy: Policy, c: Container, sch: Schedule): Result<Decision>
    requires Graphs(c)
  {
    match policy
    case Greedy(rule) => Decide(rule, c, sch)
    case MinDemand => Decide(Md(Demand(c, true)), c, sch)
    case DispatchBy(op, st) => Dispatch(op, st, c, sch)
    case NcCriticalPathFirst => NcCp(c, sch)
  }

  /** Stage one of `Dispatch` picks an enumerated slot. */
  lemma DispatchSlot(op: OpMode, c: Container) returns (s: Slot)
    requires Graphs(c)
    requires ScoreOps(op, c, Slots(c)).Success?
    requires Pick(ScoreOps(op, c, Slots(c)).value, Key(FloatIntMax, 0)).Success?
    ensures s == Pick(ScoreOps(op, c, Slots(c)).value, Key(FloatIntMax, 0)).value
    ensures s.key in c.jobs && s.jobId == c.jobs[s.key].id && s.opId in c.jobs[s.key].available
  {
    var slots := Slots(c);
    var ops := ScoreOps(op, c, slots).value;
    s := Pick(ops, Key(FloatIntMax, 0)).value;
    var i :| 0 <= i < |ops| && ops[i].item == s;
    assert s == slots[i] && slots[i] in slots;
  }

  /** Stage two of `Dispatch` picks one of the slot's own alternatives. */
  lemma StationPicked(st: StationMode, c: Container, sch: Schedule, s: Slot, entries: seq<StationTime>) returns (j: int)
    requires ScoreStations(st, c, sch, s, entries).Success?
    requires Pick(ScoreStations(st, c, sch, s, entries).value, Key(FloatIntMax, 0)).Success?
    ensures 0 <= j < |entries|
    ensures Pick(ScoreStations(st, c, sch, s, entries).value, Key(FloatIntMax, 0)).value == Decision(entries[j].station, s.opId, s.jobId)
  {
    var stations := ScoreStations(st, c, sch, s, entries).value;
    j :| 0 <= j < |stations| && stations[j].item == Pick(stations, Key(FloatIntMax, 0)).value;
  }

  lemma DispatchInFrontier(op: OpMode, st: StationMode, c: Container, sch: Schedule)
    requires Graphs(c) && Keyed(c)
    requires Dispatch(op, st, c, sch).Success?
    ensures InFrontier(c, Dispatch(op, st, c, sch).value)
  {
    var s := DispatchSlot(op, c);
    var o := c.jobs[s.jobId].ops[s.opId];
    var j := StationPicked(st, c, sch, s, o.stations);
  }

  /** Of the keys of a successful pick, none beats the picked one. */
  lemma PickMinimal<T>(s: seq<Scored<T>>, sentinel: Key, i: int) returns (m: int)
    requires Pick(s, sentinel).Success? && 0 <= i < |s|
    ensures 0 <= m < |s| && s[m].item == Pick(s, sentinel).value
    ensures Less(s[m].key, sentinel) && !Less(s[i].key, s[m].key)
  {
    m :| IsFirstMin(KeysOf(s), m) && Less(s[m].key, sentinel) && s[m].item == Pick(s, sentinel).value;
    assert KeysOf(s)[i] == s[i].key && KeysOf(s)[m] == s[m].key;
  }

  /** Stage one of `Dispatch`: no available operation has a smaller
      operation score than the picked one. */
  lemma DispatchOpStage(op: OpMode, c: Container, k: nat, x: nat) returns (s: Slot)
    requires Graphs(c) && Keyed(c)
    requires ScoreOps(op, c, Slots(c)).Success?
    requires Pick(ScoreOps(op, c, Slots(c)).value, Key(FloatIntMax, 0)).Success?
    requires k in c.jobs && x in c.jobs[k].available && x in c.jobs[k].ops
    ensures s == Pick(ScoreOps(op, c, Slots(c)).value, Key(FloatIntMax, 0)).value
    ensures s.key in c.jobs && s.key == s.jobId && s.opId in c.jobs[s.key].ops
    ensures OpValue(op, c.jobs[s.key], s.opId) <= OpValue(op, c.jobs[k], x)
  {
    var slots := Slots(c);
    var ops := ScoreOps(op, c, slots).value;
    SlotsComplete(c, k, x);
    var i :| 0 <= i < |slots| && slots[i] == Slot(k, c.jobs[k].id, x);
    var m := PickMinimal(ops, Key(FloatIntMax, 0), i);
    s := ops[m].item;
    assert s == slots[m] && slots[m] in slots;
    ScoreOpsKey(op, c, slots, i);
    ScoreOpsKey(op, c, slots, m);
  }

  /** `Dispatch_Planner` (LVL for modes 1 and 0): the decided operation has
      the least operation score among all available operations. For LVL
      that is the largest critical path. */
  lemma DispatchOpMinimal(op: OpMode, st: StationMode, c: Container, sch: Schedule, k: nat, x: nat)
    requires Graphs(c) && Keyed(c)
    requires Dispatch(op, st, c, sch).Success?
    requires k in c.jobs && x in c.jobs[k].available && x in c.jobs[k].ops
    ensures var d := Dispatch(op, st, c, sch).value;
      && d.jobId in c.jobs && d.opId in c.jobs[d.jobId].ops
      && OpValue(op, c.jobs[d.jobId], d.opId) <= OpValue(op, c.jobs[k], x)
  {
    var s := DispatchOpStage(op, c, k, x);
    var o := c.jobs[s.jobId].ops[s.opId];
    var j := StationPicked(st, c, sch, s, o.stations);
  }

  /** Stage two of `Dispatch` on one slot: none of the slot's alternatives
      has a smaller station score than the picked one. */
  lemma DispatchStationStage(st: StationMode, c: Container, sch: Schedule, s: Slot, entries: seq<StationTime>, e: StationTime)
    returns (de: StationTime)
    requires ScoreStations(st, c, sch, s, entries).Success?
    requires Pick(ScoreStations(st, c, sch, s, entries).value, Key(FloatIntMax, 0)).Success?
    requires e in entries
    ensures de in entries
    ensures Pick(ScoreStations(st, c, sch, s, entries).value, Key(FloatIntMax, 0)).value == Decision(de.station, s.opId, s.jobId)
    ensures StationValue(st, c, sch, s, de).Success? && StationValue(st, c, sch, s, e).Success?
    ensures StationValue(st, c, sch, s, de).value <= StationValue(st, c, sch, s, e).value
  {
    var stations := ScoreStations(st, c, sch, s, entries).value;
    var ei :| 0 <= ei < |entries| && entries[ei] == e;
    var m := PickMinimal(stations, Key(FloatIntMax, 0), ei);
    de := entries[m];
  }

  /** `Dispatch_Planner` stage two: among the alternatives of the decided
      operation, none has a smaller station score than the decided station
      (the earliest end for mode 0, the shortest time for mode 2). */
  lemma DispatchStationMinimal(op: OpMode, st: StationMode, c: Container, sch: Schedule, e: StationTime)
    returns (de: StationTime)
    requires Graphs(c) && Keyed(c)
    requires Dispatch(op, st, c, sch).Success?
    requires var d := Dispatch(op, st, c, sch).value;
      d.jobId in c.jobs && d.opId in c.jobs[d.jobId].ops && e in c.jobs[d.jobId].ops[d.opId].stations
    ensures var d := Dispatch(op, st, c, sch).value;
      var s := Slot(d.jobId, d.jobId, d.opId);
      && de in c.jobs[d.jobId].ops[d.opId].stations && de.station == d.station
      && StationValue(st, c, sch, s, de).Success? && StationValue(st, c, sch, s, e).Success?
      && StationValue(st, c, sch, s, de).value <= StationValue(st, c, sch, s, e).value
  {
    var s := DispatchSlot(op, c);
    assert s.key == s.jobId;
    var entries := c.jobs[s.jobId].ops[s.opId].stations;
    assert Dispatch(op, st, c, sch) == Pick(ScoreStations(st, c, sch, s, entries).value, Key(FloatIntMax, 0));
    var j := StationPicked(st, c, sch, s, entries);
    assert s == Slot(s.jobId, s.jobId, s.opId);
    de := DispatchStationStage(st, c, sch, s, entries, e);
  }

  lemma JobSlotsAvailable(c: Container, k: nat)
    requires k in c.jobs
    ensures forall s :: s in JobSlots(k, c.jobs[k]) ==>
      s.key in c.jobs && s.jobId == c.jobs[s.key].id && s.opId in c.jobs[s.key].available
  {
  }

  lemma NcCpInFrontier(c: Container, sch: Schedule)
    requires forall k :: k in c.jobs ==> Acyclic(c.jobs[k])
    requires Keyed(c)
    requires NcCp(c, sch).Success?
    ensures InFrontier(c, NcCp(c, sch).value)
  {
    var jobs := ScoreJobs(c, SortedKeys(c.jobs.Keys)).value;
    var k := Pick(jobs, Key(2, 0)).value;
    var slots := JobSlots(k, c.jobs[k]);
    JobSlotsAvailable(c, k);
    ScoreSlotsInFrontier(Eet, c, sch, slots);
  }

  /** Every unfinished job among `keys` is scored by stage one of NC_CP. */
  lemma {:induction false} ScoreJobsComplete(c: Container, keys: seq<nat>, k: nat) returns (i: int)
    requires forall k :: k in keys ==> k in c.jobs && Acyclic(c.jobs[k])
    requires ScoreJobs(c, keys).Success?
    requires k in keys && !Jobs.IsDone(c.jobs[k])
    ensures 0 <= i < |ScoreJobs(c, keys).value| && ScoreJobs(c, keys).value[i].item == k
    decreases |keys|
  {
    var init := keys[..|keys| - 1];
    assert forall j :: j in init ==> j in keys;
    assert ScoreJobs(c, init).Success?;
    if k == keys[|keys| - 1] {
      i := |ScoreJobs(c, init).value|;
    } else {
      assert k in init by {
        var j :| 0 <= j < |keys| && keys[j] == k;
        assert init[j] == k;
      }
      i := ScoreJobsComplete(c, init, k);
      assert ScoreJobs(c, keys).value[i] == ScoreJobs(c, init).value[i];
    }
  }

  /** Stage one of NC_CP: no unfinished job among `keys` has a larger
      `nc_criticalPath` than the picked job. */
  lemma NcCpJobStage(c: Container, keys: seq<nat>, k: nat) returns (p: nat)
    requires forall k :: k in keys ==> k in c.jobs && Acyclic(c.jobs[k])
    requires ScoreJobs(c, keys).Success? && Pick(ScoreJobs(c, keys).value, Key(2, 0)).Success?
    requires k in keys && !Jobs.IsDone(c.jobs[k])
    ensures p == Pick(ScoreJobs(c, keys).value, Key(2, 0)).value
    ensures p in keys && !Jobs.IsDone(c.jobs[p])
    ensures NcCriticalPath(c.jobs[p]).Success? && NcCriticalPath(c.jobs[k]).Success?
    ensures NcCriticalPath(c.jobs[k]).value <= NcCriticalPath(c.jobs[p]).value
  {
    var jobs := ScoreJobs(c, keys).value;
    var i := ScoreJobsComplete(c, keys, k);
    var m := PickMinimal(jobs, Key(2, 0), i);
    p := jobs[m].item;
  }

  /** `NC_CP_Planner`: the decided triple belongs to an unfinished job whose
      `nc_criticalPath` is at least that of every unfinished job. */
  lemma NcCpLargestCriticalPath(c: Container, sch: Schedule, k: nat)
    requires forall k :: k in c.jobs ==> Acyclic(c.jobs[k])
    requires Keyed(c)
    requires NcCp(c, sch).Success?
    requires k in c.jobs && !Jobs.IsDone(c.jobs[k])
    ensures var d := NcCp(c, sch).value;
      && d.jobId in c.jobs && !Jobs.IsDone(c.jobs[d.jobId])
      && NcCriticalPath(c.jobs[d.jobId]).Success? && NcCriticalPath(c.jobs[k]).Success?
      && NcCriticalPath(c.jobs[k]).value <= NcCriticalPath(c.jobs[d.jobId]).value
  {
    var p := NcCpJobStage(c, SortedKeys(c.jobs.Keys), k);
    var slots := JobSlots(p, c.jobs[p]);
    var scored := ScoreSlots(Eet, c, sch, slots).value;
    assert NcCp(c, sch) == Pick(scored, Key(IntMax, 0));
    var m :| IsFirstMin(KeysOf(scored), m) && scored[m].item == NcCp(c, sch).value;
    JobSlotsAvailable(c, p);
    var j, ei := ScoredFrom(Eet, c, sch, slots, m);
  }

  /** Every modelled planner decides a frontier triple: an available
      operation of a known job, on one of its eligible stations. */
  lemma PlanInFrontier(policy: Policy, c: Container, sch: Schedule)
    requires Graphs(c) && Keyed(c)
    requires Plan(policy, c, sch).Success?
    ensures InFrontier(c, Plan(policy, c, sch).value)
  {
    match policy
    case Greedy(rule) => DecideInFrontier(rule, c, sch);
    case MinDemand => DecideInFrontier(Md(Demand(c, true)), c, sch);
    case DispatchBy(op, st) => DispatchInFrontier(op, st, c, sch);
    case NcCriticalPathFirst => NcCpInFrontier(c, sch);
  }
}

=== FILE: selection.dfy ===
/** The selection rule shared by every dispatch loop of the source: walk the
    candidates in enumeration order and replace the current best only on a
    STRICT improvement, starting from a sentinel best. Two-key rules such as
    "most successors, then earliest end" compare lexicographically. */
module Selection {
  import opened Wrappers

  /** A score; single-key rules leave `minor` at 0. */
  datatype Key = Key(major: int, minor: int)

  /** Strict lexicographic order on keys. */
  predicate Less(a: Key, b: Key) {
    a.major < b.major || (a.major == b.major && a.minor < b.minor)
  }

  /** `i` holds a minimal key, and every earlier key is strictly larger:
      the first minimum in enumeration order. */
  ghost predicate IsFirstMin(keys: seq<Key>, i: int) {
    && 0 <= i < |keys|
    && (forall j :: 0 <= j < |keys| ==> !Less(keys[j], keys[i]))
    && (forall j :: 0 <= j < i ==> Less(keys[i], keys[j]))
  }

  /** The source's loop `if (key < best) { best = key; pick = i; }` started
      from `best = sentinel`. `None` is the case where no key beats the
      sentinel and the pick is never written. */
  function FirstMin(keys: seq<Key>, sentinel: Key): (r: Option<nat>)
    ensures r.Some? ==> IsFirstMin(keys, r.value) && Less(keys[r.value], sentinel)
    ensures r.None? ==> forall j :: 0 <= j < |keys| ==> !Less(keys[j], sentinel)
    decreases |keys|
  {
    if keys == [] then None
    else
      var prev := FirstMin(keys[..|keys| - 1], sentinel);
      var best := if prev.Some? then keys[prev.value] else sentinel;
      if Less(keys[|keys| - 1], best) then Some(|keys| - 1) else prev
  }

  /** The first minimum is unique, so the contract of `FirstMin` pins its
      result down completely. */
  lemma FirstMinUnique(keys: seq<Key>, i: int, j: int)
    requires IsFirstMin(keys, i) && IsFirstMin(keys, j)
    ensures i == j
  {
    assert !Less(keys[j], keys[i]) && !Less(keys[i], keys[j]);
  }

  /** Whenever some key beats the sentinel, the loop selects exactly the
      first minimum. */
  lemma FirstMinSelects(keys: seq<Key>, sentinel: Key, i: int)
    requires IsFirstMin(keys, i) && Less(keys[i], sentinel)
    ensures FirstMin(keys, sentinel) == Some(i)
  {
    var r := FirstMin(keys, sentinel);
    if r.Some? {
      FirstMinUnique(keys, r.value, i);
    }
  }
}

=== FILE: timeline.dfy ===
/** `fjss::Schedule` (src/FJSS.cpp:310-413): one append-only lane of
    placements per station, the earliest-start and earliest-end queries, and
    `stackScheduleOperation`, the commit primitive. */
module Timeline {
  import opened Wrappers
  import opened Operations
  import opened Jobs
  import opened Containers

  /** `ScheduledOperation`. */
  datatype Placement = Placement(
    jobId: nat, jobTypeId: nat, opId: nat, opTypeId: nat,
    station: nat, start: int, duration: int)

  /** `ScheduledOperation::endTime`. */
  function End(p: Placement): int {
    p.start + p.duration
  }

  datatype Schedule = Schedule(lanes: seq<seq<Placement>>)

  /** `Schedule(stationsCount)`: one empty lane per station. */
  function NewSchedule(stationCount: nat): (r: Schedule)
    ensures |r.lanes| == stationCount
    ensures forall s :: 0 <= s < stationCount ==> r.lanes[s] == []
  {
    Schedule(seq(stationCount, _ => []))
  }

  /** `clear`: every lane emptied, the number of stations kept. */
  function Clear(sch: Schedule): (r: Schedule)
    ensures |r.lanes| == |sch.lanes|
    ensures forall s :: 0 <= s < |r.lanes| ==> r.lanes[s] == []
  {
    NewSchedule(|sch.lanes|)
  }

  /** End of the last placement of a lane, 0 for an empty lane. */
  function LaneEnd(lane: seq<Placement>): int {
    if lane == [] then 0 else End(lane[|lane| - 1])
  }

  /** `getStationAvabilityTime`: throws for a station index past the last lane. */
  function Availability(sch: Schedule, station: nat): (r: Result<int>)
    ensures r.Success? <==> station < |sch.lanes|
    ensures r.Failure? ==> r.error == NoSuchStation
    ensures r.Success? && sch.lanes[station] == [] ==> r.value == 0
    ensures r.Success? && sch.lanes[station] != [] ==> r.value == End(sch.lanes[station][|sch.lanes[station]| - 1])
  {
    if station < |sch.lanes| then Success(LaneEnd(sch.lanes[station])) else Failure(NoSuchStation)
  }

  /** The loop of `makeSpan` over the first `n` lanes. */
  function MakeSpanOf(lanes: seq<seq<Placement>>): (r: int)
    ensures r >= 0
    ensures forall s :: 0 <= s < |lanes| && lanes[s] != [] ==> LaneEnd(lanes[s]) <= r
    ensures r == 0 || exists s :: 0 <= s < |lanes| && lanes[s] != [] && LaneEnd(lanes[s]) == r
    decreases |lanes|
  {
    if lanes == [] then 0
    else
      var rest := MakeSpanOf(lanes[..|lanes| - 1]);
      var last := lanes[|lanes| - 1];
      assert forall s :: 0 <= s < |lanes| - 1 ==> lanes[s] == lanes[..|lanes| - 1][s];
      if last == [] then rest
      else if rest < LaneEnd(last) then LaneEnd(last) else rest
  }

  /** `makeSpan`: the latest end over all lanes, 0 when nothing is placed. */
  function MakeSpan(sch: Schedule): (r: int)
    ensures r >= 0
    ensures forall s :: 0 <= s < |sch.lanes| && sch.lanes[s] != [] ==> LaneEnd(sch.lanes[s]) <= r
    ensures r == 0 || exists s :: 0 <= s < |sch.lanes| && sch.lanes[s] != [] && LaneEnd(sch.lanes[s]) == r
  {
    MakeSpanOf(sch.lanes)
  }

  /** `job.getOperation(id)`: `std::map::at` throws for an unknown id. */
  function GetOperation(job: Job, opId: nat): (r: Result<Operation>)
    ensures r.Success? <==> opId in job.ops
    ensures r.Success? ==> r.value == job.ops[opId]
    ensures r.Failure? ==> r.error == NoSuchOperation
  {
    if opId in job.ops then Success(job.ops[opId]) else Failure(NoSuchOperation)
  }

  /** `fastestTimeForScheduleOperation`: the later of the operation's last
      predecessor end and the station's availability. The station is checked
      first, then the job, then the operation. */
  function FastestStart(sch: Schedule, c: Container, station: nat, jobId: nat, opId: nat): (r: Result<int>)
    ensures station >= |sch.lanes| ==> r == Failure(NoSuchStation)
    ensures station < |sch.lanes| && jobId !in c.jobs ==> r == Failure(NoSuchJob)
    ensures station < |sch.lanes| && jobId in c.jobs && opId !in c.jobs[jobId].ops ==> r == Failure(NoSuchOperation)
    ensures r.Success? <==> station < |sch.lanes| && jobId in c.jobs && opId in c.jobs[jobId].ops
    ensures r.Success? ==>
      var o := c.jobs[jobId].ops[opId];
      var avail := LaneEnd(sch.lanes[station]);
      && r.value >= o.lastPredTime && r.value >= avail
      && (r.value == o.lastPredTime || r.value == avail)
  {
    if station >= |sch.lanes| then Failure(NoSuchStation)
    else
      var job :- GetJob(c, jobId);
      var o :- GetOperation(job, opId);
      var avail := LaneEnd(sch.lanes[station]);
      Success(if o.lastPredTime < avail then avail else o.lastPredTime)
  }

  /** `fastestEndTimeForScheduleOperation`: the fastest start plus the time of
      the first entry for the station; throws when there is none. */
  function FastestEnd(sch: Schedule, c: Container, station: nat, jobId: nat, opId: nat): (r: Result<int>)
    ensures FastestStart(sch, c, station, jobId, opId).Failure? ==>
      r == FastestStart(sch, c, station, jobId, opId)
    ensures FastestStart(sch, c, station, jobId, opId).Success? ==>
      var t := ProcessTimeOn(c.jobs[jobId].ops[opId], station);
      && (t.Failure? ==> r == Failure(IneligibleStation))
      && (t.Success? ==> r == Success(FastestStart(sch, c, station, jobId, opId).value + t.value))
  {
    var start :- FastestStart(sch, c, station, jobId, opId);
    var time :- ProcessTimeOn(c.jobs[jobId].ops[opId], station);
    Success(start + time)
  }

  /** The outcome of a commit: the new timeline, the new container (with the
      operation dumped at the placement's end) and the placement itself. */
  datatype Stacked = Stacked(schedule: Schedule, container: Container, placed: Placement)

  /** The placement `stackScheduleOperation` builds and appends. */
  ghost predicate Appended(sch: Schedule, c: Container, station: nat, jobId: nat, opId: nat, r: Stacked) {
    && station < |sch.lanes| && jobId in c.jobs && opId in c.jobs[jobId].ops
    && var job := c.jobs[jobId];
       var o := job.ops[opId];
       var p := r.placed;
       && p.jobId == jobId && p.jobTypeId == job.typeId && p.opId == opId && p.opTypeId == o.typeId
       && p.station == station
       && Success(p.start) == FastestStart(sch, c, station, jobId, opId)
       && Success(p.duration) == ProcessTimeOn(o, station)
       && |r.schedule.lanes| == |sch.lanes|
       && r.schedule.lanes[station] == sch.lanes[station] + [p]
       && (forall s :: 0 <= s < |sch.lanes| && s != station ==> r.schedule.lanes[s] == sch.lanes[s])
       && r.container == DumpIn(c, jobId, opId, End(p)).1
  }

  /** `stackScheduleOperation` AS WRITTEN: the job and the operation are looked
      up first, then the station is checked, then the duration; the placement
      is appended and `dumpOperation` is called with its end, but the result
      of `dumpOperation` is ignored, so an operation that is not available
      (already done, or still waiting for a predecessor) is placed anyway. */
  function Stack(sch: Schedule, c: Container, station: nat, jobId: nat, opId: nat): (r: Result<Stacked>)
    ensures jobId !in c.jobs ==> r == Failure(NoSuchJob)
    ensures jobId in c.jobs && opId !in c.jobs[jobId].ops ==> r == Failure(NoSuchOperation)
    ensures jobId in c.jobs && opId in c.jobs[jobId].ops && station >= |sch.lanes| ==> r == Failure(NoSuchStation)
    ensures r.Success? <==>
      && jobId in c.jobs && opId in c.jobs[jobId].ops && station < |sch.lanes|
      && ProcessTimeOn(c.jobs[jobId].ops[opId], station).Success?
    ensures r.Failure? && jobId in c.jobs && opId in c.jobs[jobId].ops && station < |sch.lanes| ==>
      r.error == IneligibleStation
    ensures r.Success? ==> Appended(sch, c, station, jobId, opId, r.value)
  {
    var job :- GetJob(c, jobId);
    var o :- GetOperation(job, opId);
    var start :- FastestStart(sch, c, station, jobId, opId);
    var duration :- ProcessTimeOn(o, station);
    var p := Placement(jobId, job.typeId, opId, o.typeId, station, start, duration);
    var lanes := sch.lanes[station := sch.lanes[station] + [p]];
    Success(Stacked(Schedule(lanes), DumpIn(c, jobId, opId, End(p)).1, p))
  }

  /** The commit the model's solver uses: `stackScheduleOperation` that first
      refuses an operation that is not in its job's available list, before
      anything is changed. */
  function Commit(sch: Schedule, c: Container, station: nat, jobId: nat, opId: nat): (r: Result<Stacked>)
    ensures r.Success? <==>
      && jobId in c.jobs && opId in c.jobs[jobId].available && opId in c.jobs[jobId].ops
      && station < |sch.lanes| && ProcessTimeOn(c.jobs[jobId].ops[opId], station).Success?
    ensures jobId in c.jobs && opId in c.jobs[jobId].ops && opId !in c.jobs[jobId].available ==>
      r == Failure(NotAvailable)
    ensures r.Success? ==> Appended(sch, c, station, jobId, opId, r.value)
    ensures r.Success? ==> r == Stack(sch, c, station, jobId, opId)
  {
    var job :- GetJob(c, jobId);
    var _ :- GetOperation(job, opId);
    if opId !in job.available then Failure(NotAvailable)
    else Stack(sch, c, station, jobId, opId)
  }

  // -------------------------------------------------------------- invariants

  /** Placements on one lane follow each other: each starts no earlier than
      the previous one ends, and none has a negative start or duration. */
  ghost predicate Ordered(lane: seq<Placement>) {
    && (forall i :: 0 <= i < |lane| ==> lane[i].start >= 0 && lane[i].duration >= 0)
    && (forall i :: 0 < i < |lane| ==> End(lane[i - 1]) <= lane[i].start)
  }

  /** No two placements on the same station overlap in time. */
  ghost predicate NoOverlap(lane: seq<Placement>) {
    forall i, j :: 0 <= i < j < |lane| ==> End(lane[i]) <= lane[j].start
  }

  /** A timeline whose lanes are all ordered. */
  ghost predicate Sound(sch: Schedule) {
    forall s :: 0 <= s < |sch.lanes| ==> Ordered(sch.lanes[s])
  }

  /** On an ordered lane every placement ends no later than any later one
      starts: the lane is free of overlaps. */
  lemma {:induction false} OrderedNoOverlap(lane: seq<Placement>)
    requires Ordered(lane)
    ensures NoOverlap(lane)
    decreases |lane|
  {
    if |lane| > 1 {
      var init := lane[..|lane| - 1];
      assert Ordered(init) by {
        assert forall i :: 0 <= i < |init| ==> init[i] == lane[i];
      }
      OrderedNoOverlap(init);
      var last := |lane| - 1;
      forall i, j | 0 <= i < j < |lane| ensures End(lane[i]) <= lane[j].start {
        if j < last {
          assert lane[i] == init[i] && lane[j] == init[j];
        } else if i < last - 1 {
          assert lane[i] == init[i] && lane[last - 1] == init[last - 1];
          assert End(lane[i]) <= lane[last - 1].start <= End(lane[last - 1]);
        }
      }
    }
  }

  /** An ordered lane ends no earlier than any of its placements. */
  lemma {:induction false} LaneEndBounds(lane: seq<Placement>, i: int)
    requires Ordered(lane) && 0 <= i < |lane|
    ensures End(lane[i]) <= LaneEnd(lane)
  {
    OrderedNoOverlap(lane);
    var last := |lane| - 1;
    if i < last {
      assert End(lane[i]) <= lane[last].start <= End(lane[last]);
    }
  }

  /** A commit onto a sound timeline keeps it sound when the operation's time
      on that station is not negative. */
  lemma StackSound(sch: Schedule, c: Container, station: nat, jobId: nat, opId: nat)
    requires Sound(sch)
    requires Stack(sch, c, station, jobId, opId).Success?
    requires Stack(sch, c, station, jobId, opId).value.placed.duration >= 0
    ensures Sound(Stack(sch, c, station, jobId, opId).value.schedule)
  {
    var r := Stack(sch, c, station, jobId, opId).value;
    var lane := r.schedule.lanes[station];
    var old_ := sch.lanes[station];
    assert r.placed.start >= LaneEnd(old_);
    assert r.placed.start >= 0 by {
      if old_ != [] {
        assert Ordered(old_);
        assert End(old_[|old_| - 1]) >= 0;
      }
    }
    assert Ordered(lane) by {
      forall i | 0 <= i < |lane| ensures lane[i].start >= 0 && lane[i].duration >= 0 {
        if i < |old_| { assert lane[i] == old_[i]; }
      }
      forall i | 0 < i < |lane| ensures End(lane[i - 1]) <= lane[i].start {
        if i < |old_| { assert lane[i - 1] == old_[i - 1] && lane[i] == old_[i]; }
      }
    }
    forall s | 0 <= s < |r.schedule.lanes| ensures Ordered(r.schedule.lanes[s]) {
      if s != station { assert r.schedule.lanes[s] == sch.lanes[s]; }
    }
  }

  /** On a sound timeline a commit with a non-negative duration can only push
      the makespan out: the new makespan is the old one or the new end. */
  lemma StackMakeSpan(sch: Schedule, c: Container, station: nat, jobId: nat, opId: nat)
    requires Sound(sch)
    requires Stack(sch, c, station, jobId, opId).Success?
    requires Stack(sch, c, station, jobId, opId).value.placed.duration >= 0
    ensures var r := Stack(sch, c, station, jobId, opId).value;
      && MakeSpan(sch) <= MakeSpan(r.schedule)
      && MakeSpan(r.schedule) == (if MakeSpan(sch) < End(r.placed) then End(r.placed) else MakeSpan(sch))
  {
    var r := Stack(sch, c, station, jobId, opId).value;
    var m := MakeSpan(sch);
    var m' := MakeSpan(r.schedule);
    var e := End(r.placed);
    var old_ := sch.lanes[station];
    assert LaneEnd(r.schedule.lanes[station]) == e;
    // the new end is at least the old end of its lane
    assert e >= LaneEnd(old_) by {
      if old_ != [] {
        assert Ordered(old_);
        assert End(old_[|old_| - 1]) >= 0;
      }
    }
    assert m' >= e;
    if m != 0 {
      var s :| 0 <= s < |sch.lanes| && sch.lanes[s] != [] && LaneEnd(sch.lanes[s]) == m;
      if s != station {
        assert r.schedule.lanes[s] == sch.lanes[s];
      }
    }
    if m' != 0 {
      var s :| 0 <= s < |r.schedule.lanes| && r.schedule.lanes[s] != [] && LaneEnd(r.schedule.lanes[s]) == m';
      if s != station {
        assert r.schedule.lanes[s] == sch.lanes[s];
      }
    }
  }

  /** The number of placements over all lanes. */
  function PlacedOn(lanes: seq<seq<Placement>>): nat
    decreases |lanes|
  {
    if lanes == [] then 0 else PlacedOn(lanes[..|lanes| - 1]) + |lanes[|lanes| - 1]|
  }

  function Placed(sch: Schedule): nat {
    PlacedOn(sch.lanes)
  }

  /** Replacing one lane changes the count by the difference in its length. */
  lemma {:induction false} PlacedOnUpdate(lanes: seq<seq<Placement>>, i: int, lane: seq<Placement>)
    requires 0 <= i < |lanes|
    ensures PlacedOn(lanes[i := lane]) == PlacedOn(lanes) - |lanes[i]| + |lane|
    decreases |lanes|
  {
    var n := |lanes| - 1;
    var u := lanes[i := lane];
    assert u[..n] == if i == n then lanes[..n] else lanes[..n][i := lane];
    if i < n {
      PlacedOnUpdate(lanes[..n], i, lane);
    }
  }

  /** Every commit appends exactly one placement. */
  lemma StackPlacesOne(sch: Schedule, c: Container, station: nat, jobId: nat, opId: nat)
    requires Stack(sch, c, station, jobId, opId).Success?
    ensures Placed(Stack(sch, c, station, jobId, opId).value.schedule) == Placed(sch) + 1
  {
    var r := Stack(sch, c, station, jobId, opId).value;
    assert r.schedule.lanes == sch.lanes[station := sch.lanes[station] + [r.placed]];
    PlacedOnUpdate(sch.lanes, station, sch.lanes[station] + [r.placed]);
  }

  /** A fresh timeline holds no placement. */
  lemma {:induction false} NewSchedulePlacesNone(stationCount: nat)
    ensures Placed(NewSchedule(stationCount)) == 0
    decreases stationCount
  {
    if stationCount > 0 {
      var n := stationCount - 1;
      assert NewSchedule(stationCount).lanes[..n] == NewSchedule(n).lanes;
      NewSchedulePlacesNone(n);
    }
  }

  // ----------------------------------------------------------------- finding

  /** One job whose only operation is already done: nothing is available. */
  const FinishedJob := Job(0, 0,
    map[0 := Operation(0, 0, [StationTime(0, 5)], [], {}, 0, true)], [], map[0 := []])

  /** `stackScheduleOperation` places the finished operation a second time:
      the placement is appended although `dumpOperation` refuses it. The
      corrected commit refuses it before changing anything. */
  lemma StackPlacesUnavailable()
    ensures var c := Container(map[0 := FinishedJob], 1);
      && Stack(NewSchedule(1), c, 0, 0, 0).Success?
      && |Stack(NewSchedule(1), c, 0, 0, 0).value.schedule.lanes[0]| == 1
      && Commit(NewSchedule(1), c, 0, 0, 0) == Failure(NotAvailable)
  {
    var c := Container(map[0 := FinishedJob], 1);
    assert ProcessTimeOn(FinishedJob.ops[0], 0) == Success(5);
    assert NewSchedule(1).lanes[0] == [];
  }
}

=== FILE: wrappers.dfy ===
/** Failure-compatible wrappers shared by the whole model.

    The source signals failures in three ways: by throwing `std::runtime_error`,
    by throwing from `std::map::at`, and by reading an uninitialised decision
    when a dispatch loop never selects anything. All of them become a `Failure`
    carrying one `Error` value here. */
module Wrappers {

  datatype Option<+T> = None | Some(value: T)

  /** The error kinds of the scheduling engine. */
  datatype Error =
    | NoSuchStation       // station index >= number of stations
    | IneligibleStation   // operation has no (station, time) entry for the station
    | NoSuchJob           // `JobContainer::getJob` on an unknown job id
    | NoSuchOperation     // `Job::getOperation` (or `at`) on an unknown operation id
    | NoShortestStation   // `calculateES` finds no station whose time equals the shortest
    | NoSelection         // a dispatch loop never beat its sentinel: the decision is uninitialised
    | NotAvailable        // commit of an operation outside its job's available list

  datatype Result<+T> = Success(value: T) | Failure(error: Error) {

    predicate IsFailure() {
      Failure?
    }

    function PropagateFailure<U>(): Result<U>
      requires Failure?
    {
      Failure(error)
    }

    function Extract(): T
      requires Success?
    {
      value
    }
  }
}
